=== FILE: README.md ===
# KDevelop language core, modelled in Dafny

This project models a slice of KDevelop's language and debugger core as pure
Dafny functions and proves properties about them. It covers:

- **The DUChain registry** (`DUChain`). This is the process-wide map from a
  document key (url plus identity) to the top context parsed for it, with
  the parsing-environment managers and the observer list. The model covers
  lookup by exact key and by url with `lowerBound`, the enumeration of every
  parse of a url, registration and removal of chains and managers, hand-over
  of environment files, and `clear`.
- **What the DUChain test suite pins down.** Five parts of the test file
  are modelled:
  - the naive `TestContext` import structure and its `collectImports`
    walk (`ImportStructure`);
  - the repository sets checked against `std::set` merges
    (`SetRepository`);
  - indexed-string interning (`Interning`);
  - qualified identifiers (`Identifiers`);
  - ordering of child contexts (`ContextTree`).
- **The token-cursor helpers of the old C++ parser** (`TokenScanner`). These
  are the skip loops, the expression skippers, the cv-qualifier, operator and
  pointer-operator parsers, the one-token specifier classifiers and the
  reporter that stops forwarding errors after five.
- **The Docker runtime** (`DockerRuntime`). This covers the `docker run`
  command line with one `--volume` mount per project, and the translation of
  paths between host and container.
- **The breakpoint item of the debugger's breakpoint table**
  (`BreakpointItem`). This covers column edits, the helper row, the
  location text, and save/load through a config group.

`Wrappers`, `Text` and `Sequences` hold shared helpers: `Option`, Qt-style
string operations and decimal conversion, and list filters.

Pointers to heap objects (top contexts, managers, observers, test contexts)
are modelled as identities. The objects an operation touches live in the
value passed in and returned. Locks and debug output have no counterpart.

## Model

| member | source | states |
|---|---|---|
| DUChain.Insert | language/duchain/duchain.cpp:86 | after `QMap::insert` the key maps to the new chain, every other key maps to what it did, no foreign entry appears, and key order is kept |
| DUChain.Remove | language/duchain/duchain.cpp:77 | after `QMap::remove` the key is gone, every other key maps to what it did, and key order is kept |
| DUChain.InsertThenRemove | language/duchain/duchain.cpp:72-89 | removing a key after inserting it leaves the map as removing alone would, so a registration is fully undone |
| DUChain.LowerBound | language/duchain/duchain.cpp:131 | `lowerBound` is the first position whose key is not below the searched key: all keys before it are below, the one at it is not |
| DUChain.AnyParseLookup | language/duchain/duchain.cpp:127-140 | in a sorted map, a lookup with identity 0 finds a chain exactly when some entry has that url, and what it finds is registered under that url |
| DUChain.ChainsForDocumentComplete | language/duchain/duchain.cpp:142-155 | the scan from `lowerBound` that stops at the first other url returns every chain of the url, in key order |
| DUChain.Documents | language/duchain/duchain.cpp:268-275 | `documents()` lists the url of every key, one per entry, in key order |
| DUChain.AddToEnvironmentManager | language/duchain/duchain.cpp:91-105 | the context's environment file is added to the manager of its type only; nothing changes without a file or without a manager of that type |
| DUChain.RemoveFromEnvironmentManager | language/duchain/duchain.cpp:107-121 | the context's environment file is removed from the manager of its type only; nothing changes without a file or a manager |
| DUChain.UpdateContextEnvironment | language/duchain/duchain.cpp:63-69 | the old file leaves its manager, the context gets the new file, the new file joins its manager, and registry validity is kept |
| DUChain.AddParsingEnvironmentManager | language/duchain/duchain.cpp:251-256 | a manager whose type is not registered yet (the source asserts this) is stored under its type; nothing else changes |
| DUChain.RemoveParsingEnvironmentManager | language/duchain/duchain.cpp:258-266 | after removal no manager is registered for the type, whether or not one was |
| DUChain.ManagerRoundTrip | language/duchain/duchain.cpp:251-266 | registering and then removing a manager restores the registry |
| DUChain.AddDocumentChain | language/duchain/duchain.cpp:80-89 | the chain is stored under the key, an exact lookup finds it, it is flagged as in the chain, its file joins its manager, other keys and contexts keep their values, and validity is kept |
| DUChain.RemoveDocumentChain | language/duchain/duchain.cpp:72-78 | the key is erased, every other key keeps its chain, and contexts, managers and observers are untouched |
| DUChain.ChainForEnvironment | language/duchain/duchain.cpp:157-169 | with a manager for the environment's type, its match decides (none gives none, a file gives the chain of the file's key); without one, the lookup falls back to the url |
| DUChain.Clear | language/duchain/duchain.cpp:171-183 | the chain map is emptied, every registered context is deleted and no other, every manager is emptied but stays registered, observers stay |
| DUChain.AddObserver | language/duchain/duchain.cpp:192-198 | an observer not yet present (the source asserts this) is appended; nothing else changes |
| DUChain.RemoveObserver | language/duchain/duchain.cpp:200-205 | every occurrence of the observer goes and the other observers stay, each with its count and in their order |
| DUChain.ObserverRoundTrip | language/duchain/duchain.cpp:192-205 | adding a new observer and removing it restores the registry |
| ImportStructure.Collect | languages/cpp/cppduchain/tests/test_duchain.cpp:2500-2506 | the walk only grows the visited set, stays inside the graph and always holds its start |
| ImportStructure.CollectIsReachability | languages/cpp/cppduchain/tests/test_duchain.cpp:2500-2506 | `collectImports` from an empty set collects exactly the contexts reachable by import edges, the start included |
| ImportStructure.Init | languages/cpp/cppduchain/tests/test_duchain.cpp:2463-2471 | freshly created test contexts import nothing, and the invariant holds |
| ImportStructure.Import | languages/cpp/cppduchain/tests/test_duchain.cpp:2507-2514 | an import that is already present or is a self-import is ignored; otherwise the three lists gain exactly the edge, and the invariant is kept |
| ImportStructure.ImportKeepsInv | languages/cpp/cppduchain/tests/test_duchain.cpp:2507-2514 | adding a new edge to all three lists keeps the lists duplicate-free and free of self-imports, and keeps importers mirroring imports |
| ImportStructure.UnImport | languages/cpp/cppduchain/tests/test_duchain.cpp:2516-2529 | every listed context is dropped from the imports; this context leaves the importers of exactly the removed ones; the real parents lose exactly those; the invariant is kept |
| ImportStructure.UnImportEdges | languages/cpp/cppduchain/tests/test_duchain.cpp:2519-2526 | the loop over the list yields the filtered imports, the filtered importer lists, and exactly the listed contexts that were imported |
| ImportStructure.UnImportKeepsInv | languages/cpp/cppduchain/tests/test_duchain.cpp:2516-2529 | removing edges as `unImport` does keeps the invariant |
| ImportStructure.VerifyHolds | languages/cpp/cppduchain/tests/test_duchain.cpp:2479-2498 | in every reachable state each context passes `verify`: equal list counts, and the real transitive `imports` holds exactly for the collected contexts |
| SetRepository.CreateSet | languages/cpp/cppduchain/tests/test_duchain.cpp:3005 | a created set holds exactly the values of the container |
| SetRepository.StdSet | languages/cpp/cppduchain/tests/test_duchain.cpp:3010 | `stdSet()` lists the set's values in strictly increasing order |
| SetRepository.CreateRoundTrip | languages/cpp/cppduchain/tests/test_duchain.cpp:3004-3025 | a set created from an ordered container lists back as that same container |
| SetRepository.SetDifference | languages/cpp/cppduchain/tests/test_duchain.cpp:3037 | `std::set_difference` of ordered ranges is ordered and holds the values of the first range that are not in the second |
| SetRepository.SetUnion | languages/cpp/cppduchain/tests/test_duchain.cpp:3089 | `std::set_union` of ordered ranges is ordered and holds the values of either range |
| SetRepository.SetIntersection | languages/cpp/cppduchain/tests/test_duchain.cpp:3140 | `std::set_intersection` of ordered ranges is ordered and holds the values of both ranges |
| SetRepository.DifferenceAgrees | languages/cpp/cppduchain/tests/test_duchain.cpp:3035-3082 | the repository difference lists as the standard difference |
| SetRepository.UnionAgrees | languages/cpp/cppduchain/tests/test_duchain.cpp:3087-3134 | the repository union lists as the standard union |
| SetRepository.IntersectionAgrees | languages/cpp/cppduchain/tests/test_duchain.cpp:3136-3196 | the repository intersection lists as the standard intersection |
| Interning.Intern | languages/cpp/cppduchain/tests/test_duchain.cpp:3228 | interning gives an index that reads back the text; a known text leaves the table alone, a new one is appended at the end; validity is kept |
| Interning.Str | languages/cpp/cppduchain/tests/test_duchain.cpp:3230 | `str()` returns a text stored in the repository |
| Interning.InternStable | languages/cpp/cppduchain/tests/test_duchain.cpp:3231-3232 | a text already stored at `i` is interned as `i` again, without growing the table |
| Interning.InternKeepsIndices | languages/cpp/cppduchain/tests/test_duchain.cpp:3218-3235 | interning other texts never moves an index already handed out |
| Interning.InternAll | languages/cpp/cppduchain/tests/test_duchain.cpp:3214-3241 | over the test's loop the table stays valid and only grows; every text gets a recorded index that reads it back, and interning it again gives that same index |
| Identifiers.Parse | languages/cpp/cppduchain/tests/test_duchain.cpp:210-218 | an identifier is explicitly global exactly when its trimmed text starts with `::` |
| Identifiers.PartsOf | languages/cpp/cppduchain/tests/test_duchain.cpp:210-220 | a text has no parts exactly when it is empty |
| Identifiers.ParsePartsJoin | languages/cpp/cppduchain/tests/test_duchain.cpp:237-244 | parsing the printed form of canonical parts gives the parts back |
| Identifiers.ParseToString | languages/cpp/cppduchain/tests/test_duchain.cpp:258-263 | printing then parsing a canonical identifier gives it back, explicit-global flag included |
| Identifiers.ParseIgnoresSpace | languages/cpp/cppduchain/tests/test_duchain.cpp:237 | whitespace around the text does not change the result |
| Identifiers.GlobalPrefix | languages/cpp/cppduchain/tests/test_duchain.cpp:210-222 | a leading `::` only sets the explicit-global flag, and the two identifiers compare equal |
| Identifiers.OperatorName | languages/cpp/cppduchain/tests/test_duchain.cpp:246-263 | a text whose leading word is `operator` is one part and prints back unchanged |
| Identifiers.EqualTextEqualIndex | languages/cpp/cppduchain/tests/test_duchain.cpp:264-265 | texts that parse to the same identifier get the same index, whatever was interned between them |
| Identifiers.TestAreaJump | languages/cpp/cppduchain/tests/test_duchain.cpp:210-222 | `::Area::jump` and `Area::jump` are the parts `Area` and `jump`; only the first is global, and they compare equal |
| Identifiers.TestTemplates | languages/cpp/cppduchain/tests/test_duchain.cpp:237-244 | ` Area<A,B>::jump <F> ::tes<C>` is three parts named `Area`, `jump` and `tes`, with two, one and one template arguments |
| Identifiers.TestOperators | languages/cpp/cppduchain/tests/test_duchain.cpp:246-263 | each of `op1` to `op6` is one part and prints back as written |
| Identifiers.TestIndices | languages/cpp/cppduchain/tests/test_duchain.cpp:264-265 | the text without the leading space gets the index of `t`, and a second `operator>=` gets the first one's index |
| ContextTree.AddChild | languages/cpp/cppduchain/tests/test_duchain.cpp:277-292 | a new child joins the parent's child list (one more entry, same multiset plus the child), and the start-cursor order is kept |
| ContextTree.AddChildPlacement | languages/cpp/cppduchain/tests/test_duchain.cpp:284-292 | in an ordered list the new child lands after every child that does not start after it and before every child that does |
| ContextTree.DeleteChildContextsRecursively | languages/cpp/cppduchain/tests/test_duchain.cpp:294-295 | the child list is empty afterwards; the context keeps its identity and range, and everything it owned is gone |
| ContextTree.TestContextRelationships | languages/cpp/cppduchain/tests/test_duchain.cpp:269-296 | children at (4,4), (14,4) and (10,4) give lists of one, then two, then first, third, second; deleting the children empties the list |
| TokenScanner.ReportError | parts/cppsupport/parser.cpp:85-101 | the error count always goes up by one; the message reaches the reporter only while the count is below the cap |
| TokenScanner.ResetErrors | parts/cppsupport/parser.cpp:54-55 | after a reset the count is zero and nothing has been reported |
| TokenScanner.ReportAllCapped | parts/cppsupport/parser.cpp:67-101 | after a run of errors the count has grown by their number; the messages forwarded are the earlier ones followed by the first of the new ones, as many as fit under the cap of five |
| TokenScanner.SkipUntil | parts/cppsupport/parser.cpp:113-123 | stops on the first occurrence of the token without taking it, or at the end with false; every token passed is neither null nor the token |
| TokenScanner.SkipUntilDeclaration | parts/cppsupport/parser.cpp:125-169 | stops on the first token that can start a declaration, or at the end with false; no token passed can start one |
| TokenScanner.Skip | parts/cppsupport/parser.cpp:171-189 | stops on the token that brings the bracket counter to zero (true), or at the end (false); the counter is non-zero at every earlier step |
| TokenScanner.SkipFromOpen | parts/cppsupport/parser.cpp:171-189 | started on an opening bracket, `skip` stops on a closing bracket with the counter positive in between, so the group is balanced |
| TokenScanner.ParseCvQualify | parts/cppsupport/parser.cpp:979-994 | takes the longest run of `const`/`volatile`, appends exactly those tokens to the list, and is true exactly when the run is not empty |
| TokenScanner.ParseOperator | parts/cppsupport/parser.cpp:920-977 | on success the tokens taken spell an operator name; on failure the cursor does not move |
| TokenScanner.ParseOperatorComplete | parts/cppsupport/parser.cpp:920-977 | whenever an operator name starts at the cursor, `parseOperator` succeeds and takes at least that much, so `new[]` and `delete[]` are never cut short |
| TokenScanner.ParsePtrToMember | parts/cppsupport/parser.cpp:2117-2137 | succeeds exactly on `name :: *` or `:: name :: *`, taking those tokens; a failure leaves the cursor past a leading `::` and one name, where the loop gave up |
| TokenScanner.ParsePtrOperator | parts/cppsupport/parser.cpp:1020-1041 | succeeds exactly on `&`, `*` or a pointer-to-member, and then also takes the run of cv-qualifiers after it; a failure puts the cursor back where it started |
| TokenScanner.PtrOperatorRestores | parts/cppsupport/parser.cpp:1029-1033 | a failed pointer to member puts the cursor back whatever the scan consumed; a successful one is followed by at least what it took |
| TokenScanner.ParseStorageClassSpecifier | parts/cppsupport/parser.cpp:1325-1341 | takes one token exactly when it is `friend`, `auto`, `register`, `static`, `extern` or `mutable` |
| TokenScanner.ParseFunctionSpecifier | parts/cppsupport/parser.cpp:1343-1356 | takes one token exactly when it is `inline`, `virtual` or `explicit` |
| TokenScanner.ParseAccessSpecifier | parts/cppsupport/parser.cpp:1617-1630 | takes one token exactly when it is `public`, `protected` or `private` |
| TokenScanner.ParseConstantExpression | parts/cppsupport/parser.cpp:1438-1463 | walks token by token, jumping over each `(` group, and stops on the first of `, ; < ] ) }` or `Token_assign` (a compound assignment such as `+=`; a plain `=` does not stop it) it stands on, or at the end; succeeds only after taking a token; a failure after taking tokens is at the end of the stream, inside a `(` group on its walk that never closed |
| TokenScanner.ParseCommaExpression | parts/cppsupport/parser.cpp:1740-1758 | walks token by token, jumping over each `(` group, and succeeds on the first `]` or `;` it stands on or at the end; a failure is at the end of the stream, inside a `(` group on its walk that never closed |
| TokenScanner.ParseAssignmentExpression | parts/cppsupport/parser.cpp:1841-1874 | walks token by token, jumping over each `()`, `<>` or `[]` group, and succeeds on the first of `, ; > ] )` or `Token_assign` (a compound assignment such as `+=`; a plain `=` does not stop it) it stands on, or at the end; a failure is at the end of the stream, inside a group on its walk that never closed |
| TokenScanner.WalkUnique | parts/cppsupport/parser.cpp:1841-1874 | a skipper's walk ends on the first stop token it meets: two walks from one place that both end on a stop token or the end are the same walk |
| TokenScanner.StopsAfterPlainToken | parts/cppsupport/parser.cpp:1841-1874 | a skipper on a plain token followed by one of its stop tokens stops on that next token and nowhere later |
| TokenScanner.AssignmentStopsAtComma | parts/cppsupport/parser.cpp:1841-1874 | in `a , b` an assignment expression stops on the comma and nowhere later |
| TokenScanner.ParseExpressionList | parts/cppsupport/parser.cpp:2064-2081 | always true; stops on the first `)` outside every parenthesised group, or at the end; reports `) missing` at most once, and exactly when it stopped at the end of the stream inside a group left open; a `)` at the cursor takes nothing and reports nothing |
| DockerRuntime.EnsureEndsSlash | plugins/docker/dockerruntime.cpp:55-58 | the result ends with `/`; a text already ending with `/` is kept, any other gets one appended |
| DockerRuntime.EnsureEndsSlashIdempotent | plugins/docker/dockerruntime.cpp:55-58 | applying it twice is applying it once, and the input is a prefix of the result |
| DockerRuntime.ProjectVolumesMounts | plugins/docker/dockerruntime.cpp:60-77 | the volume arguments are `--volume`/mount pairs of the projects; every local project has its projects-volume mount and every project with a build manager its build-directory mount |
| DockerRuntime.ProjectVolumesPerProject | plugins/docker/dockerruntime.cpp:66-75 | in project order, each project contributes exactly its projects-volume mount if it is local, then its build-directory mount if it has a build manager, and nothing else |
| DockerRuntime.StartProcess | plugins/docker/dockerruntime.cpp:79-87 | the process is re-targeted to run `docker` |
| DockerRuntime.StartProcessOrder | plugins/docker/dockerruntime.cpp:81 | the arguments are `run`, `--rm`, the extra arguments, the volumes, the tag, then the original program and its arguments, in that order |
| DockerRuntime.StartKProcess | plugins/docker/dockerruntime.cpp:89-95 | the program list starts with `docker run --rm` and ends with the original program list |
| DockerRuntime.StartProcessAgree | plugins/docker/dockerruntime.cpp:79-95 | both overloads build the same command line for the same program and arguments |
| DockerRuntime.FindProjectByNameNone | plugins/docker/dockerruntime.cpp:104 | the lookup by name fails exactly when no project has the name |
| DockerRuntime.FindProjectForUrlNone | plugins/docker/dockerruntime.cpp:117 | the lookup by path fails exactly when no project root holds the path |
| DockerRuntime.RelativePathDown | plugins/docker/dockerruntime.cpp:120 | from an ancestor, `relativePath` is the remaining segments joined |
| DockerRuntime.RelativePathUp | plugins/docker/dockerruntime.cpp:102 | from a descendant, `relativePath` is parent steps only |
| DockerRuntime.PathInRuntime | plugins/docker/dockerruntime.cpp:124-127 | a path outside every project is returned as it is |
| DockerRuntime.PathInRuntimeInside | plugins/docker/dockerruntime.cpp:115-123 | a path inside a project becomes the projects volume, the project's name, and the path below the project root |
| DockerRuntime.SplitRelJoin | plugins/docker/dockerruntime.cpp:103-108 | a relative path splits at its first `/` into the project name and the rest; with no `/` the rest is empty |
| DockerRuntime.PathInHost | plugins/docker/dockerruntime.cpp:97-101 | a path not strictly below the projects volume is returned as it is |
| DockerRuntime.PathInHostInside | plugins/docker/dockerruntime.cpp:101-111 | below the projects volume, the segment after it is looked up as a project name; a known project's root replaces volume and name, an unknown name leaves the path alone |
| DockerRuntime.RoundTrip | plugins/docker/dockerruntime.cpp:97-128 | a path inside a project whose name finds that same project comes back unchanged from runtime to host |
| DockerRuntime.SplitRelAsWrittenRepeats | plugins/docker/dockerruntime.cpp:103-108 | as written, a relative path of one segment is both the name and the remainder |
| DockerRuntime.PathInHostAsWritten | plugins/docker/dockerruntime.cpp:97-113 | as written, a path not strictly below the projects volume is returned as it is |
| DockerRuntime.PathInHostAsWrittenUnchanged | plugins/docker/dockerruntime.cpp:97-113 | as written the name looked up is always `..`, so unless a project has that name no path is ever mapped back |
| DockerRuntime.RoundTripFailsAsWritten | plugins/docker/dockerruntime.cpp:97-128 | `/home/app/main.cpp` of project `app` runs as `/projects/app/main.cpp`, and the as-written `pathInHost` does not give the file back |
| BreakpointItem.NewBreakpoint | debugger/breakpoint/breakpoint.cpp:34-41 | a new breakpoint has the given kind, id -1, hit count 0, is enabled, not deleted, not pending and not a helper, has line -1, five columns that each hold the empty string, and no errors |
| BreakpointItem.NewHelper | debugger/breakpoint/breakpoint.cpp:67-73 | the helper row is an enabled code breakpoint waiting for its location, with id -1, hit count 0, not deleted, not pending, five columns that each hold the empty string, and no errors |
| BreakpointItem.KindOf | debugger/breakpoint/breakpoint.cpp:49-58 | the kind lookup finds a kind whose name is the text, and fails exactly when no kind has that name |
| BreakpointItem.KindRoundTrip | debugger/breakpoint/breakpoint.cpp:309-314 | the name of every kind looks up to that kind |
| BreakpointItem.LocationText | debugger/breakpoint/breakpoint.cpp:181-188 | for a file name with no `%` followed by a digit: the location text starts with the url without its trailing slashes and a `:`, and ends with `)` when an address is shown |
| BreakpointItem.LocalFile | debugger/breakpoint/breakpoint.cpp:182 | the file shown is the url with its trailing slashes removed: a prefix of the url followed only by slashes, not ending in one unless it is a lone `/`, and empty only for an empty url |
| BreakpointItem.LocalFileIdempotent | debugger/breakpoint/breakpoint.cpp:182 | removing trailing slashes a second time changes nothing |
| BreakpointItem.LocalFileSlash | debugger/breakpoint/breakpoint.cpp:182 | a url and the same url with one more trailing slash show the same file |
| BreakpointItem.LocationRoundTrip | debugger/breakpoint/breakpoint.cpp:94-97 | parsing the displayed location (no address) gives back the url without its trailing slashes and the line, for every 32-bit line |
| BreakpointItem.SetColumnIdentity | debugger/breakpoint/breakpoint.cpp:80-110 | no column edit changes the id, deleted flag, hit count, kind, pending flag or address |
| BreakpointItem.SetColumnEnable | debugger/breakpoint/breakpoint.cpp:82-85 | the enable column sets the flag exactly when the value is `Checked`, helper row included; no other column touches it |
| BreakpointItem.HelperIgnoresEmpty | debugger/breakpoint/breakpoint.cpp:87-90 | a helper row ignores an empty value: besides the enable flag set before the check, nothing changes and no helper is requested |
| BreakpointItem.HelperBecomesReal | debugger/breakpoint/breakpoint.cpp:101-104 | a new helper is requested exactly on a non-empty location or condition edit of a helper row, which then stops being one |
| BreakpointItem.SetColumnErrors | debugger/breakpoint/breakpoint.cpp:107 | an edit that is not ignored clears its column's error and keeps the others; an ignored edit keeps them all |
| BreakpointItem.SetColumnLocation | debugger/breakpoint/breakpoint.cpp:92-100 | a location edit sets url and line from the text and leaves the item data alone; a condition edit stores the value and leaves url and line alone |
| BreakpointItem.OneHelperPerRow | debugger/breakpoint/breakpoint.cpp:101-104 | over any sequence of edits a helper row asks for exactly one new helper if it stops being a helper and none otherwise, and a real row never asks for one |
| BreakpointItem.LocationDisplay | debugger/breakpoint/breakpoint.cpp:112-191 | the location column shows the prompt on a helper row and `file:line+1 (address)` otherwise, the file being the url without its trailing slashes, for a file name with no `%` followed by a digit |
| BreakpointItem.EnableState | debugger/breakpoint/breakpoint.cpp:135-143 | the check state is `Checked` or `Unchecked` as the flag says, and nothing on a helper row |
| BreakpointItem.EnabledReadsFlag | debugger/breakpoint/breakpoint.cpp:289-292 | `enabled()` is true exactly for an enabled breakpoint that is not a helper row |
| BreakpointItem.CheckBoxRoundTrip | debugger/breakpoint/breakpoint.cpp:82-85 | checking the box of a real breakpoint makes it read as enabled, and unchecking it as disabled |
| BreakpointItem.LocationEditStable | debugger/breakpoint/breakpoint.cpp:94-97 | typing the shown location back into a breakpoint without an address keeps the line and the display, and leaves the url without its trailing slashes |
| BreakpointItem.SetLocation | debugger/breakpoint/breakpoint.cpp:216-221 | `setLocation` sets url and line and nothing else |
| BreakpointItem.SetLine | debugger/breakpoint/breakpoint.cpp:205-208 | `setLine` sets the line and nothing else |
| BreakpointItem.SetUrl | debugger/breakpoint/breakpoint.cpp:209-212 | `setUrl` sets the url and nothing else |
| BreakpointItem.SettersCompose | debugger/breakpoint/breakpoint.cpp:205-221 | setting the url and the line, in either order, is setting the location |
| BreakpointItem.Save | debugger/breakpoint/breakpoint.cpp:228-234 | the config holds the kind's name, the enable flag, and the location and condition columns of the item data |
| BreakpointItem.Load | debugger/breakpoint/breakpoint.cpp:43-65 | a config with a known kind name loads as that kind with the saved flag, location and condition texts; an unknown name gives no breakpoint |
| BreakpointItem.SaveLoadKind | debugger/breakpoint/breakpoint.cpp:228-234 | saving then loading keeps kind, enable flag and condition text |
| BreakpointItem.SaveLosesLocation | debugger/breakpoint/breakpoint.cpp:232 | a breakpoint whose location is typed as `a.cpp:10` has url `a.cpp` and line 9, yet is saved with an empty location and loads back with no url |
| BreakpointItem.SaveLocation | debugger/breakpoint/breakpoint.cpp:228-234 | the corrected save writes the location as the column shows it, from url and line |
| BreakpointItem.LoadLocation | debugger/breakpoint/breakpoint.cpp:61-64 | the corrected load parses the saved location into url and line |
| BreakpointItem.SaveLocationRoundTrip | debugger/breakpoint/breakpoint.cpp:228-234 | with the corrected pair, save then load keeps kind, enable flag, condition text and line, and the url without its trailing slashes, for every 32-bit line |

## Left out

- Locking: `ENSURE_CHAIN_*_LOCKED` and the read/write lockers. The observer
  mutex and the `*Changed` notifications that loop over observers are also
  out. They concern threads only.
- `DUChain::clear` releasing editor ranges and `delete`-ing contexts is
  modelled as dropping those contexts from the registry; memory has no
  counterpart.
- `ParsingEnvironmentManager::find`, `addFile`, `removeFile` and `clear`
  are not part of this model. A manager is the set of its files, and `find`
  is a parameter (`DUChain.Finder`).
- DUChain.KeyLess: the real `IdentifiedFile` order is not part of this
  model. The chosen order (url first, then identity) is the one under which
  `lowerBound` with identity 0 reaches every parse of a url.
- ImportStructure.VerifyHolds: the real `TopDUContext::imports` is not part
  of this model. It is stated as reachability over the imported-parent
  lists. The random driver of the stress test and `rand()` are left out;
  the lemma covers every sequence of edits instead.
- SetRepository: the repository's tree representation and its
  `dumpDotGraph` are not part of this model. A repository set is its
  content. Clock timing in the test is left out.
- Interning: `IndexedString::hashString` is not modelled. The hash is a
  function of the text and plays no part in index equality.
- Identifiers.Parse: the `QualifiedIdentifier` parser is not part of this
  model. This module defines one that meets every expectation of the test,
  and `match()` (commented out in the test) is left out.
- ContextTree.AddChild: `DUContext` insertion is not part of this model. The
  definition chosen keeps equal starts in creation order, which the test
  does not decide.
- TokenScanner: the recursive grammar of the parser (declarations, types,
  names, templates) is left out. Only the token-cursor helpers are
  modelled.
- TokenScanner: token positions, `Error` message formatting, the file name
  and `syntaxError`/`parseError` are left out; the reporter receives the
  message only.
- TokenScanner.ParseCvQualify: the list receives the tokens themselves, not
  their spelling as text.
- DockerRuntime.StartProcess: `KShell::splitArgs` is not modelled. The extra
  arguments arrive already split, and the debug output and `start()` are
  left out.
- DockerRuntime: `KDevelop::Path` normalisation of `.` and `..` segments,
  remote urls and `toUrl()` are left out. A path is its list of non-empty
  segments.
- DockerRuntime.FindProjectForUrl: the project controller's
  `findProjectForUrl` is not part of this model. It is stated as the first
  project whose root holds the path.
- DockerRuntime.ProjectVolumesMounts: `toLocalFile()` of a non-local project
  root is taken to be the path's text. The build-directory mount uses the
  project root on the host side, as the source does.
- Text.ToInt: `QString::toInt` skipping surrounding whitespace is not
  modelled. Such text reads as 0 here.
- BreakpointItem.LocationText: `KUrl` is not part of this model. A url is
  the text it was built from, and `toLocalFile(KUrl::RemoveTrailingSlash)`
  is that text with its trailing slashes removed (`LocalFile`). Schemes,
  percent-encoding and relative paths are left out, so the round trips
  promise the url only up to those trailing slashes. The text is built
  with `QString("%1 (%2)").arg(ret).arg(address)`, and the second `arg`
  replaces the lowest-numbered `%<digit>` marker anywhere in the text,
  including one inside the file name: with an address set, `/tmp/%1.cpp`
  line 2 address `0x10` shows as `/tmp/0x10.cpp:3 (%2)`. That
  substitution is not modelled, so LocationText and LocationDisplay are
  faithful only for file names with no `%` followed by a digit; the
  round trips have no address and are not affected.
- BreakpointItem.LocationDisplay: the location column shows
  LocationText, so the same `.arg(ret).arg(address)` substitution of a
  `%<digit>` marker in the file name (breakpoint.cpp:185) is not modelled,
  and the display is faithful only for file names with no `%` followed by
  a digit.
- BreakpointItem.VariantBool: `QVariant::toBool` compares `"false"`
  case-insensitively; here only the lower-case spelling is recognised. The
  enable check state is an `int`, so no result in this model depends on it.
- BreakpointItem: the table column numbers (enable 0, state 1, type 2,
  location 3, condition 4) are an assumption. The header that defines them
  is not part of this model; only the location and condition indices follow
  from the five-entry data vector.
- BreakpointItem.Load: the config constructor and the helper constructor
  leave `m_line` uninitialised. The line is a parameter here.
- BreakpointItem: `data()` for roles other than display, check state and
  edit is left out: icons, the grey helper colour and the error decoration.
  `reportChange`, `setDeleted`, `setSmartCursor`, `setId`, `setAddress`,
  `setPending` and `setHitCount` are plain field stores or UI
  notifications, and are also left out.

## Findings

| source | as written | input that shows it | evidently intended | confidence | as-written member | corrected member |
|---|---|---|---|---|---|---|
| plugins/docker/dockerruntime.cpp:102 | `runtimePath.relativePath(projectsDir)` takes the path from the runtime path up to the volume, so it is only `..` steps and the name looked up is `..` | `/home/app/main.cpp` in project `app` at `/home/app`, projects volume `/projects`: the runtime path `/projects/app/main.cpp` is handed back unchanged | `projectsDir.relativePath(runtimePath)`, as `pathInRuntime` does at line 120, so the name is the project's | not executed | DockerRuntime.PathInHostAsWritten, DockerRuntime.RoundTripFailsAsWritten | DockerRuntime.PathInHost, DockerRuntime.RoundTrip |
| plugins/docker/dockerruntime.cpp:103-108 | with no `/` in the relative path, `indexOf` is -1, so `left(-1)` and `mid(0)` are both the whole text | the runtime path `/projects/app` (a project's root) has relative path `app`: name `app` and remainder `app`, mapped to `<root>/app` | an empty remainder when there is no `/`, mapping the root to the root | not executed | DockerRuntime.SplitRelAsWritten, DockerRuntime.SplitRelAsWrittenRepeats | DockerRuntime.SplitRel, DockerRuntime.SplitRelJoin |
| debugger/breakpoint/breakpoint.cpp:232 | `save` writes `itemData[LocationColumn]`, but a location edit sets only `m_url`/`m_line` (lines 94-97), and the config constructor (lines 61-64) never sets them back | a new code breakpoint with location `a.cpp:10` typed in is saved with location `""` and loads with url `""` | save the location as the column shows it and parse it back into url and line on load | not executed | BreakpointItem.Save, BreakpointItem.SaveLosesLocation | BreakpointItem.SaveLocation, BreakpointItem.SaveLocationRoundTrip |

=== FILE: breakpoint.dfy ===
/** A breakpoint item of the debugger's breakpoint model
    (debugger/breakpoint/breakpoint.cpp): its kind, the enable flag, the
    location as url and line, the condition, the errors shown per column,
    and the "helper" state of the empty last row that turns into a real
    breakpoint once a location or condition is typed into it.

    Item data, config entries and edited values are `QVariant`s; the model
    keeps the three shapes the item sees. Redraw notifications, icons and
    colours are not modelled. */
module BreakpointItem {
  import opened Wrappers
  import opened Text

  // ---------------------------------------------------------------------------
  // Values
  // ---------------------------------------------------------------------------

  /** A `QVariant`: invalid, an `int`, or a string. */
  datatype Variant = Invalid | IntValue(i: int) | StringValue(s: string)

  /** `QVariant::toString()`. */
  function VariantString(v: Variant): string {
    match v
    case Invalid => ""
    case IntValue(i) => IntToString(i)
    case StringValue(s) => s
  }

  /** `QVariant::toInt()`: a string goes through `QString::toInt`. */
  function VariantInt(v: Variant): int {
    match v
    case Invalid => 0
    case IntValue(i) => i
    case StringValue(s) => ToInt(s)
  }

  /** `QVariant::toBool()`. */
  function VariantBool(v: Variant): bool {
    match v
    case Invalid => false
    case IntValue(i) => i != 0
    case StringValue(s) => !(s == "" || s == "0" || s == "false")
  }

  /** `Qt::Unchecked` and `Qt::Checked`. */
  const Unchecked: int := 0
  const Checked: int := 2

  /** The columns of the breakpoint table. */
  const EnableColumn: int := 0
  const StateColumn: int := 1
  const TypeColumn: int := 2
  const LocationColumn: int := 3
  const ConditionColumn: int := 4
  const ColumnCount: nat := 5

  /** `int` arithmetic on the line number: adding or removing one wraps at
      the ends of the 32-bit range. */
  function Inc32(x: int): int {
    if x == Int32Max then Int32Min else x + 1
  }

  function Dec32(x: int): int {
    if x == Int32Min then Int32Max else x - 1
  }

  // ---------------------------------------------------------------------------
  // Kinds
  // ---------------------------------------------------------------------------

  datatype Kind = Code | Write | Read | Access

  /** `string_kinds`, indexed by kind. */
  const StringKinds: seq<string> := ["Code", "Write", "Read", "Access"]

  function KindIndex(k: Kind): (i: nat)
    ensures i < |StringKinds|
  {
    match k
    case Code => 0
    case Write => 1
    case Read => 2
    case Access => 3
  }

  function KindString(k: Kind): string {
    StringKinds[KindIndex(k)]
  }

  /** The lookup loop of the config constructor: the first kind whose name
      is `s`; none when no name matches, which the constructor's assertion
      rejects. */
  function KindOf(s: string): (r: Option<Kind>)
    ensures r.Some? ==> KindString(r.value) == s
    ensures r.None? <==> s !in StringKinds
  {
    if s == "Code" then Some(Code)
    else if s == "Write" then Some(Write)
    else if s == "Read" then Some(Read)
    else if s == "Access" then Some(Access)
    else None
  }

  /** Saving a kind and looking it up again gives the kind back. */
  lemma KindRoundTrip(k: Kind)
    ensures KindOf(KindString(k)) == Some(k)
  {
  }

  // ---------------------------------------------------------------------------
  // The item
  // ---------------------------------------------------------------------------

  /** The state of one breakpoint. `itemData` has one entry per column;
      `errors` holds the columns whose last value was rejected. */
  datatype Breakpoint = Breakpoint(
    id: int,
    enabled: bool,
    deleted: bool,
    hitCount: int,
    kind: Kind,
    pending: bool,
    pleaseEnterLocation: bool,
    url: string,
    line: int,
    address: string,
    itemData: seq<Variant>,
    errors: set<int>)

  /** Five empty strings, one per column. */
  function EmptyData(): (d: seq<Variant>)
    ensures |d| == ColumnCount
    ensures forall k :: 0 <= k < |d| ==> d[k] == StringValue("")
  {
    [StringValue(""), StringValue(""), StringValue(""), StringValue(""), StringValue("")]
  }

  /** `Breakpoint(model, parent, kind)`: enabled, no line, empty data. */
  function NewBreakpoint(kind: Kind): (b: Breakpoint)
    ensures b.kind == kind && b.enabled && !b.pleaseEnterLocation && b.line == -1
    ensures b.id == -1 && !b.deleted && b.hitCount == 0 && !b.pending
    ensures |b.itemData| == ColumnCount && b.errors == {}
    ensures forall k :: 0 <= k < ColumnCount ==> b.itemData[k] == StringValue("")
  {
    Breakpoint(-1, true, false, 0, kind, false, false, "", -1, "", EmptyData(), {})
  }

  /** `Breakpoint(model, parent)`: the helper row, a code breakpoint waiting
      for its location. The constructor does not set the line, so it is a
      parameter here. */
  function NewHelper(line: int): (b: Breakpoint)
    ensures b.kind == Code && b.pleaseEnterLocation && b.enabled
    ensures b.id == -1 && !b.deleted && b.hitCount == 0 && !b.pending
    ensures |b.itemData| == ColumnCount && b.errors == {}
    ensures forall k :: 0 <= k < ColumnCount ==> b.itemData[k] == StringValue("")
  {
    Breakpoint(-1, true, false, 0, Code, false, true, "", line, "", EmptyData(), {})
  }

  // ---------------------------------------------------------------------------
  // Location text
  // ---------------------------------------------------------------------------

  /** The url and line a location text `path:N` names: the text before the
      last `:`, and N - 1. */
  function ParseLocation(s: string): (r: (string, int))
    ensures ':' !in s ==> r.0 == s
  {
    var colon := LastIndexOf(s, ':');
    (Left(s, colon), Dec32(ToInt(Right(s, |s| - colon - 1))))
  }

  /** `KUrl::toLocalFile(KUrl::RemoveTrailingSlash)` of a url held as its
      local path: trailing slashes go, but a lone `/` stays. */
  function LocalFile(url: string): (r: string)
    ensures |r| <= |url| && url[..|r|] == r
    ensures forall k :: |r| <= k < |url| ==> url[k] == '/'
    ensures |r| <= 1 || r[|r| - 1] != '/'
    ensures |url| > 0 ==> |r| > 0
    decreases |url|
  {
    if |url| > 1 && url[|url| - 1] == '/' then LocalFile(url[..|url| - 1]) else url
  }

  /** Stripping the trailing slashes twice strips nothing more. */
  lemma LocalFileIdempotent(url: string)
    ensures LocalFile(LocalFile(url)) == LocalFile(url)
  {
  }

  /** A url and the same url with one more trailing slash show the same
      file. */
  lemma LocalFileSlash(url: string)
    requires |url| > 0
    ensures LocalFile(url + "/") == LocalFile(url)
  {
  }


  /** The location column's text: the url's local file without trailing
      slash, `:N` with N the line plus one, then ` (address)` when an
      address is known. The address is put in place as plain text: the
      `%<digit>` markers that `QString::arg` would also fill inside the
      file name are not modelled. */
  function LocationText(url: string, line: int, address: string): (r: string)
    ensures var f := LocalFile(url); |r| > |f| && r[..|f|] == f && r[|f|] == ':'
    ensures address != "" ==> r[|r| - 1] == ')'
  {
    var ret := LocalFile(url) + ":" + IntToString(Inc32(line));
    if address != "" then ret + " (" + address + ")" else ret
  }

  lemma {:induction false} LastColon(url: string, n: string)
    requires ':' !in n
    ensures LastIndexOf(url + ":" + n, ':') == |url|
    decreases |n|
  {
    var s := url + ":" + n;
    if |n| == 0 {
      assert s[|s| - 1] == ':';
    } else {
      assert s[..|s| - 1] == url + ":" + n[..|n| - 1];
      assert ':' !in n[..|n| - 1] by {
        assert forall x :: x in n[..|n| - 1] ==> x in n;
      }
      assert s[|s| - 1] == n[|n| - 1];
      LastColon(url, n[..|n| - 1]);
    }
  }

  /** `f:N` read back as a location gives `f` and the line again, for every
      32-bit line: the number has no `:`, so the last `:` is the one before
      it. */
  lemma ShownLocationRoundTrip(f: string, line: int)
    requires Int32Min <= line <= Int32Max
    ensures ParseLocation(f + ":" + IntToString(Inc32(line))) == (f, line)
  {
    var n := IntToString(Inc32(line));
    var s := f + ":" + n;
    LastColon(f, n);
    assert s[..|f|] == f;
    assert |s| - |f| - 1 == |n| && s[|s| - |n|..] == n;
    ToIntOfString(Inc32(line));
  }

  /** Reading back the text the location column shows, without an address,
      gives the shown url (trailing slashes stripped) and the line again,
      for every 32-bit line. */
  lemma LocationRoundTrip(url: string, line: int)
    requires Int32Min <= line <= Int32Max
    ensures ParseLocation(LocationText(url, line, "")) == (LocalFile(url), line)
  {
    ShownLocationRoundTrip(LocalFile(url), line);
  }

  // ---------------------------------------------------------------------------
  // Editing
  // ---------------------------------------------------------------------------

  /** The outcome of an edit: the new state, and whether the parent list was
      asked for a new helper row. */
  datatype Edit = Edit(item: Breakpoint, newHelper: bool)

  /** `setColumn(index, value)`. The enable column is set first; then a
      helper row ignores an empty value. A location edit parses url and
      line, a condition edit stores the value; either turns a helper into a
      real breakpoint and asks for a new helper. Every edit that gets that
      far clears the column's error. */
  function SetColumn(b: Breakpoint, index: int, value: Variant): (r: Edit)
    requires |b.itemData| == ColumnCount
    ensures |r.item.itemData| == ColumnCount
  {
    var b1 := if index == EnableColumn then b.(enabled := VariantInt(value) == Checked) else b;
    if b1.pleaseEnterLocation && VariantString(value) == "" then Edit(b1, false)
    else
      var b2 :=
        if index == LocationColumn then
          var loc := ParseLocation(VariantString(value));
          b1.(url := loc.0, line := loc.1)
        else if index == ConditionColumn then b1.(itemData := b1.itemData[index := value])
        else b1;
      var helper := b2.pleaseEnterLocation && (index == LocationColumn || index == ConditionColumn);
      var b3 := if helper then b2.(pleaseEnterLocation := false) else b2;
      Edit(b3.(errors := b3.errors - {index}), helper)
  }

  /** An edit never touches the fields it has no column for. */
  predicate SameIdentity(a: Breakpoint, b: Breakpoint) {
    a.id == b.id && a.deleted == b.deleted && a.hitCount == b.hitCount && a.kind == b.kind
    && a.pending == b.pending && a.address == b.address
  }

  /** No edit changes the identity fields. */
  lemma SetColumnIdentity(b: Breakpoint, index: int, value: Variant)
    requires |b.itemData| == ColumnCount
    ensures SameIdentity(b, SetColumn(b, index, value).item)
  {
  }

  /** The enable column sets `enabled` exactly when the value is `Checked`,
      also on a helper row; no other column touches it. */
  lemma SetColumnEnable(b: Breakpoint, index: int, value: Variant)
    requires |b.itemData| == ColumnCount
    ensures var r := SetColumn(b, index, value).item;
      && (index == EnableColumn ==> r.enabled == (VariantInt(value) == Checked))
      && (index != EnableColumn ==> r.enabled == b.enabled)
  {
  }

  /** A helper row ignores an empty value: apart from the enable flag set
      before the check, nothing changes and no helper is requested. */
  lemma HelperIgnoresEmpty(b: Breakpoint, index: int, value: Variant)
    requires |b.itemData| == ColumnCount
    requires b.pleaseEnterLocation && VariantString(value) == ""
    ensures var r := SetColumn(b, index, value);
      && !r.newHelper
      && r.item.pleaseEnterLocation
      && r.item.(enabled := b.enabled) == b
      && r.item.errors == b.errors
  {
  }

  /** The first non-empty location or condition edit of a helper row makes
      it a real breakpoint and requests one new helper; any other edit
      requests none and leaves the helper flag alone. */
  lemma HelperBecomesReal(b: Breakpoint, index: int, value: Variant)
    requires |b.itemData| == ColumnCount
    ensures var r := SetColumn(b, index, value);
      && (r.newHelper <==>
            b.pleaseEnterLocation && VariantString(value) != ""
            && (index == LocationColumn || index == ConditionColumn))
      && (r.newHelper ==> !r.item.pleaseEnterLocation)
      && (!r.newHelper ==> r.item.pleaseEnterLocation == b.pleaseEnterLocation)
  {
  }

  /** An edit that is not ignored clears the error of its column and keeps
      the others; an ignored one keeps them all. */
  lemma SetColumnErrors(b: Breakpoint, index: int, value: Variant)
    requires |b.itemData| == ColumnCount
    ensures var r := SetColumn(b, index, value).item;
      && (b.pleaseEnterLocation && VariantString(value) == "" ==> r.errors == b.errors)
      && (!(b.pleaseEnterLocation && VariantString(value) == "") ==> r.errors == b.errors - {index})
  {
  }

  /** A location edit sets url and line from the text and leaves the item
      data alone; a condition edit stores the value in the item data and
      leaves url and line alone. */
  lemma SetColumnLocation(b: Breakpoint, index: int, value: Variant)
    requires |b.itemData| == ColumnCount
    requires !(b.pleaseEnterLocation && VariantString(value) == "")
    ensures var r := SetColumn(b, index, value).item;
      && (index == LocationColumn ==>
            (r.url, r.line) == ParseLocation(VariantString(value)) && r.itemData == b.itemData)
      && (index == ConditionColumn ==>
            r.url == b.url && r.line == b.line && r.itemData == b.itemData[ConditionColumn := value])
      && (index != LocationColumn && index != ConditionColumn ==>
            r.url == b.url && r.line == b.line && r.itemData == b.itemData)
  {
  }

  /** A sequence of edits, counting the new helpers requested. */
  function ApplyEdits(b: Breakpoint, edits: seq<(int, Variant)>): (r: (Breakpoint, nat))
    requires |b.itemData| == ColumnCount
    ensures |r.0.itemData| == ColumnCount
    decreases |edits|
  {
    if |edits| == 0 then (b, 0)
    else
      var e := SetColumn(b, edits[0].0, edits[0].1);
      var rest := ApplyEdits(e.item, edits[1..]);
      (rest.0, rest.1 + if e.newHelper then 1 else 0)
  }

  /** However many edits a row goes through, it asks for a new helper at
      most once, and exactly when it stops being a helper. */
  lemma {:induction false} OneHelperPerRow(b: Breakpoint, edits: seq<(int, Variant)>)
    requires |b.itemData| == ColumnCount
    ensures var r := ApplyEdits(b, edits);
      r.1 + (if r.0.pleaseEnterLocation then 1 else 0) == (if b.pleaseEnterLocation then 1 else 0)
    decreases |edits|
  {
    if |edits| > 0 {
      HelperBecomesReal(b, edits[0].0, edits[0].1);
      OneHelperPerRow(SetColumn(b, edits[0].0, edits[0].1).item, edits[1..]);
    }
  }

  // ---------------------------------------------------------------------------
  // Reading
  // ---------------------------------------------------------------------------

  /** The helper row's location text. */
  const HelperPrompt: string := "Double-click to create new code breakpoint"

  /** `data(LocationColumn, Qt::DisplayRole)`. */
  function LocationDisplay(b: Breakpoint): (r: string)
    ensures b.pleaseEnterLocation ==> r == HelperPrompt
    ensures !b.pleaseEnterLocation ==> r == LocationText(b.url, b.line, b.address)
  {
    if b.pleaseEnterLocation then HelperPrompt else LocationText(b.url, b.line, b.address)
  }

  /** `data(EnableColumn, Qt::CheckStateRole)`: nothing for a helper row. */
  function EnableState(b: Breakpoint): (r: Variant)
    ensures b.pleaseEnterLocation ==> r == Invalid
    ensures !b.pleaseEnterLocation ==> r == IntValue(if b.enabled then Checked else Unchecked)
  {
    if b.pleaseEnterLocation then Invalid
    else IntValue(if b.enabled then Checked else Unchecked)
  }

  /** `enabled()`: the check state read back as a boolean. */
  function Enabled(b: Breakpoint): bool {
    VariantBool(EnableState(b))
  }

  /** A helper row never reads as enabled, whatever its flag says; a real
      breakpoint reads as its flag. */
  lemma EnabledReadsFlag(b: Breakpoint)
    ensures Enabled(b) <==> !b.pleaseEnterLocation && b.enabled
  {
  }

  /** Checking the box of a real breakpoint makes it read as enabled, and
      unchecking it as disabled. */
  lemma CheckBoxRoundTrip(b: Breakpoint, on: bool)
    requires |b.itemData| == ColumnCount && !b.pleaseEnterLocation
    ensures Enabled(SetColumn(b, EnableColumn, IntValue(if on then Checked else Unchecked)).item) == on
  {
  }

  /** Editing the location of a real breakpoint with no address to the text
      it shows keeps the line and the display; the url loses any trailing
      slash the display did not show. */
  lemma LocationEditStable(b: Breakpoint)
    requires |b.itemData| == ColumnCount && !b.pleaseEnterLocation && b.address == ""
    requires Int32Min <= b.line <= Int32Max
    ensures var r := SetColumn(b, LocationColumn, StringValue(LocationDisplay(b))).item;
      r.url == LocalFile(b.url) && r.line == b.line && LocationDisplay(r) == LocationDisplay(b)
  {
    LocationRoundTrip(b.url, b.line);
    LocalFileIdempotent(b.url);
  }

  // ---------------------------------------------------------------------------
  // Location setters
  // ---------------------------------------------------------------------------

  /** `setLocation(url, line)`. */
  function SetLocation(b: Breakpoint, url: string, line: int): (r: Breakpoint)
    ensures r.url == url && r.line == line
    ensures r.(url := b.url, line := b.line) == b
  {
    b.(url := url, line := line)
  }

  /** `setLine(line)`. */
  function SetLine(b: Breakpoint, line: int): (r: Breakpoint)
    ensures r.line == line && r.url == b.url
    ensures r.(line := b.line) == b
  {
    b.(line := line)
  }

  /** `setUrl(url)`. */
  function SetUrl(b: Breakpoint, url: string): (r: Breakpoint)
    ensures r.url == url && r.line == b.line
    ensures r.(url := b.url) == b
  {
    b.(url := url)
  }

  /** Setting the url and then the line is setting the location. */
  lemma SettersCompose(b: Breakpoint, url: string, line: int)
    ensures SetLine(SetUrl(b, url), line) == SetLocation(b, url, line)
    ensures SetUrl(SetLine(b, line), url) == SetLocation(b, url, line)
  {
  }

  // ---------------------------------------------------------------------------
  // Saving and loading
  // ---------------------------------------------------------------------------

  /** The entries of a breakpoint's config group; an absent entry reads as
      the default the constructor passes. */
  datatype Config = Config(kind: Option<string>, enabled: Option<bool>, location: Option<string>, condition: Option<string>)

  /** `save(config)`: the kind's name, the enable flag, and the location and
      condition columns of the item data. */
  function Save(b: Breakpoint): (c: Config)
    requires |b.itemData| == ColumnCount
    ensures c.kind == Some(KindString(b.kind)) && c.enabled == Some(b.enabled)
    ensures c.location == Some(VariantString(b.itemData[LocationColumn]))
    ensures c.condition == Some(VariantString(b.itemData[ConditionColumn]))
  {
    Config(Some(KindString(b.kind)), Some(b.enabled),
      Some(VariantString(b.itemData[LocationColumn])), Some(VariantString(b.itemData[ConditionColumn])))
  }

  /** `Breakpoint(model, parent, config)`: the kind looked up by name, the
      enable flag, and the location and condition as item data. The
      constructor leaves url and line unset; `line` stands for the
      indeterminate line. An unknown kind name fails the constructor's
      assertion and gives no breakpoint. */
  function Load(c: Config, line: int): (r: Option<Breakpoint>)
    ensures r.Some? <==> c.kind.GetOr("") in StringKinds
    ensures r.Some? ==> && KindString(r.value.kind) == c.kind.GetOr("")
                        && r.value.enabled == c.enabled.GetOr(false)
                        && !r.value.pleaseEnterLocation
                        && |r.value.itemData| == ColumnCount
                        && r.value.itemData[LocationColumn] == StringValue(c.location.GetOr(""))
                        && r.value.itemData[ConditionColumn] == StringValue(c.condition.GetOr(""))
  {
    match KindOf(c.kind.GetOr(""))
    case None => None
    case Some(kind) =>
      var data := [StringValue(""), StringValue(""), StringValue(""),
                   StringValue(c.location.GetOr("")), StringValue(c.condition.GetOr(""))];
      Some(Breakpoint(-1, c.enabled.GetOr(false), false, 0, kind, false, false, "", line, "", data, {}))
  }

  /** Saving and loading keeps the kind, the enable flag and the condition
      text. */
  lemma SaveLoadKind(b: Breakpoint, line: int)
    requires |b.itemData| == ColumnCount
    ensures Load(Save(b), line).Some?
    ensures Load(Save(b), line).value.kind == b.kind
    ensures Load(Save(b), line).value.enabled == b.enabled
    ensures VariantString(Load(Save(b), line).value.itemData[ConditionColumn]) == VariantString(b.itemData[ConditionColumn])
  {
    KindRoundTrip(b.kind);
  }

  /** A fresh code breakpoint whose location is typed as `a.cpp:10` is
      saved with an empty location, and comes back with no url: a location
      edit never reaches the item data that `save` writes. */
  lemma SaveLosesLocation(text: string, line: int)
    requires text == "a.cpp:10"
    ensures var b := SetColumn(NewBreakpoint(Code), LocationColumn, StringValue(text)).item;
      && b.url == "a.cpp" && b.line == 9
      && Save(b).location == Some("")
      && Load(Save(b), line).value.url == ""
  {
    var colon := |"a.cpp"|;
    assert text == "a.cpp" + ":" + "10";
    LastColon("a.cpp", "10");
    assert text[..colon] == "a.cpp";
    assert text[colon + 1..] == "10";
    assert IntToString(10) == "10" by {
      assert NatToString(10) == NatToString(1) + [DigitChar(0)];
    }
    ToIntOfString(10);
    KindRoundTrip(Code);
  }

  /** `save` writing the location the breakpoint has: its url and line as
      the location column shows them without the address. */
  function SaveLocation(b: Breakpoint): (c: Config)
    requires |b.itemData| == ColumnCount
    ensures c.kind == Some(KindString(b.kind)) && c.enabled == Some(b.enabled)
    ensures c.location == Some(LocationText(b.url, b.line, ""))
    ensures c.condition == Some(VariantString(b.itemData[ConditionColumn]))
  {
    Save(b).(location := Some(LocationText(b.url, b.line, "")))
  }

  /** The config constructor reading the saved location back into url and
      line, as a location edit does. */
  function LoadLocation(c: Config): (r: Option<Breakpoint>)
    ensures r.Some? <==> c.kind.GetOr("") in StringKinds
    ensures r.Some? ==> (r.value.url, r.value.line) == ParseLocation(c.location.GetOr(""))
  {
    var loc := ParseLocation(c.location.GetOr(""));
    match Load(c, loc.1)
    case None => None
    case Some(b) => Some(b.(url := loc.0))
  }

  /** With the location saved as the column shows it, save-then-load keeps
      kind, enable flag, condition and line, for every 32-bit line, and the
      url up to the trailing slashes the column does not show. */
  lemma SaveLocationRoundTrip(b: Breakpoint)
    requires |b.itemData| == ColumnCount
    requires Int32Min <= b.line <= Int32Max
    ensures var r := LoadLocation(SaveLocation(b));
      && r.Some?
      && r.value.kind == b.kind && r.value.enabled == b.enabled
      && r.value.url == LocalFile(b.url) && r.value.line == b.line
      && VariantString(r.value.itemData[ConditionColumn]) == VariantString(b.itemData[ConditionColumn])
  {
    var c := SaveLocation(b);
    var text := LocationText(b.url, b.line, "");
    assert c.location.GetOr("") == text;
    LocationRoundTrip(b.url, b.line);
    assert ParseLocation(text) == (LocalFile(b.url), b.line);
    SaveLoadKind(b, b.line);
    assert c == Save(b).(location := Some(text));
    assert Load(c, b.line) == Load(Save(b), b.line).(value := Load(Save(b), b.line).value.(itemData := Load(c, b.line).value.itemData));
  }
}

=== FILE: context_tree.dfy ===
/** Child contexts as `testContextRelationships` in
    languages/cpp/cppduchain/tests/test_duchain.cpp pins them down: a context
    created with a parent joins the parent's child list in source order of
    its start cursor, and `deleteChildContextsRecursively` leaves the list
    empty. The `DUContext` implementation is not part of this model; this
    module gives the insertion a definition that meets the test: the list is
    scanned from its end and the new child goes right after the last child
    that does not start after it, so children with equal starts keep their
    creation order. */
module ContextTree {

  /** `SimpleCursor(line, column)`. */
  datatype Cursor = Cursor(line: int, column: int)

  /** Cursor order: by line, then by column. */
  predicate Before(a: Cursor, b: Cursor) {
    a.line < b.line || (a.line == b.line && a.column < b.column)
  }

  /** `SimpleRange(start, end)`. */
  datatype Range = Range(start: Cursor, end: Cursor)

  /** A context: an identity, its range and the contexts it owns, in order. */
  datatype Context = Context(id: nat, range: Range, children: seq<Context>)

  /** No child starts before an earlier one. */
  predicate InSourceOrder(cs: seq<Context>) {
    forall i, j :: 0 <= i < j < |cs| ==> !Before(cs[j].range.start, cs[i].range.start)
  }

  /** Where a new child starting at `at` goes: after the last child that does
      not start after it, or in front. */
  function InsertPosition(cs: seq<Context>, at: Cursor): (i: nat)
    ensures i <= |cs|
    ensures i > 0 ==> !Before(at, cs[i - 1].range.start)
    ensures forall j :: i <= j < |cs| ==> Before(at, cs[j].range.start)
  {
    if |cs| == 0 then 0
    else if !Before(at, cs[|cs| - 1].range.start) then |cs|
    else InsertPosition(cs[..|cs| - 1], at)
  }

  /** `new DUContext(range, parent)`: the parent with `child` placed among
      its children. */
  function AddChild(parent: Context, child: Context): (r: Context)
    ensures r.id == parent.id && r.range == parent.range
    ensures |r.children| == |parent.children| + 1
    ensures multiset(r.children) == multiset(parent.children) + multiset{child}
    ensures InSourceOrder(parent.children) ==> InSourceOrder(r.children)
  {
    var cs := parent.children;
    var i := InsertPosition(cs, child.range.start);
    InsertKeepsOrder(cs, child, i);
    InsertKeepsOthers(cs, child, i);
    parent.(children := cs[..i] + [child] + cs[i..])
  }

  lemma InsertKeepsOthers(cs: seq<Context>, child: Context, i: nat)
    requires i <= |cs|
    ensures multiset(cs[..i] + [child] + cs[i..]) == multiset(cs) + multiset{child}
  {
    assert cs == cs[..i] + cs[i..];
  }

  lemma InsertKeepsOrder(cs: seq<Context>, child: Context, i: nat)
    requires i == InsertPosition(cs, child.range.start)
    ensures InSourceOrder(cs) ==> InSourceOrder(cs[..i] + [child] + cs[i..])
  {
    var r := cs[..i] + [child] + cs[i..];
    if InSourceOrder(cs) {
      forall a, b | 0 <= a < b < |r|
        ensures !Before(r[b].range.start, r[a].range.start)
      {
        if a < i && b == i {
          assert !Before(child.range.start, cs[i - 1].range.start);
          assert r[a] == cs[a];
        } else if a == i {
          assert r[b] == cs[b - 1];
        } else if b < i {
          assert r[a] == cs[a] && r[b] == cs[b];
        } else if a < i {
          assert r[a] == cs[a] && r[b] == cs[b - 1];
        } else {
          assert r[a] == cs[a - 1] && r[b] == cs[b - 1];
        }
      }
    }
  }

  /** The children that do not start after `at`, in order. */
  function NotAfter(cs: seq<Context>, at: Cursor): seq<Context> {
    if |cs| == 0 then []
    else (if Before(at, cs[0].range.start) then [] else [cs[0]]) + NotAfter(cs[1..], at)
  }

  /** The children that start after `at`, in order. */
  function After(cs: seq<Context>, at: Cursor): seq<Context> {
    if |cs| == 0 then []
    else (if Before(at, cs[0].range.start) then [cs[0]] else []) + After(cs[1..], at)
  }

  lemma {:induction false} NotAfterAll(cs: seq<Context>, at: Cursor)
    requires forall j :: 0 <= j < |cs| ==> !Before(at, cs[j].range.start)
    ensures NotAfter(cs, at) == cs && After(cs, at) == []
  {
    if |cs| > 0 {
      NotAfterAll(cs[1..], at);
      assert cs == [cs[0]] + cs[1..];
    }
  }

  lemma {:induction false} AfterAll(cs: seq<Context>, at: Cursor)
    requires forall j :: 0 <= j < |cs| ==> Before(at, cs[j].range.start)
    ensures NotAfter(cs, at) == [] && After(cs, at) == cs
  {
    if |cs| > 0 {
      AfterAll(cs[1..], at);
      assert cs == [cs[0]] + cs[1..];
    }
  }

  lemma {:induction false} SplitFilters(a: seq<Context>, b: seq<Context>, at: Cursor)
    ensures NotAfter(a + b, at) == NotAfter(a, at) + NotAfter(b, at)
    ensures After(a + b, at) == After(a, at) + After(b, at)
  {
    if |a| > 0 {
      assert (a + b)[1..] == a[1..] + b;
      SplitFilters(a[1..], b, at);
    } else {
      assert a + b == b;
    }
  }

  /** In a list in source order, no child before the insert position starts
      after the new one. */
  lemma PrefixNotAfter(cs: seq<Context>, at: Cursor)
    requires InSourceOrder(cs)
    ensures forall j :: 0 <= j < InsertPosition(cs, at) ==> !Before(at, cs[j].range.start)
  {
    var i := InsertPosition(cs, at);
    forall j | 0 <= j < i
      ensures !Before(at, cs[j].range.start)
    {
      if j < i - 1 {
        assert !Before(cs[i - 1].range.start, cs[j].range.start);
      }
    }
  }

  /** A list whose first `i` children do not start after `at` and whose
      other children do: the two filters cut it at `i`. */
  lemma CutAt(cs: seq<Context>, at: Cursor, i: nat)
    requires i <= |cs|
    requires forall j :: 0 <= j < i ==> !Before(at, cs[j].range.start)
    requires forall j :: i <= j < |cs| ==> Before(at, cs[j].range.start)
    ensures NotAfter(cs, at) == cs[..i] && After(cs, at) == cs[i..]
  {
    var pre, post := cs[..i], cs[i..];
    NotAfterAll(pre, at);
    AfterAll(post, at);
    SplitFilters(pre, post, at);
    assert cs == pre + post;
  }

  /** In a list in source order, the two filters cut at the insert
      position. */
  lemma FiltersCut(cs: seq<Context>, at: Cursor)
    requires InSourceOrder(cs)
    ensures NotAfter(cs, at) == cs[..InsertPosition(cs, at)]
    ensures After(cs, at) == cs[InsertPosition(cs, at)..]
  {
    PrefixNotAfter(cs, at);
    CutAt(cs, at, InsertPosition(cs, at));
  }

  /** In a list in source order, a new child lands after every child that
      does not start after it and before every child that does: the order
      is decided by start cursors alone. */
  lemma AddChildPlacement(parent: Context, child: Context)
    requires InSourceOrder(parent.children)
    ensures var at := child.range.start;
      AddChild(parent, child).children ==
        NotAfter(parent.children, at) + [child] + After(parent.children, at)
  {
    FiltersCut(parent.children, child.range.start);
  }

  /** The identities of a context and everything it owns. */
  function Owned(c: Context): (r: set<nat>)
    ensures c.id in r
    decreases c
  {
    {c.id} + OwnedBy(c.children)
  }

  function OwnedBy(cs: seq<Context>): set<nat>
    decreases cs
  {
    if |cs| == 0 then {} else Owned(cs[0]) + OwnedBy(cs[1..])
  }

  /** `deleteChildContextsRecursively()`: every owned child, and what it
      owns, is destroyed; the context itself stays. */
  function DeleteChildContextsRecursively(c: Context): (r: Context)
    ensures r.children == []
    ensures r.id == c.id && r.range == c.range
    ensures Owned(r) == {c.id}
    ensures Owned(c) - Owned(r) == Owned(c) - {c.id}
  {
    c.(children := [])
  }

  // ---------------------------------------------------------------------------
  // The test's sequence
  // ---------------------------------------------------------------------------

  /** Three children created at (4,4), (14,4) and (10,4): the third lands at
      index 1, between the other two, and deleting the children empties the
      list. */
  lemma TestContextRelationships(top: Context, first: Context, second: Context, third: Context)
    requires top.children == []
    requires first.range == Range(Cursor(4, 4), Cursor(10, 3))
    requires second.range == Range(Cursor(14, 4), Cursor(19, 3))
    requires third.range == Range(Cursor(10, 4), Cursor(14, 3))
    ensures var t1 := AddChild(top, first);
      && |t1.children| == 1 && t1.children[0] == first
    ensures var t2 := AddChild(AddChild(top, first), second);
      && |t2.children| == 2 && t2.children[1] == second
    ensures var t3 := AddChild(AddChild(AddChild(top, first), second), third);
      && |t3.children| == 3 && t3.children == [first, third, second]
    ensures DeleteChildContextsRecursively(AddChild(AddChild(AddChild(top, first), second), third)).children == []
  {
    var t1 := AddChild(top, first);
    AddToEmpty(top, first);
    var t2 := AddChild(t1, second);
    AddAfterOne(t1, second);
    AddBetweenTwo(t2, third);
  }

  /** The first child of a context is its only one. */
  lemma AddToEmpty(parent: Context, child: Context)
    requires parent.children == []
    ensures AddChild(parent, child).children == [child]
  {
    AddChildAt(parent, child, 0);
  }

  /** A child that does not start before the only one goes after it. */
  lemma AddAfterOne(parent: Context, child: Context)
    requires |parent.children| == 1
    requires !Before(child.range.start, parent.children[0].range.start)
    ensures AddChild(parent, child).children == parent.children + [child]
  {
    AddChildAt(parent, child, 1);
  }

  /** A child that starts after the first of two and before the second goes
      between them. */
  lemma AddBetweenTwo(parent: Context, child: Context)
    requires |parent.children| == 2
    requires !Before(child.range.start, parent.children[0].range.start)
    requires Before(child.range.start, parent.children[1].range.start)
    ensures AddChild(parent, child).children == [parent.children[0], child, parent.children[1]]
  {
    var cs := parent.children;
    assert InsertPosition(cs, child.range.start) == 1 by {
      assert cs[..1] == [cs[0]];
    }
    AddChildAt(parent, child, 1);
    assert cs[..1] == [cs[0]] && cs[1..] == [cs[1]];
  }

  /** The child list after an insertion at a known position. */
  lemma AddChildAt(parent: Context, child: Context, i: nat)
    requires i == InsertPosition(parent.children, child.range.start)
    ensures AddChild(parent, child).children == parent.children[..i] + [child] + parent.children[i..]
  {
  }
}

=== FILE: docker_runtime.dfy ===
/** The Docker runtime (plugins/docker/dockerruntime.cpp): the `docker run`
    command line it builds around a process, with one `--volume` mount per
    project, and the translation of paths between the host and the
    container, where every project is mounted under the projects volume by
    its name.

    A `Path` is its list of segments. The project controller is a list of
    projects; `KShell::splitArgs` is not modelled, so the extra arguments
    arrive already split. */
module DockerRuntime {
  import opened Wrappers
  import opened Text

  // ---------------------------------------------------------------------------
  // Paths
  // ---------------------------------------------------------------------------

  /** A segment of a normalised path: not empty, no separator. */
  predicate ValidSegment(s: string) {
    |s| > 0 && '/' !in s
  }

  /** `KDevelop::Path`, as its segments from the root. */
  datatype Path = Path(segments: seq<string>)

  predicate ValidPath(p: Path) {
    forall k :: 0 <= k < |p.segments| ==> ValidSegment(p.segments[k])
  }

  /** The parts of a split that are not empty, in order. */
  function NonEmpty(parts: seq<string>): (r: seq<string>)
    ensures forall k :: 0 <= k < |r| ==> |r[k]| > 0
    ensures forall k :: 0 <= k < |r| ==> r[k] in parts
  {
    if |parts| == 0 then []
    else (if |parts[0]| > 0 then [parts[0]] else []) + NonEmpty(parts[1..])
  }

  /** The segments of a path string: split at `/`, empty parts skipped. */
  function Segments(s: string): (r: seq<string>)
    ensures forall k :: 0 <= k < |r| ==> ValidSegment(r[k])
  {
    SplitPartsFree(s, '/');
    NonEmpty(Split(s, '/'))
  }

  /** `Path(QString)`. */
  function PathOf(s: string): (p: Path)
    ensures ValidPath(p)
  {
    Path(Segments(s))
  }

  /** `Path(base, subPath)`: the segments of `subPath` appended to `base`. */
  function AddPath(base: Path, sub: string): (p: Path)
    ensures ValidPath(base) ==> ValidPath(p)
    ensures |p.segments| >= |base.segments| && p.segments[..|base.segments|] == base.segments
  {
    Path(base.segments + Segments(sub))
  }

  /** `Path::toLocalFile()`. */
  function ToLocalFile(p: Path): string {
    "/" + Join(p.segments, '/')
  }

  /** `Path::lastPathSegment()`; empty for the root. */
  function LastPathSegment(p: Path): string {
    if |p.segments| == 0 then "" else p.segments[|p.segments| - 1]
  }

  /** `a` is `b` or one of its ancestors. */
  predicate Contains(a: Path, b: Path) {
    |a.segments| <= |b.segments| && b.segments[..|a.segments|] == a.segments
  }

  /** `a.isParentOf(b)`: `a` is a strict ancestor of `b`. */
  predicate IsParentOf(a: Path, b: Path) {
    Contains(a, b) && |a.segments| < |b.segments|
  }

  /** The number of leading segments two paths share. */
  function CommonPrefix(a: seq<string>, b: seq<string>): (c: nat)
    ensures c <= |a| && c <= |b|
    ensures a[..c] == b[..c]
    ensures c < |a| && c < |b| ==> a[c] != b[c]
  {
    if |a| == 0 || |b| == 0 || a[0] != b[0] then 0
    else
      var c := 1 + CommonPrefix(a[1..], b[1..]);
      assert a[..c] == [a[0]] + a[1..][..c - 1];
      assert b[..c] == [b[0]] + b[1..][..c - 1];
      c
  }

  /** `n` parent steps. */
  function Ups(n: nat): (r: seq<string>)
    ensures |r| == n
    ensures forall k :: 0 <= k < n ==> r[k] == ".."
  {
    seq(n, _ => "..")
  }

  /** `from.relativePath(to)`: up from `from` to the common ancestor, then
      down to `to`. */
  function RelativePath(from: Path, to: Path): string {
    var c := CommonPrefix(from.segments, to.segments);
    Join(Ups(|from.segments| - c) + to.segments[c..], '/')
  }

  /** The common prefix of a path with one of its descendants is the
      ancestor itself. */
  lemma CommonPrefixOfContained(a: Path, b: Path)
    requires Contains(a, b)
    ensures CommonPrefix(a.segments, b.segments) == |a.segments|
  {
  }

  /** From an ancestor, the relative path is the remaining segments. */
  lemma RelativePathDown(from: Path, to: Path)
    requires Contains(from, to)
    ensures RelativePath(from, to) == Join(to.segments[|from.segments|..], '/')
  {
    CommonPrefixOfContained(from, to);
    assert Ups(0) + to.segments[|from.segments|..] == to.segments[|from.segments|..];
  }

  /** From a descendant, the relative path is only parent steps. */
  lemma RelativePathUp(from: Path, to: Path)
    requires Contains(to, from)
    ensures RelativePath(from, to) == Join(Ups(|from.segments| - |to.segments|), '/')
  {
    CommonPrefixOfContained(to, from);
    var c := CommonPrefix(from.segments, to.segments);
    assert c == |to.segments|;
    assert to.segments[c..] == [];
    assert Ups(|from.segments| - c) + [] == Ups(|from.segments| - c);
  }

  lemma {:induction false} NonEmptyKeeps(parts: seq<string>)
    requires forall k :: 0 <= k < |parts| ==> |parts[k]| > 0
    ensures NonEmpty(parts) == parts
  {
    if |parts| > 0 {
      NonEmptyKeeps(parts[1..]);
      assert parts == [parts[0]] + parts[1..];
    }
  }

  /** Splitting a joined list of valid segments gives the list back. */
  lemma SegmentsJoin(segs: seq<string>)
    requires forall k :: 0 <= k < |segs| ==> ValidSegment(segs[k])
    ensures Segments(Join(segs, '/')) == segs
  {
    if |segs| == 0 {
      assert Split("", '/') == [""];
    } else {
      SplitJoin(segs, '/');
      NonEmptyKeeps(segs);
    }
  }

  /** `name + "/" + rest` names the segment `name` followed by `rest`, also
      when `rest` is empty. */
  lemma SegmentsNamed(name: string, rest: seq<string>)
    requires ValidSegment(name)
    requires forall k :: 0 <= k < |rest| ==> ValidSegment(rest[k])
    ensures Segments(name + "/" + Join(rest, '/')) == [name] + rest
  {
    if |rest| == 0 {
      SegmentsNamedAlone(name, rest);
    } else {
      SegmentsNamedMore(name, rest);
    }
  }

  lemma SegmentsNamedAlone(name: string, rest: seq<string>)
    requires ValidSegment(name) && rest == []
    ensures Segments(name + "/" + Join(rest, '/')) == [name] + rest
  {
    var s := name + "/" + Join(rest, '/');
    assert Join(rest, '/') == "";
    assert s == name + "/";
    assert [name] + rest == [name];
    SegmentsTrailingSlash(name, s);
  }

  lemma SegmentsNamedMore(name: string, rest: seq<string>)
    requires ValidSegment(name) && |rest| > 0
    requires forall k :: 0 <= k < |rest| ==> ValidSegment(rest[k])
    ensures Segments(name + "/" + Join(rest, '/')) == [name] + rest
  {
    var segs := [name] + rest;
    JoinCons(name, rest);
    forall k | 0 <= k < |segs|
      ensures ValidSegment(segs[k])
    {
      if k > 0 {
        assert segs[k] == rest[k - 1];
      }
    }
    SegmentsJoin(segs);
  }

  lemma JoinCons(name: string, rest: seq<string>)
    requires |rest| > 0
    ensures Join([name] + rest, '/') == name + "/" + Join(rest, '/')
  {
    var segs := [name] + rest;
    assert segs[1..] == rest;
  }

  /** A single segment followed by `/` is that one segment. */
  lemma SegmentsTrailingSlash(name: string, s: string)
    requires ValidSegment(name) && s == name + "/"
    ensures Segments(s) == [name]
  {
    assert s == name + ['/'];
    IndexOfFirst(s, '/', |name|);
    assert s[..|name|] == name && s[|name| + 1..] == "";
    assert Split("", '/') == [""];
    assert Split(s, '/') == [name, ""];
    assert NonEmpty([""]) == [];
    assert NonEmpty([name, ""]) == [name] + NonEmpty([""]);
  }

  // ---------------------------------------------------------------------------
  // Projects and settings
  // ---------------------------------------------------------------------------

  /** A project as the runtime sees it: its name, its root, whether the root
      is a local file and whether it has a build-system manager. */
  datatype Project = Project(name: string, root: Path, isLocal: bool, hasBuildManager: bool)

  /** The runtime's settings; the extra arguments are already split into
      words. */
  datatype Settings = Settings(projectsVolume: string, buildDirsVolume: string, extraArguments: seq<string>)

  /** `findProjectByName`: the first project with that name. */
  function FindProjectByName(projects: seq<Project>, name: string): (r: Option<Project>)
    ensures r.Some? ==> r.value in projects && r.value.name == name
  {
    if |projects| == 0 then None
    else if projects[0].name == name then Some(projects[0])
    else FindProjectByName(projects[1..], name)
  }

  /** The search by name fails exactly when no project has the name. */
  lemma {:induction false} FindProjectByNameNone(projects: seq<Project>, name: string)
    ensures FindProjectByName(projects, name).None? <==> forall q :: q in projects ==> q.name != name
  {
    if |projects| > 0 {
      FindProjectByNameNone(projects[1..], name);
      assert forall q :: q in projects ==> q == projects[0] || q in projects[1..];
    }
  }

  /** `findProjectForUrl`: the first project whose root holds the path. */
  function FindProjectForUrl(projects: seq<Project>, p: Path): (r: Option<Project>)
    ensures r.Some? ==> r.value in projects && Contains(r.value.root, p)
  {
    if |projects| == 0 then None
    else if Contains(projects[0].root, p) then Some(projects[0])
    else FindProjectForUrl(projects[1..], p)
  }

  /** The search by path fails exactly when no project root holds the
      path. */
  lemma {:induction false} FindProjectForUrlNone(projects: seq<Project>, p: Path)
    ensures FindProjectForUrl(projects, p).None? <==> forall q :: q in projects ==> !Contains(q.root, p)
  {
    if |projects| > 0 {
      FindProjectForUrlNone(projects[1..], p);
      assert forall q :: q in projects ==> q == projects[0] || q in projects[1..];
    }
  }

  // ---------------------------------------------------------------------------
  // The command line
  // ---------------------------------------------------------------------------

  /** `ensureEndsSlash`. */
  function EnsureEndsSlash(s: string): (r: string)
    ensures EndsWith(r, '/')
    ensures EndsWith(s, '/') ==> r == s
    ensures !EndsWith(s, '/') ==> r == s + "/"
  {
    if EndsWith(s, '/') then s else s + "/"
  }

  lemma EnsureEndsSlashIdempotent(s: string)
    ensures EnsureEndsSlash(EnsureEndsSlash(s)) == EnsureEndsSlash(s)
    ensures |EnsureEndsSlash(s)| <= |s| + 1 && EnsureEndsSlash(s)[..|s|] == s
  {
  }

  /** The `"%1:%2"` mount of a project's root at `dir` + its last segment. */
  function Mount(p: Project, dir: string): string {
    ToLocalFile(p.root) + ":" + dir + LastPathSegment(p.root)
  }

  /** The volume arguments one project contributes. */
  function VolumesOf(p: Project, dir: string, buildDir: string): seq<string> {
    (if p.isLocal then ["--volume", Mount(p, dir)] else [])
    + (if p.hasBuildManager then ["--volume", Mount(p, buildDir)] else [])
  }

  function Volumes(projects: seq<Project>, dir: string, buildDir: string): seq<string> {
    if |projects| == 0 then []
    else VolumesOf(projects[0], dir, buildDir) + Volumes(projects[1..], dir, buildDir)
  }

  /** Every mount of one of the projects at one of the two directories. */
  function AllMounts(projects: seq<Project>, dir: string, buildDir: string): set<string> {
    (set q | q in projects :: Mount(q, dir)) + (set q | q in projects :: Mount(q, buildDir))
  }

  /** The arguments come in pairs: a `--volume` flag, then a mount of some
      project at one of the two directories. */
  predicate VolumePairs(r: seq<string>, mounts: set<string>)
    decreases |r|
  {
    |r| == 0 || (|r| >= 2 && r[0] == "--volume" && r[1] in mounts && VolumePairs(r[2..], mounts))
  }

  /** `projectVolumes()`: for every project, its projects-volume mount when
      it is local and its build-directory mount when it has a build-system
      manager; the host side is the project root in both. */
  function ProjectVolumes(projects: seq<Project>, settings: Settings): seq<string> {
    Volumes(projects, EnsureEndsSlash(settings.projectsVolume), EnsureEndsSlash(settings.buildDirsVolume))
  }

  /** The volume arguments are `--volume`/mount pairs, each mount belongs to
      a project, and every local project and every project with a build
      manager has its mount there. */
  lemma ProjectVolumesMounts(projects: seq<Project>, settings: Settings)
    ensures var r := ProjectVolumes(projects, settings);
      var dir := EnsureEndsSlash(settings.projectsVolume);
      var buildDir := EnsureEndsSlash(settings.buildDirsVolume);
      && VolumePairs(r, AllMounts(projects, dir, buildDir))
      && (forall q :: q in projects && q.isLocal ==> Mount(q, dir) in r)
      && (forall q :: q in projects && q.hasBuildManager ==> Mount(q, buildDir) in r)
  {
    var dir := EnsureEndsSlash(settings.projectsVolume);
    var buildDir := EnsureEndsSlash(settings.buildDirsVolume);
    VolumesSound(projects, dir, buildDir);
    VolumesComplete(projects, dir, buildDir);
  }

  /** Exactly what each project contributes, in project order: splitting
      the list at the `n`-th project leaves that project's block — its
      projects-volume mount if it is local, then its build-directory mount
      if it has a build-system manager, and nothing else — between the
      blocks of the projects before and after it. */
  lemma ProjectVolumesPerProject(projects: seq<Project>, settings: Settings, n: nat)
    requires n < |projects|
    ensures var p := projects[n];
      var dir := EnsureEndsSlash(settings.projectsVolume);
      var buildDir := EnsureEndsSlash(settings.buildDirsVolume);
      ProjectVolumes(projects, settings)
      == ProjectVolumes(projects[..n], settings)
         + (if p.isLocal then ["--volume", Mount(p, dir)] else [])
         + (if p.hasBuildManager then ["--volume", Mount(p, buildDir)] else [])
         + ProjectVolumes(projects[n + 1..], settings)
  {
    var dir := EnsureEndsSlash(settings.projectsVolume);
    var buildDir := EnsureEndsSlash(settings.buildDirsVolume);
    assert projects == projects[..n] + ([projects[n]] + projects[n + 1..]);
    VolumesAppend(projects[..n], [projects[n]] + projects[n + 1..], dir, buildDir);
    assert ([projects[n]] + projects[n + 1..])[1..] == projects[n + 1..];
  }

  /** The arguments for two lists of projects side by side. */
  lemma {:induction false} VolumesAppend(a: seq<Project>, b: seq<Project>, dir: string, buildDir: string)
    ensures Volumes(a + b, dir, buildDir) == Volumes(a, dir, buildDir) + Volumes(b, dir, buildDir)
    decreases |a|
  {
    if |a| == 0 {
      assert a + b == b;
    } else {
      assert (a + b)[1..] == a[1..] + b;
      VolumesAppend(a[1..], b, dir, buildDir);
    }
  }

  lemma VolumesOfPairs(p: Project, projects: seq<Project>, dir: string, buildDir: string)
    requires p in projects
    ensures VolumePairs(VolumesOf(p, dir, buildDir), AllMounts(projects, dir, buildDir))
  {
    var m := AllMounts(projects, dir, buildDir);
    assert Mount(p, dir) in m && Mount(p, buildDir) in m;
  }

  /** Two pair lists side by side are a pair list. */
  lemma {:induction false} PairsAppend(a: seq<string>, b: seq<string>, mounts: set<string>)
    requires VolumePairs(a, mounts) && VolumePairs(b, mounts)
    ensures VolumePairs(a + b, mounts)
    decreases |a|
  {
    if |a| == 0 {
      assert a + b == b;
    } else {
      assert (a + b)[2..] == a[2..] + b;
      PairsAppend(a[2..], b, mounts);
    }
  }

  /** Pairs over fewer mounts are pairs over more. */
  lemma {:induction false} PairsWiden(r: seq<string>, small: set<string>, mounts: set<string>)
    requires VolumePairs(r, small) && small <= mounts
    ensures VolumePairs(r, mounts)
    decreases |r|
  {
    if |r| > 0 {
      PairsWiden(r[2..], small, mounts);
    }
  }

  lemma MountsWiden(projects: seq<Project>, dir: string, buildDir: string)
    requires |projects| > 0
    ensures AllMounts(projects[1..], dir, buildDir) <= AllMounts(projects, dir, buildDir)
  {
    forall q | q in projects[1..]
      ensures q in projects
    {
    }
  }

  lemma {:induction false} VolumesSound(projects: seq<Project>, dir: string, buildDir: string)
    ensures VolumePairs(Volumes(projects, dir, buildDir), AllMounts(projects, dir, buildDir))
  {
    if |projects| > 0 {
      var rest := projects[1..];
      var m := AllMounts(projects, dir, buildDir);
      VolumesSound(rest, dir, buildDir);
      MountsWiden(projects, dir, buildDir);
      PairsWiden(Volumes(rest, dir, buildDir), AllMounts(rest, dir, buildDir), m);
      VolumesOfPairs(projects[0], projects, dir, buildDir);
      PairsAppend(VolumesOf(projects[0], dir, buildDir), Volumes(rest, dir, buildDir), m);
    }
  }

  lemma {:induction false} VolumesComplete(projects: seq<Project>, dir: string, buildDir: string)
    ensures forall q :: q in projects && q.isLocal ==> Mount(q, dir) in Volumes(projects, dir, buildDir)
    ensures forall q :: q in projects && q.hasBuildManager ==> Mount(q, buildDir) in Volumes(projects, dir, buildDir)
  {
    if |projects| > 0 {
      VolumesComplete(projects[1..], dir, buildDir);
      assert forall q :: q in projects ==> q == projects[0] || q in projects[1..];
    }
  }

  /** The command `startProcess(QProcess*)` runs: the program and its
      arguments. */
  datatype Command = Command(program: string, arguments: seq<string>)

  /** `startProcess(QProcess*)`: `docker run --rm`, the extra arguments, the
      volumes, the image tag, then the original program and arguments. */
  function StartProcess(settings: Settings, projects: seq<Project>, tag: string, process: Command): (r: Command)
    ensures r.program == "docker"
  {
    var vols := ProjectVolumes(projects, settings);
    var args := ["run", "--rm"] + settings.extraArguments + vols + [tag, process.program] + process.arguments;
    Command("docker", args)
  }

  /** The arguments of `startProcess` in their order: `run`, `--rm`, the
      extra arguments, the volumes, the tag, then the original program and
      its arguments. */
  lemma StartProcessOrder(settings: Settings, projects: seq<Project>, tag: string, process: Command)
    ensures var r := StartProcess(settings, projects, tag, process);
      var n := |settings.extraArguments|;
      var vols := ProjectVolumes(projects, settings);
      && |r.arguments| == 2 + n + |vols| + 2 + |process.arguments|
      && r.arguments[..2] == ["run", "--rm"]
      && r.arguments[2..2 + n] == settings.extraArguments
      && r.arguments[2 + n..2 + n + |vols|] == vols
      && r.arguments[2 + n + |vols|] == tag
      && r.arguments[2 + n + |vols| + 1..] == [process.program] + process.arguments
  {
  }

  /** `startProcess(KProcess*)`: the program list `docker run --rm`, the
      extra arguments, the volumes, the tag, then the original program
      list. */
  function StartKProcess(settings: Settings, projects: seq<Project>, tag: string, program: seq<string>): (r: seq<string>)
    ensures |r| > 3 && r[..3] == ["docker", "run", "--rm"]
    ensures |r| >= |program| && r[|r| - |program|..] == program
  {
    ["docker", "run", "--rm"] + settings.extraArguments + ProjectVolumes(projects, settings) + [tag] + program
  }

  /** Both overloads build the same command line for the same program and
      arguments. */
  lemma StartProcessAgree(settings: Settings, projects: seq<Project>, tag: string, process: Command)
    ensures var r := StartProcess(settings, projects, tag, process);
      StartKProcess(settings, projects, tag, [process.program] + process.arguments) == [r.program] + r.arguments
  {
    var vols := ProjectVolumes(projects, settings);
    var cmd := [process.program] + process.arguments;
    var a0 := ["run", "--rm"] + settings.extraArguments;
    var k0 := ["docker", "run", "--rm"] + settings.extraArguments;
    assert ["docker"] + a0 == k0;
    var a1 := a0 + vols;
    var k1 := k0 + vols;
    assert ["docker"] + a1 == k1;
    var a2 := a1 + [tag, process.program];
    assert ["docker"] + a2 == k1 + [tag] + [process.program];
    assert StartProcess(settings, projects, tag, process).arguments == a2 + process.arguments;
    assert ["docker"] + (a2 + process.arguments) == k1 + [tag] + [process.program] + process.arguments;
    assert StartKProcess(settings, projects, tag, cmd) == k1 + [tag] + cmd;
  }

  // ---------------------------------------------------------------------------
  // Path translation
  // ---------------------------------------------------------------------------

  /** `pathInRuntime(localPath)`: a path inside a project becomes the same
      path below `<projects volume>/<project name>`; any other path is
      returned as it is. */
  function PathInRuntime(local: Path, projects: seq<Project>, settings: Settings): (r: Path)
    ensures FindProjectForUrl(projects, local).None? ==> r == local
  {
    match FindProjectForUrl(projects, local)
    case None => local
    case Some(project) =>
      var relpath := RelativePath(project.root, local);
      AddPath(PathOf(settings.projectsVolume), project.name + "/" + relpath)
  }

  /** Inside a project with a one-segment name, the runtime path is the
      projects volume, the name, and the path below the project root. */
  lemma PathInRuntimeInside(local: Path, projects: seq<Project>, settings: Settings, project: Project)
    requires ValidPath(local) && ValidSegment(project.name)
    requires FindProjectForUrl(projects, local) == Some(project)
    ensures PathInRuntime(local, projects, settings).segments ==
      Segments(settings.projectsVolume) + [project.name] + local.segments[|project.root.segments|..]
  {
    var rest := local.segments[|project.root.segments|..];
    RelativePathDown(project.root, local);
    SegmentsNamed(project.name, rest);
  }

  /** The name and the remainder `pathInHost` takes from a relative path: the
      text before the first `/`, and the text after it. */
  function SplitRel(rel: string): (r: (string, string))
  {
    var index := IndexOf(rel, '/');
    (Left(rel, index), if index < 0 then "" else Mid(rel, index + 1))
  }

  /** Taken apart, a joined list of segments gives back its first segment
      and the rest, joined. */
  lemma SplitRelJoin(name: string, rest: seq<string>)
    requires ValidSegment(name)
    ensures SplitRel(Join([name] + rest, '/')) == (name, Join(rest, '/'))
  {
    var segs := [name] + rest;
    var s := Join(segs, '/');
    if |rest| == 0 {
      assert s == name;
      IndexOfAbsent(s, '/');
    } else {
      assert segs[1..] == rest;
      assert s == name + ['/'] + Join(rest, '/');
      assert s[..|name|] == name;
      IndexOfFirst(s, '/', |name|);
      assert s[|name| + 1..] == Join(rest, '/');
    }
  }

  /** `pathInHost(runtimePath)`, with the relative path taken from the
      projects volume down to the runtime path and an empty remainder when
      it has no `/`: a path below `<projects volume>/<name>` for a known
      project goes back below that project's root; any other path is
      returned as it is. */
  function PathInHost(runtime: Path, projects: seq<Project>, settings: Settings): (r: Path)
    ensures !IsParentOf(PathOf(settings.projectsVolume), runtime) ==> r == runtime
  {
    var projectsDir := PathOf(settings.projectsVolume);
    if IsParentOf(projectsDir, runtime) then
      var rel := SplitRel(RelativePath(projectsDir, runtime));
      match FindProjectByName(projects, rel.0)
      case None => runtime
      case Some(project) => AddPath(project.root, rel.1)
    else runtime
  }

  /** Below the projects volume, `pathInHost` looks the first segment up as
      a project name; a known project's root replaces the volume and the
      name, and an unknown name leaves the path alone. */
  lemma PathInHostInside(runtime: Path, projects: seq<Project>, settings: Settings)
    requires ValidPath(runtime)
    requires IsParentOf(PathOf(settings.projectsVolume), runtime)
    ensures var n := |Segments(settings.projectsVolume)|;
      var name := runtime.segments[n];
      var r := PathInHost(runtime, projects, settings);
      && (FindProjectByName(projects, name).None? ==> r == runtime)
      && (FindProjectByName(projects, name).Some? ==>
            r == Path(FindProjectByName(projects, name).value.root.segments + runtime.segments[n + 1..]))
  {
    var dir := PathOf(settings.projectsVolume);
    var n := |dir.segments|;
    var below := runtime.segments[n..];
    RelativePathDown(dir, runtime);
    assert below == [below[0]] + below[1..];
    SplitRelJoin(below[0], below[1..]);
    SegmentsJoin(below[1..]);
  }

  /** The host-to-runtime round trip: a path inside a project, whose
      one-segment name finds that same project, comes back unchanged. */
  lemma RoundTrip(local: Path, projects: seq<Project>, settings: Settings, project: Project)
    requires ValidPath(local) && ValidSegment(project.name)
    requires FindProjectForUrl(projects, local) == Some(project)
    requires FindProjectByName(projects, project.name) == Some(project)
    ensures PathInHost(PathInRuntime(local, projects, settings), projects, settings) == local
  {
    var runtime := PathInRuntime(local, projects, settings);
    var rest := local.segments[|project.root.segments|..];
    PathInRuntimeInside(local, projects, settings, project);
    HostOfRuntime(runtime, projects, settings, project, rest);
    ContainsSplit(project.root, local);
  }

  lemma ContainsSplit(a: Path, b: Path)
    requires Contains(a, b)
    ensures b == Path(a.segments + b.segments[|a.segments|..])
  {
    assert b.segments == b.segments[..|a.segments|] + b.segments[|a.segments|..];
  }

  /** A runtime path below the projects volume and a known project's name
      goes back below that project's root. */
  lemma HostOfRuntime(runtime: Path, projects: seq<Project>, settings: Settings, project: Project, rest: seq<string>)
    requires ValidSegment(project.name)
    requires forall k :: 0 <= k < |rest| ==> ValidSegment(rest[k])
    requires runtime.segments == Segments(settings.projectsVolume) + [project.name] + rest
    requires FindProjectByName(projects, project.name) == Some(project)
    ensures PathInHost(runtime, projects, settings) == Path(project.root.segments + rest)
  {
    var vol := Segments(settings.projectsVolume);
    RuntimeLayout(runtime, vol, project.name, rest);
    PathInHostInside(runtime, projects, settings);
  }

  /** A runtime path laid out as volume, name, rest: valid, below the
      volume, with the name right after it. */
  lemma RuntimeLayout(runtime: Path, vol: seq<string>, name: string, rest: seq<string>)
    requires runtime.segments == vol + [name] + rest
    requires forall k :: 0 <= k < |vol| ==> ValidSegment(vol[k])
    requires ValidSegment(name)
    requires forall k :: 0 <= k < |rest| ==> ValidSegment(rest[k])
    ensures ValidPath(runtime)
    ensures IsParentOf(Path(vol), runtime)
    ensures runtime.segments[|vol|] == name && runtime.segments[|vol| + 1..] == rest
  {
    var r := runtime.segments;
    assert r[..|vol|] == vol;
    forall k | 0 <= k < |r|
      ensures ValidSegment(r[k])
    {
      if k > |vol| {
        assert r[k] == rest[k - |vol| - 1];
      } else if k < |vol| {
        assert r[k] == vol[k];
      }
    }
  }

  // ---------------------------------------------------------------------------
  // pathInHost as written
  // ---------------------------------------------------------------------------

  /** The name and remainder as lines 103-108 take them: with no `/`,
      `left(-1)` is the whole text and so is `mid(0)`. */
  function SplitRelAsWritten(rel: string): (r: (string, string))
  {
    var index := IndexOf(rel, '/');
    (Left(rel, index), Mid(rel, index + 1))
  }

  /** As written, a relative path of one segment is both the name and the
      remainder, so the project root itself would map to `root/<name>`. */
  lemma SplitRelAsWrittenRepeats(name: string)
    requires ValidSegment(name)
    ensures SplitRelAsWritten(name) == (name, name)
    ensures SplitRel(name) == (name, "")
  {
    IndexOfAbsent(name, '/');
    assert name[0..] == name;
  }

  /** `pathInHost` as written: the relative path is taken from the runtime
      path up to the projects volume. */
  function PathInHostAsWritten(runtime: Path, projects: seq<Project>, settings: Settings): (r: Path)
    ensures !IsParentOf(PathOf(settings.projectsVolume), runtime) ==> r == runtime
  {
    var projectsDir := PathOf(settings.projectsVolume);
    if IsParentOf(projectsDir, runtime) then
      var rel := SplitRelAsWritten(RelativePath(runtime, projectsDir));
      match FindProjectByName(projects, rel.0)
      case None => runtime
      case Some(project) => AddPath(project.root, rel.1)
    else runtime
  }

  /** The first part of a run of parent steps is a parent step. */
  lemma UpsHead(n: nat)
    requires n > 0
    ensures SplitRelAsWritten(Join(Ups(n), '/')).0 == ".."
  {
    var s := Join(Ups(n), '/');
    if n == 1 {
      assert Ups(1) == [".."];
      assert s == "..";
      IndexOfAbsent(s, '/');
    } else {
      assert Ups(n)[1..] == Ups(n - 1);
      assert s == ".." + ['/'] + Join(Ups(n - 1), '/');
      assert s[..2] == "..";
      IndexOfFirst(s, '/', 2);
    }
  }

  /** As written, the name looked up is always `..`: unless a project has
      that name, no runtime path is ever mapped back to the host. */
  lemma PathInHostAsWrittenUnchanged(runtime: Path, projects: seq<Project>, settings: Settings)
    requires forall q :: q in projects ==> q.name != ".."
    ensures PathInHostAsWritten(runtime, projects, settings) == runtime
  {
    var dir := PathOf(settings.projectsVolume);
    if IsParentOf(dir, runtime) {
      NameAsWrittenIsUp(runtime, dir);
      FindProjectByNameNone(projects, "..");
    }
  }

  /** As written, the name looked up for a path below the projects volume is
      the first step of the way back up to the volume. */
  lemma NameAsWrittenIsUp(runtime: Path, dir: Path)
    requires IsParentOf(dir, runtime)
    ensures SplitRelAsWritten(RelativePath(runtime, dir)).0 == ".."
  {
    var n := |runtime.segments| - |dir.segments|;
    var rel := RelativePath(runtime, dir);
    RelativePathUp(runtime, dir);
    assert rel == Join(Ups(n), '/');
    UpsHead(n);
  }

  lemma SegmentsOfProjects(v: string)
    requires v == "/projects"
    ensures Segments(v) == ["projects"]
  {
    var name := v[1..];
    assert v[0] == '/' && name == "projects";
    assert IndexOf(v, '/') == 0;
    IndexOfAbsent(name, '/');
    assert Split(name, '/') == [name];
    assert Split(v, '/') == ["", name];
    assert NonEmpty([name]) == [name];
    assert NonEmpty(["", name]) == NonEmpty([name]);
  }

  /** The file `/home/app/main.cpp` of project `app` at `/home/app`, with the
      projects volume at `/projects`: its runtime path is
      `/projects/app/main.cpp`, and `pathInHost` as written hands that path
      back instead of the file. */
  lemma RoundTripFailsAsWritten(settings: Settings, project: Project, local: Path)
    requires settings.projectsVolume == "/projects"
    requires project == Project("app", Path(["home", "app"]), true, false)
    requires local == Path(["home", "app", "main.cpp"])
    ensures PathInRuntime(local, [project], settings) == Path(["projects", "app", "main.cpp"])
    ensures PathInHostAsWritten(PathInRuntime(local, [project], settings), [project], settings)
      != local
  {
    var runtime := PathInRuntime(local, [project], settings);
    AppRuntime(settings, project, local, [project]);
    PathInHostAsWrittenUnchanged(runtime, [project], settings);
    assert runtime.segments[0] != local.segments[0];
  }

  lemma AppRuntime(settings: Settings, project: Project, local: Path, projects: seq<Project>)
    requires settings.projectsVolume == "/projects"
    requires project == Project("app", Path(["home", "app"]), true, false)
    requires local == Path(["home", "app", "main.cpp"])
    requires projects == [project]
    ensures PathInRuntime(local, projects, settings) == Path(["projects", "app", "main.cpp"])
  {
    SegmentsOfProjects(settings.projectsVolume);
    assert local.segments[..2] == ["home", "app"];
    assert FindProjectForUrl(projects, local) == Some(project);
    PathInRuntimeInside(local, projects, settings, project);
    assert local.segments[2..] == ["main.cpp"];
  }
}

=== FILE: duchain.dfy ===
/** The document registry behind the global `DUChain` singleton
    (language/duchain/duchain.cpp): an ordered map from a document key
    (url + identity index) to the top context registered for it, a map from
    parsing-environment type to the manager that indexes environment files of
    that type, and the list of observers.

    Pointers to top contexts, managers and observers are modelled as
    identities (`ContextId`, `ManagerId`, `ObserverId`); the heap objects a
    registry operation touches are held in the `Registry` value itself, so
    every operation is a pure function from registry to registry. Locking
    (`ENSURE_CHAIN_*_LOCKED`) is a no-op here. */
module DUChain {
  import opened Wrappers
  import Text
  import Sequences

  // ---------------------------------------------------------------------------
  // Document keys and their order
  // ---------------------------------------------------------------------------

  /** A document key: the url and an identity index; identity 0 stands for
      "any parse of this url". */
  datatype IdentifiedFile = IdentifiedFile(url: string, identity: nat)

  /** Key order of the chain map: by url, then by identity, so that all keys
      of one url are adjacent and identity 0 is the least of them. */
  predicate KeyLess(a: IdentifiedFile, b: IdentifiedFile) {
    Text.Less(a.url, b.url) || (a.url == b.url && a.identity < b.identity)
  }

  lemma KeyLessIrreflexive(a: IdentifiedFile)
    ensures !KeyLess(a, a)
  {
    Text.LessIrreflexive(a.url);
  }

  lemma KeyLessTransitive(a: IdentifiedFile, b: IdentifiedFile, c: IdentifiedFile)
    requires KeyLess(a, b) && KeyLess(b, c)
    ensures KeyLess(a, c)
  {
    if Text.Less(a.url, b.url) && Text.Less(b.url, c.url) {
      Text.LessTransitive(a.url, b.url, c.url);
    }
  }

  lemma KeyLessTotal(a: IdentifiedFile, b: IdentifiedFile)
    ensures a == b || KeyLess(a, b) || KeyLess(b, a)
  {
    Text.LessTotal(a.url, b.url);
  }

  // ---------------------------------------------------------------------------
  // The ordered chain map (a QMap), as a strictly ascending entry sequence
  // ---------------------------------------------------------------------------

  /** A top context (`TopDUContext*`), by identity. */
  type ContextId = nat

  datatype Entry = Entry(key: IdentifiedFile, chain: ContextId)

  /** Entries are in strictly ascending key order, hence keys are unique. */
  predicate Sorted(m: seq<Entry>) {
    forall i, j :: 0 <= i < j < |m| ==> KeyLess(m[i].key, m[j].key)
  }

  /** `QMap::contains` + `QMap::value`: the chain stored under `k`. */
  function Lookup(m: seq<Entry>, k: IdentifiedFile): Option<ContextId> {
    if |m| == 0 then None
    else if m[0].key == k then Some(m[0].chain)
    else Lookup(m[1..], k)
  }

  lemma {:induction false} LookupSome(m: seq<Entry>, k: IdentifiedFile)
    requires Lookup(m, k).Some?
    ensures exists j :: 0 <= j < |m| && m[j] == Entry(k, Lookup(m, k).value)
  {
    if m[0].key != k {
      LookupSome(m[1..], k);
      var j :| 0 <= j < |m[1..]| && m[1..][j] == Entry(k, Lookup(m, k).value);
      assert m[j + 1] == m[1..][j];
    }
  }

  lemma {:induction false} LookupNone(m: seq<Entry>, k: IdentifiedFile)
    requires forall j :: 0 <= j < |m| ==> m[j].key != k
    ensures Lookup(m, k) == None
  {
    if |m| > 0 {
      assert forall j :: 0 <= j < |m[1..]| ==> m[1..][j] == m[j + 1];
      LookupNone(m[1..], k);
    }
  }

  /** `QMap::insert`: puts `(k, v)` at its place in key order, replacing the
      value of an existing entry with key `k`. */
  function Insert(m: seq<Entry>, k: IdentifiedFile, v: ContextId): (r: seq<Entry>)
    ensures Lookup(r, k) == Some(v)
    ensures forall k' :: k' != k ==> Lookup(r, k') == Lookup(m, k')
    ensures forall e :: e in r ==> e == Entry(k, v) || e in m
    ensures Sorted(m) ==> Sorted(r)
  {
    if |m| == 0 then [Entry(k, v)]
    else if m[0].key == k then
      assert ([Entry(k, v)] + m[1..])[1..] == m[1..];
      [Entry(k, v)] + m[1..]
    else if KeyLess(k, m[0].key) then
      var r := [Entry(k, v)] + m;
      assert r[1..] == m;
      InsertFrontSorted(m, k, v);
      r
    else
      var tail := Insert(m[1..], k, v);
      var r := [m[0]] + tail;
      assert r[1..] == tail;
      InsertAfterSorted(m, k, tail);
      r
  }

  /** A key below the first entry goes in front. */
  lemma InsertFrontSorted(m: seq<Entry>, k: IdentifiedFile, v: ContextId)
    requires |m| > 0 && KeyLess(k, m[0].key)
    ensures Sorted(m) ==> Sorted([Entry(k, v)] + m)
  {
    var r := [Entry(k, v)] + m;
    if Sorted(m) {
      forall j | 1 <= j < |r|
        ensures KeyLess(r[0].key, r[j].key)
      {
        if j > 1 {
          KeyLessTransitive(k, m[0].key, m[j - 1].key);
        }
      }
    }
  }

  /** A key above the first entry goes into the rest, after it. */
  lemma InsertAfterSorted(m: seq<Entry>, k: IdentifiedFile, tail: seq<Entry>)
    requires |m| > 0 && m[0].key != k && !KeyLess(k, m[0].key)
    requires forall e :: e in tail ==> e.key == k || e in m[1..]
    requires Sorted(m[1..]) ==> Sorted(tail)
    ensures Sorted(m) ==> Sorted([m[0]] + tail)
  {
    var r := [m[0]] + tail;
    if Sorted(m) {
      KeyLessTotal(k, m[0].key);
      forall j | 1 <= j < |r|
        ensures KeyLess(r[0].key, r[j].key)
      {
        assert r[j] == tail[j - 1] && r[j] in tail;
        if r[j].key != k {
          var i :| 0 <= i < |m[1..]| && m[1..][i] == r[j];
          assert m[i + 1] == r[j];
        }
      }
    }
  }

  /** `QMap::remove`: drops every entry with key `k`. */
  function Remove(m: seq<Entry>, k: IdentifiedFile): (r: seq<Entry>)
    ensures Lookup(r, k) == None
    ensures forall k' :: k' != k ==> Lookup(r, k') == Lookup(m, k')
    ensures forall e :: e in r ==> e in m && e.key != k
    ensures Sorted(m) ==> Sorted(r)
  {
    if |m| == 0 then []
    else if m[0].key == k then
      var r := Remove(m[1..], k);
      assert Sorted(m) ==> Sorted(m[1..]);
      r
    else
      var tail := Remove(m[1..], k);
      var r := [m[0]] + tail;
      assert r[1..] == tail;
      assert Sorted(m) ==> Sorted(r) by {
        if Sorted(m) {
          assert Sorted(m[1..]);
          forall j | 1 <= j < |r|
            ensures KeyLess(r[0].key, r[j].key)
          {
            assert r[j] in tail;
            var i :| 0 <= i < |m[1..]| && m[1..][i] == r[j];
            assert m[i + 1] == r[j];
          }
        }
      }
      r
  }

  /** `QMap::lowerBound`: the position of the first key that is not less
      than `k`, or the length when there is none. */
  function LowerBound(m: seq<Entry>, k: IdentifiedFile): (i: nat)
    ensures i <= |m|
    ensures forall j :: 0 <= j < i ==> KeyLess(m[j].key, k)
    ensures i < |m| ==> !KeyLess(m[i].key, k)
  {
    if |m| == 0 then 0
    else if KeyLess(m[0].key, k) then 1 + LowerBound(m[1..], k)
    else 0
  }

  /** The chains of every entry whose url is `url`, in key order: the
      reference "all parses of this url" that `chainsForDocument` is
      compared with. */
  function UrlEntries(m: seq<Entry>, url: string): seq<ContextId> {
    if |m| == 0 then []
    else (if m[0].key.url == url then [m[0].chain] else []) + UrlEntries(m[1..], url)
  }

  /** The loop of `chainsForDocument`: collect entries from `i` on while
      their url matches, stopping at the first mismatch. */
  function UrlRun(m: seq<Entry>, i: nat, url: string): seq<ContextId>
    requires i <= |m|
    decreases |m| - i
  {
    if i < |m| && m[i].key.url == url then [m[i].chain] + UrlRun(m, i + 1, url) else []
  }

  // ---------------------------------------------------------------------------
  // Document lookups
  // ---------------------------------------------------------------------------

  /** `chainForDocument(IdentifiedFile)`: with identity 0 the first entry at
      or after the key, provided it has the same url; otherwise the exact key. */
  function ChainForDocument(m: seq<Entry>, d: IdentifiedFile): Option<ContextId> {
    if d.identity == 0 then
      var i := LowerBound(m, d);
      if i < |m| && m[i].key.url == d.url then Some(m[i].chain) else None
    else Lookup(m, d)
  }

  /** `chainForDocument(KUrl)`: a url-only key has identity 0. */
  function ChainForUrl(m: seq<Entry>, url: string): Option<ContextId> {
    ChainForDocument(m, IdentifiedFile(url, 0))
  }

  /** `chainsForDocument(KUrl)`. */
  function ChainsForDocument(m: seq<Entry>, url: string): seq<ContextId> {
    UrlRun(m, LowerBound(m, IdentifiedFile(url, 0)), url)
  }

  /** A key at or above `(url, 0)` with a different url is above every key
      of `url`. */
  lemma AboveUrl(a: IdentifiedFile, url: string, b: IdentifiedFile)
    requires !KeyLess(a, IdentifiedFile(url, 0)) && a.url != url
    requires a == b || KeyLess(a, b)
    ensures b.url != url
  {
    Text.LessTotal(a.url, url);
    if b.url == url {
      if Text.Less(a.url, b.url) {
        Text.LessAsymmetric(a.url, url);
      }
    }
  }

  /** With identity 0 a chain is found exactly when some entry has the url,
      and what is found is registered under that url, never another one. */
  lemma {:induction false} AnyParseLookup(m: seq<Entry>, d: IdentifiedFile)
    requires Sorted(m) && d.identity == 0
    ensures ChainForDocument(m, d).Some? <==> exists j :: 0 <= j < |m| && m[j].key.url == d.url
    ensures ChainForDocument(m, d).Some? ==>
      exists j :: 0 <= j < |m| && m[j].key.url == d.url && m[j].chain == ChainForDocument(m, d).value
  {
    var i := LowerBound(m, d);
    Text.LessIrreflexive(d.url);
    if j :| 0 <= j < |m| && m[j].key.url == d.url {
      assert !KeyLess(m[j].key, d);
      assert i <= j;
      if m[i].key.url != d.url {
        AboveUrl(m[i].key, d.url, m[j].key);
      }
    }
  }

  /** Entries whose url is not `url` contribute nothing to `UrlEntries`. */
  lemma {:induction false} UrlEntriesSkip(m: seq<Entry>, i: nat, url: string)
    requires i <= |m|
    requires forall j :: 0 <= j < i ==> m[j].key.url != url
    ensures UrlEntries(m, url) == UrlEntries(m[i..], url)
  {
    if i > 0 {
      assert m[1..][i - 1..] == m[i..];
      UrlEntriesSkip(m[1..], i - 1, url);
    }
  }

  lemma {:induction false} UrlEntriesNone(m: seq<Entry>, url: string)
    requires forall j :: 0 <= j < |m| ==> m[j].key.url != url
    ensures UrlEntries(m, url) == []
  {
    UrlEntriesSkip(m, |m|, url);
  }

  lemma {:induction false} UrlRunIsUrlEntries(m: seq<Entry>, i: nat, url: string)
    requires Sorted(m) && i <= |m|
    requires i < |m| ==> !KeyLess(m[i].key, IdentifiedFile(url, 0))
    ensures UrlRun(m, i, url) == UrlEntries(m[i..], url)
    decreases |m| - i
  {
    var d := IdentifiedFile(url, 0);
    if i < |m| {
      assert m[i..][1..] == m[i + 1..];
      if m[i].key.url == url {
        if i + 1 < |m| {
          assert KeyLess(m[i].key, m[i + 1].key);
          if KeyLess(m[i + 1].key, d) {
            KeyLessTransitive(m[i].key, m[i + 1].key, d);
          }
        }
        UrlRunIsUrlEntries(m, i + 1, url);
      } else {
        forall j | 0 <= j < |m[i..]|
          ensures m[i..][j].key.url != url
        {
          AboveUrl(m[i].key, url, m[i + j].key);
        }
        UrlEntriesNone(m[i..], url);
      }
    }
  }

  /** `chainsForDocument` returns every parse of the url, in key order,
      because the scan from `lowerBound` covers the whole run of that url. */
  lemma ChainsForDocumentComplete(m: seq<Entry>, url: string)
    requires Sorted(m)
    ensures ChainsForDocument(m, url) == UrlEntries(m, url)
  {
    var d := IdentifiedFile(url, 0);
    var i := LowerBound(m, d);
    Text.LessIrreflexive(url);
    UrlRunIsUrlEntries(m, i, url);
    UrlEntriesSkip(m, i, url);
  }

  /** `documents()`: the url of every key, in key order. */
  function Documents(m: seq<Entry>): (urls: seq<string>)
    ensures |urls| == |m|
    ensures forall j :: 0 <= j < |m| ==> urls[j] == m[j].key.url
  {
    if |m| == 0 then [] else [m[0].key.url] + Documents(m[1..])
  }

  // ---------------------------------------------------------------------------
  // Registry state
  // ---------------------------------------------------------------------------

  type ManagerId = nat
  type ObserverId = nat

  /** A `ParsingEnvironmentFile`: its environment type and the document key
      of the parse it describes. */
  datatype EnvFile = EnvFile(fileId: nat, envType: int, identity: IdentifiedFile)

  /** A `ParsingEnvironment` handed to the environment-aware lookup; its
      contents beyond the type are opaque. */
  datatype Environment = Environment(envType: int, data: nat)

  /** The registry-relevant state of a `TopDUContext`. */
  datatype TopContext = TopContext(inDuChain: bool, envFile: Option<EnvFile>)

  /** A `ParsingEnvironmentManager`, abstracted to the set of files it holds. */
  datatype Manager = Manager(id: ManagerId, envType: int, files: set<EnvFile>)

  /** `ParsingEnvironmentManager::find`, whose implementation is not part of
      this model: given the manager, a url and an environment, the file that
      matches, if any. */
  type Finder = (Manager, string, Environment) -> Option<EnvFile>

  datatype Registry = Registry(
    chains: seq<Entry>,
    contexts: map<ContextId, TopContext>,
    managers: map<int, Manager>,
    observers: seq<ObserverId>)

  /** The set of context identities the chain map refers to. */
  function ChainValues(m: seq<Entry>): set<ContextId> {
    set j | 0 <= j < |m| :: m[j].chain
  }

  predicate Valid(r: Registry) {
    && Sorted(r.chains)
    && (forall t :: t in r.managers ==> r.managers[t].envType == t)
    && (forall j :: 0 <= j < |r.chains| ==> r.chains[j].chain in r.contexts)
  }

  function Empty(): (r: Registry)
    ensures Valid(r)
  {
    Registry([], map[], map[], [])
  }

  // ---------------------------------------------------------------------------
  // Environment managers
  // ---------------------------------------------------------------------------

  /** `addToEnvironmentManager`: hands the context's environment file to the
      manager of its type; nothing happens without a file or a manager. */
  function AddToEnvironmentManager(r: Registry, c: ContextId): (r': Registry)
    requires c in r.contexts
    ensures r'.chains == r.chains && r'.contexts == r.contexts && r'.observers == r.observers
    ensures r'.managers.Keys == r.managers.Keys
    ensures forall t :: t in r.managers ==> r'.managers[t].id == r.managers[t].id && r'.managers[t].envType == r.managers[t].envType
    ensures r.contexts[c].envFile.None? ==> r'.managers == r.managers
    ensures r.contexts[c].envFile.Some? ==>
      var f := r.contexts[c].envFile.value;
      forall t :: t in r.managers ==>
        r'.managers[t].files == (if t == f.envType then r.managers[t].files + {f} else r.managers[t].files)
  {
    match r.contexts[c].envFile
    case None => r
    case Some(f) =>
      if f.envType in r.managers then
        var mgr := r.managers[f.envType];
        r.(managers := r.managers[f.envType := mgr.(files := mgr.files + {f})])
      else r
  }

  /** `removeFromEnvironmentManager`: the inverse hand-over. */
  function RemoveFromEnvironmentManager(r: Registry, c: ContextId): (r': Registry)
    requires c in r.contexts
    ensures r'.chains == r.chains && r'.contexts == r.contexts && r'.observers == r.observers
    ensures r'.managers.Keys == r.managers.Keys
    ensures forall t :: t in r.managers ==> r'.managers[t].id == r.managers[t].id && r'.managers[t].envType == r.managers[t].envType
    ensures r.contexts[c].envFile.None? ==> r'.managers == r.managers
    ensures r.contexts[c].envFile.Some? ==>
      var f := r.contexts[c].envFile.value;
      forall t :: t in r.managers ==>
        r'.managers[t].files == (if t == f.envType then r.managers[t].files - {f} else r.managers[t].files)
  {
    match r.contexts[c].envFile
    case None => r
    case Some(f) =>
      if f.envType in r.managers then
        var mgr := r.managers[f.envType];
        r.(managers := r.managers[f.envType := mgr.(files := mgr.files - {f})])
      else r
  }

  /** `updateContextEnvironment`: leave the old file's manager, switch the
      file, join the new file's manager. */
  function UpdateContextEnvironment(r: Registry, c: ContextId, file: Option<EnvFile>): (r': Registry)
    requires c in r.contexts
    ensures r'.chains == r.chains && r'.observers == r.observers
    ensures r'.contexts == r.contexts[c := r.contexts[c].(envFile := file)]
    ensures r'.managers.Keys == r.managers.Keys
    ensures Valid(r) ==> Valid(r')
    ensures forall t :: t in r.managers ==>
      var old1 := r.contexts[c].envFile;
      var files := r.managers[t].files;
      var left := if old1.Some? && old1.value.envType == t then files - {old1.value} else files;
      r'.managers[t].files == (if file.Some? && file.value.envType == t then left + {file.value} else left)
  {
    var r1 := RemoveFromEnvironmentManager(r, c);
    var r2 := r1.(contexts := r1.contexts[c := r1.contexts[c].(envFile := file)]);
    AddToEnvironmentManager(r2, c)
  }

  /** `addParsingEnvironmentManager`: asserts that no manager of the type is
      registered yet, then registers this one. */
  function AddParsingEnvironmentManager(r: Registry, mgr: Manager): (r': Registry)
    requires mgr.envType !in r.managers
    ensures r'.managers == r.managers[mgr.envType := mgr]
    ensures r'.chains == r.chains && r'.contexts == r.contexts && r'.observers == r.observers
    ensures Valid(r) ==> Valid(r')
  {
    r.(managers := r.managers[mgr.envType := mgr])
  }

  /** `removeParsingEnvironmentManager`: erases the entry of the manager's
      type if there is one; the code asserts that entry is this manager. */
  function RemoveParsingEnvironmentManager(r: Registry, mgr: Manager): (r': Registry)
    requires mgr.envType in r.managers ==> r.managers[mgr.envType].id == mgr.id
    ensures mgr.envType !in r'.managers
    ensures r'.managers == r.managers - {mgr.envType}
    ensures r'.chains == r.chains && r'.contexts == r.contexts && r'.observers == r.observers
    ensures Valid(r) ==> Valid(r')
  {
    if mgr.envType in r.managers then r.(managers := r.managers - {mgr.envType}) else r
  }

  /** Registering and then unregistering a manager leaves the managers as
      they were. */
  lemma ManagerRoundTrip(r: Registry, mgr: Manager)
    requires mgr.envType !in r.managers
    ensures RemoveParsingEnvironmentManager(AddParsingEnvironmentManager(r, mgr), mgr) == r
  {
    assert r.managers[mgr.envType := mgr] - {mgr.envType} == r.managers;
  }

  // ---------------------------------------------------------------------------
  // Document chains
  // ---------------------------------------------------------------------------

  /** `addDocumentChain`: the context (asserted non-null) is stored under
      the key, replacing what was there, flagged as being in the chain and
      handed to its environment manager. */
  function AddDocumentChain(r: Registry, d: IdentifiedFile, c: ContextId): (r': Registry)
    requires c in r.contexts
    ensures Lookup(r'.chains, d) == Some(c)
    ensures forall k :: k != d ==> Lookup(r'.chains, k) == Lookup(r.chains, k)
    ensures d.identity != 0 ==> ChainForDocument(r'.chains, d) == Some(c)
    ensures c in r'.contexts && r'.contexts[c].inDuChain
    ensures r'.contexts[c].envFile == r.contexts[c].envFile
    ensures forall x :: x in r.contexts && x != c ==> x in r'.contexts && r'.contexts[x] == r.contexts[x]
    ensures r'.contexts.Keys == r.contexts.Keys
    ensures r'.observers == r.observers
    ensures r'.managers.Keys == r.managers.Keys
    ensures r.contexts[c].envFile.None? ==> r'.managers == r.managers
    ensures r.contexts[c].envFile.Some? ==>
      var f := r.contexts[c].envFile.value;
      forall t :: t in r.managers ==>
        r'.managers[t].files == (if t == f.envType then r.managers[t].files + {f} else r.managers[t].files)
    ensures Valid(r) ==> Valid(r')
  {
    var m := Insert(r.chains, d, c);
    assert forall j :: 0 <= j < |m| ==> m[j] == Entry(d, c) || m[j] in r.chains;
    var r1 := r.(chains := m, contexts := r.contexts[c := r.contexts[c].(inDuChain := true)]);
    AddToEnvironmentManager(r1, c)
  }

  /** `removeDocumentChain`: erases exactly the key; the context object and
      its in-chain flag stay as they were. */
  function RemoveDocumentChain(r: Registry, d: IdentifiedFile): (r': Registry)
    ensures Lookup(r'.chains, d) == None
    ensures forall k :: k != d ==> Lookup(r'.chains, k) == Lookup(r.chains, k)
    ensures r'.contexts == r.contexts && r'.managers == r.managers && r'.observers == r.observers
    ensures Valid(r) ==> Valid(r')
  {
    var m := Remove(r.chains, d);
    assert forall j :: 0 <= j < |m| ==> m[j] in r.chains;
    r.(chains := m)
  }

  /** Inserting and then removing a key leaves the map as removing alone
      would: the registration is fully undone. */
  lemma {:induction false} InsertThenRemove(m: seq<Entry>, d: IdentifiedFile, c: ContextId)
    ensures Remove(Insert(m, d, c), d) == Remove(m, d)
  {
    if |m| > 0 && m[0].key != d && !KeyLess(d, m[0].key) {
      InsertThenRemove(m[1..], d, c);
      assert ([m[0]] + Insert(m[1..], d, c))[1..] == Insert(m[1..], d, c);
    } else if |m| > 0 && m[0].key != d {
      assert ([Entry(d, c)] + m)[1..] == m;
    } else if |m| > 0 {
      assert ([Entry(d, c)] + m[1..])[1..] == m[1..];
    }
  }

  /** The environment-aware `chainForDocument(url, environment)`. With a
      manager for the environment's type, the manager's match decides; with
      none, the code falls back to the url-only lookup. */
  function ChainForEnvironment(r: Registry, url: string, env: Environment, find: Finder): (res: Option<ContextId>)
    ensures env.envType in r.managers && find(r.managers[env.envType], url, env).None? ==> res == None
    ensures env.envType in r.managers && find(r.managers[env.envType], url, env).Some? ==>
      res == ChainForDocument(r.chains, find(r.managers[env.envType], url, env).value.identity)
    ensures env.envType !in r.managers ==> res == ChainForUrl(r.chains, url)
  {
    if env.envType in r.managers then
      match find(r.managers[env.envType], url, env)
      case None => None
      case Some(file) => ChainForDocument(r.chains, file.identity)
    else ChainForUrl(r.chains, url)
  }

  /** `clear()`: every registered context is deleted and the chain map
      emptied; every manager is cleared but stays registered. */
  function Clear(r: Registry): (r': Registry)
    ensures r'.chains == []
    ensures r'.managers.Keys == r.managers.Keys
    ensures forall t :: t in r.managers ==> r'.managers[t] == r.managers[t].(files := {})
    ensures forall x :: x in r'.contexts <==> x in r.contexts && x !in ChainValues(r.chains)
    ensures r'.observers == r.observers
    ensures Valid(r) ==> Valid(r')
  {
    Registry(
      [],
      map x | x in r.contexts && x !in ChainValues(r.chains) :: r.contexts[x],
      map t | t in r.managers :: r.managers[t].(files := {}),
      r.observers)
  }

  // ---------------------------------------------------------------------------
  // Observers
  // ---------------------------------------------------------------------------

  /** `addObserver`: asserts the observer is new, then appends it. */
  function AddObserver(r: Registry, o: ObserverId): (r': Registry)
    requires o !in r.observers
    ensures r'.observers == r.observers + [o]
    ensures r'.chains == r.chains && r'.contexts == r.contexts && r'.managers == r.managers
  {
    r.(observers := r.observers + [o])
  }

  /** `removeObserver`: removes every occurrence, keeps the rest in order. */
  function RemoveObserver(r: Registry, o: ObserverId): (r': Registry)
    ensures o !in r'.observers
    ensures forall p :: p != o ==> multiset(r'.observers)[p] == multiset(r.observers)[p]
    ensures r'.observers == Sequences.RemoveEvery(r.observers, {o})
    ensures r'.chains == r.chains && r'.contexts == r.contexts && r'.managers == r.managers
  {
    var obs := Sequences.RemoveAll(r.observers, o);
    Sequences.RemoveAllIsFilter(r.observers, o);
    assert o !in multiset(obs);
    r.(observers := obs)
  }

  /** Adding and then removing an observer restores the observer list. */
  lemma ObserverRoundTrip(r: Registry, o: ObserverId)
    requires o !in r.observers
    ensures RemoveObserver(AddObserver(r, o), o) == r
  {
    Sequences.RemoveAllAppended(r.observers, o);
  }
}

=== FILE: identifiers.dfy ===
/** Qualified identifiers as `testIdentifiers` in
    languages/cpp/cppduchain/tests/test_duchain.cpp pins them down. The
    parser behind the `QualifiedIdentifier(QString)` constructor is not part
    of this model; this module gives it a definition that meets every
    expectation of the test:

    - surrounding whitespace is ignored and a leading `::` marks the
      identifier as explicitly global;
    - the text splits into parts at each `::` outside template brackets;
    - a part whose leading word is `operator` takes the rest of the text
      verbatim, so `operator<=` or `operator( )` stay one part;
    - a part `name<a, b>` carries its template arguments, split at the
      commas outside nested brackets.

    Comparison ignores the explicitly-global flag, and `index()` is the
    position of the parsed value in an interning table. */
module Identifiers {
  import opened Text
  import Interning

  /** One scope part: its name and the text of each template argument. */
  datatype Identifier = Identifier(name: string, templateArgs: seq<string>)

  datatype QualifiedIdentifier = QualifiedIdentifier(parts: seq<Identifier>, explicitlyGlobal: bool)

  /** `QualifiedIdentifier::operator==`: the parts decide, the leading `::`
      does not. */
  predicate Same(a: QualifiedIdentifier, b: QualifiedIdentifier) {
    a.parts == b.parts
  }

  // ---------------------------------------------------------------------------
  // Scanning
  // ---------------------------------------------------------------------------

  predicate IsIdentChar(c: char) {
    'a' <= c <= 'z' || 'A' <= c <= 'Z' || '0' <= c <= '9' || c == '_'
  }

  /** End of the run of identifier characters starting at `i`. */
  function WordEnd(s: string, i: nat): (r: nat)
    requires i <= |s|
    ensures i <= r <= |s|
    ensures forall k :: i <= k < r ==> IsIdentChar(s[k])
    ensures r < |s| ==> !IsIdentChar(s[r])
    decreases |s| - i
  {
    if i < |s| && IsIdentChar(s[i]) then WordEnd(s, i + 1) else i
  }

  /** The text is an operator name: its leading word is `operator`. */
  predicate IsOperator(t: string) {
    t[..WordEnd(t, 0)] == "operator"
  }

  /** Position of the first `::` at or after `i` outside template brackets,
      or the length; `depth` counts the brackets open at `i`. */
  function ScopeEnd(s: string, i: nat, depth: int): (r: nat)
    requires i <= |s|
    ensures i <= r <= |s|
    ensures r < |s| ==> r + 1 < |s| && s[r] == ':' && s[r + 1] == ':'
    decreases |s| - i
  {
    if i == |s| then |s|
    else if s[i] == '<' then ScopeEnd(s, i + 1, depth + 1)
    else if s[i] == '>' then ScopeEnd(s, i + 1, depth - 1)
    else if depth == 0 && s[i] == ':' && i + 1 < |s| && s[i + 1] == ':' then i
    else ScopeEnd(s, i + 1, depth)
  }

  /** Position of the first `,` at or after `i` outside nested brackets, or
      the length. */
  function ArgEnd(s: string, i: nat, depth: int): (r: nat)
    requires i <= |s|
    ensures i <= r <= |s|
    ensures r < |s| ==> s[r] == ','
    decreases |s| - i
  {
    if i == |s| then |s|
    else if s[i] == '<' then ArgEnd(s, i + 1, depth + 1)
    else if s[i] == '>' then ArgEnd(s, i + 1, depth - 1)
    else if depth == 0 && s[i] == ',' then i
    else ArgEnd(s, i + 1, depth)
  }

  /** The template arguments between the brackets, each trimmed. */
  function SplitArgs(s: string): (r: seq<string>)
    ensures |r| > 0
    decreases |s|
  {
    var e := ArgEnd(s, 0, 0);
    if e == |s| then [Trim(s)] else [Trim(s[..e])] + SplitArgs(s[e + 1..])
  }

  // ---------------------------------------------------------------------------
  // Parsing and printing
  // ---------------------------------------------------------------------------

  /** One part: `name` or `name<args>`, surrounding whitespace ignored. */
  function ParseSegment(seg: string): (id: Identifier)
    ensures forall a :: a in id.templateArgs ==> a == Trim(a)
  {
    SegmentOf(Trim(seg))
  }

  function SegmentOf(t: string): (id: Identifier)
    ensures forall a :: a in id.templateArgs ==> a == Trim(a)
  {
    var open := IndexOf(t, '<');
    if open < 0 then Identifier(t, []) else TemplatePart(t, open)
  }

  /** A part with a `<` at `open`: the name before it and the arguments up
      to the last `>` (or the end when there is none after it). */
  function TemplatePart(t: string, open: nat): (id: Identifier)
    requires open < |t|
    ensures forall a :: a in id.templateArgs ==> a == Trim(a)
  {
    var close := LastIndexOf(t, '>');
    var inner := if close > open then t[open + 1..close] else t[open + 1..];
    Identifier(Trim(t[..open]), ArgsOf(inner))
  }

  /** The template arguments of the text between the brackets; none when it
      is blank. */
  function ArgsOf(inner: string): (args: seq<string>)
    ensures forall a :: a in args ==> a == Trim(a)
  {
    if Trim(inner) == "" then []
    else
      SplitArgsTrimmed(inner);
      SplitArgs(inner)
  }

  lemma {:induction false} SplitArgsTrimmed(s: string)
    ensures forall a :: a in SplitArgs(s) ==> a == Trim(a)
    decreases |s|
  {
    TrimIdempotent(s);
    var e := ArgEnd(s, 0, 0);
    if e < |s| {
      TrimIdempotent(s[..e]);
      SplitArgsTrimmed(s[e + 1..]);
    }
  }

  /** The parts of a text without a leading `::`: one verbatim part for an
      operator name, otherwise the scopes. */
  function ParseParts(s: string): (r: seq<Identifier>)
    ensures |r| > 0
    decreases |s|, 1
  {
    if IsOperator(Trim(s)) then [Identifier(Trim(s), [])] else ScopedParts(s)
  }

  /** The first scope up to a top-level `::`, then the parts after it. */
  function ScopedParts(s: string): (r: seq<Identifier>)
    ensures |r| > 0
    decreases |s|, 0
  {
    var e := ScopeEnd(s, 0, 0);
    if e == |s| then [ParseSegment(s)]
    else [ParseSegment(s[..e])] + ParseParts(s[e + 2..])
  }

  /** `QualifiedIdentifier(text)`. */
  function Parse(s: string): (q: QualifiedIdentifier)
    ensures q.explicitlyGlobal <==> |Trim(s)| >= 2 && Trim(s)[..2] == "::"
  {
    ParseTrimmed(Trim(s))
  }

  function ParseTrimmed(t: string): (q: QualifiedIdentifier)
    ensures q.explicitlyGlobal <==> |t| >= 2 && t[..2] == "::"
  {
    var global := |t| >= 2 && t[..2] == "::";
    QualifiedIdentifier(PartsOf(if global then t[2..] else t), global)
  }

  function PartsOf(body: string): (parts: seq<Identifier>)
    ensures |parts| == 0 <==> body == ""
  {
    if body == "" then [] else ParseParts(body)
  }

  /** `Identifier::toString()`. */
  function IdentifierString(id: Identifier): string {
    id.name + (if |id.templateArgs| == 0 then "" else "<" + Join(id.templateArgs, ',') + ">")
  }

  function JoinParts(parts: seq<Identifier>): string {
    if |parts| == 0 then ""
    else if |parts| == 1 then IdentifierString(parts[0])
    else IdentifierString(parts[0]) + "::" + JoinParts(parts[1..])
  }

  /** `QualifiedIdentifier::toString()`. */
  function ToString(q: QualifiedIdentifier): string {
    (if q.explicitlyGlobal then "::" else "") + JoinParts(q.parts)
  }

  /** `index()`: interning the parsed value. */
  function Index(t: Interning.Table<QualifiedIdentifier>, q: QualifiedIdentifier): (r: (Interning.Table<QualifiedIdentifier>, nat))
    ensures r.1 < |r.0.items| && r.0.items[r.1] == q
    ensures Interning.Valid(t) ==> Interning.Valid(r.0)
  {
    Interning.Intern(t, q)
  }

  // ---------------------------------------------------------------------------
  // Printing then parsing gives the identifier back
  // ---------------------------------------------------------------------------

  /** A plain name: identifier characters only, and not `operator`. */
  predicate PlainName(n: string) {
    && |n| > 0
    && (forall k :: 0 <= k < |n| ==> IsIdentChar(n[k]))
    && n != "operator"
  }

  predicate CanonicalPart(id: Identifier) {
    && PlainName(id.name)
    && (forall k :: 0 <= k < |id.templateArgs| ==> PlainName(id.templateArgs[k]))
  }

  /** Identifiers whose printed form parses back: at least one part, plain
      names and plain template arguments. */
  predicate Canonical(q: QualifiedIdentifier) {
    && |q.parts| > 0
    && (forall k :: 0 <= k < |q.parts| ==> CanonicalPart(q.parts[k]))
  }

  predicate NotSpecial(c: char) {
    c != '<' && c != '>' && c != ':' && c != ','
  }

  lemma {:induction false} ScopeEndSkip(s: string, i: nat, j: nat, depth: int)
    requires i <= j <= |s|
    requires forall k :: i <= k < j ==> s[k] != '<' && s[k] != '>' && s[k] != ':'
    ensures ScopeEnd(s, i, depth) == ScopeEnd(s, j, depth)
    decreases j - i
  {
    if i < j {
      ScopeEndSkip(s, i + 1, j, depth);
    }
  }

  lemma {:induction false} ArgEndSkip(s: string, i: nat, j: nat, depth: int)
    requires i <= j <= |s|
    requires forall k :: i <= k < j ==> NotSpecial(s[k])
    ensures ArgEnd(s, i, depth) == ArgEnd(s, j, depth)
    decreases j - i
  {
    if i < j {
      ArgEndSkip(s, i + 1, j, depth);
    }
  }

  lemma {:induction false} WordEndSkip(s: string, i: nat, j: nat)
    requires i <= j <= |s|
    requires forall k :: i <= k < j ==> IsIdentChar(s[k])
    requires j < |s| ==> !IsIdentChar(s[j])
    ensures WordEnd(s, i) == j
    decreases j - i
  {
    if i < j {
      WordEndSkip(s, i + 1, j);
    }
  }

  /** The characters of a printed part. */
  lemma PartChars(id: Identifier)
    requires CanonicalPart(id)
    ensures forall k :: 0 <= k < |IdentifierString(id)| ==>
      IsIdentChar(IdentifierString(id)[k]) || IdentifierString(id)[k] in "<>,"
    ensures IdentifierString(id)[0] == id.name[0]
    ensures !IsSpace(IdentifierString(id)[|IdentifierString(id)| - 1])
  {
    var x := IdentifierString(id);
    if |id.templateArgs| > 0 {
      var j := Join(id.templateArgs, ',');
      JoinChars(id.templateArgs, ',', c => IsIdentChar(c) || c == ',');
      assert x == id.name + "<" + j + ">";
      forall k | 0 <= k < |x|
        ensures IsIdentChar(x[k]) || x[k] in "<>,"
      {
        if k < |id.name| {
          assert x[k] == id.name[k];
        } else if |id.name| < k < |id.name| + 1 + |j| {
          assert x[k] == j[k - |id.name| - 1];
        }
      }
    } else {
      assert x == id.name;
    }
  }

  /** Splitting at a top-level comma. */
  lemma SplitArgsAt(s: string, e: nat)
    requires e == ArgEnd(s, 0, 0) && e < |s|
    ensures SplitArgs(s) == [Trim(s[..e])] + SplitArgs(s[e + 1..])
  {
  }

  /** A single printed template argument. */
  lemma SplitArgsOne(a: string)
    requires PlainName(a)
    ensures SplitArgs(a) == [a]
  {
    TrimNoSpace(a);
    ArgEndSkip(a, 0, |a|, 0);
  }

  /** The first of several printed template arguments. */
  lemma SplitArgsCons(a: string, rest: string)
    requires PlainName(a)
    ensures SplitArgs(a + [','] + rest) == [a] + SplitArgs(rest)
  {
    var s := a + [','] + rest;
    TrimNoSpace(a);
    assert s[..|a|] == a;
    assert s[|a| + 1..] == rest;
    assert forall k :: 0 <= k < |a| ==> s[k] == a[k];
    ArgEndSkip(s, 0, |a|, 0);
    SplitArgsAt(s, |a|);
  }

  /** One template argument, alone or first in a printed list. */
  lemma SplitArgsStep(args: seq<string>)
    requires |args| > 0 && PlainName(args[0])
    ensures |args| == 1 ==> SplitArgs(Join(args, ',')) == [args[0]]
    ensures |args| > 1 ==> SplitArgs(Join(args, ',')) == [args[0]] + SplitArgs(Join(args[1..], ','))
  {
    if |args| == 1 {
      SplitArgsOne(args[0]);
    } else {
      SplitArgsCons(args[0], Join(args[1..], ','));
    }
  }

  /** Splitting printed template arguments gives them back. */
  lemma {:induction false} SplitArgsJoin(args: seq<string>)
    requires |args| > 0
    requires forall k :: 0 <= k < |args| ==> PlainName(args[k])
    ensures SplitArgs(Join(args, ',')) == args
  {
    SplitArgsStep(args);
    if |args| > 1 {
      SplitArgsJoin(args[1..]);
      assert args == [args[0]] + args[1..];
    }
  }

  lemma ArgsOfJoin(args: seq<string>)
    requires |args| > 0
    requires forall k :: 0 <= k < |args| ==> PlainName(args[k])
    ensures ArgsOf(Join(args, ',')) == args
  {
    var j := Join(args, ',');
    ArgsJoinTrimmed(args);
    assert Trim(j) != "";
    SplitArgsJoin(args);
  }

  lemma ArgsJoinTrimmed(args: seq<string>)
    requires |args| > 0
    requires forall k :: 0 <= k < |args| ==> PlainName(args[k])
    ensures |Join(args, ',')| > 0 && Trim(Join(args, ',')) == Join(args, ',')
  {
    var j := Join(args, ',');
    var first, last := args[0], args[|args| - 1];
    assert PlainName(first) && PlainName(last);
    JoinEnds(args, ',');
    assert IsIdentChar(j[0]) && IsIdentChar(j[|j| - 1]);
    TrimNoSpace(j);
  }

  lemma TemplatePartString(id: Identifier)
    requires CanonicalPart(id) && |id.templateArgs| > 0
    ensures TemplatePart(IdentifierString(id), |id.name|) == id
  {
    var x := IdentifierString(id);
    var n := |id.name|;
    var j := Join(id.templateArgs, ',');
    assert x == id.name + "<" + j + ">";
    assert LastIndexOf(x, '>') == |x| - 1;
    assert x[n + 1..|x| - 1] == j;
    assert x[..n] == id.name;
    TrimNoSpace(id.name);
    ArgsOfJoin(id.templateArgs);
  }

  /** Parsing a printed part gives it back. */
  lemma ParseSegmentString(id: Identifier)
    requires CanonicalPart(id)
    ensures ParseSegment(IdentifierString(id)) == id
  {
    var x := IdentifierString(id);
    PartChars(id);
    TrimNoSpace(x);
    var n := |id.name|;
    if |id.templateArgs| == 0 {
      assert x == id.name;
      assert '<' !in x;
    } else {
      assert x[n] == '<';
      assert x[..n] == id.name;
      assert '<' !in x[..n];
      IndexOfFirst(x, '<', n);
      TemplatePartString(id);
    }
  }

  /** The scan for `::` at the end of a printed part: nothing follows, or
      `::` does. */
  lemma ScopeEndAtTail(s: string, i: nat)
    requires i <= |s|
    requires i == |s| || (i + 1 < |s| && s[i] == ':' && s[i + 1] == ':')
    ensures ScopeEnd(s, i, 0) == i
  {
  }

  /** Skipping a name and its bracketed arguments, at positions `n` and
      `m`, to the end of a printed part. */
  lemma TemplateScopeEnd(s: string, n: nat, m: nat)
    requires n < m < |s|
    requires forall k :: 0 <= k < n ==> IsIdentChar(s[k])
    requires s[n] == '<' && s[m] == '>'
    requires forall k :: n < k < m ==> IsIdentChar(s[k]) || s[k] == ','
    requires m + 1 == |s| || (m + 2 < |s| && s[m + 1] == ':' && s[m + 2] == ':')
    ensures ScopeEnd(s, 0, 0) == m + 1
  {
    ScopeEndSkip(s, 0, n, 0);
    ScopeEndSkip(s, n + 1, m, 1);
    ScopeEndAtTail(s, m + 1);
  }

  /** Where the characters of a printed part with template arguments sit,
      when nothing or `::` follows it. */
  lemma TemplateLayout(id: Identifier, t: string)
    requires CanonicalPart(id) && |id.templateArgs| > 0
    requires |t| == 0 || (|t| >= 2 && t[0] == ':' && t[1] == ':')
    ensures var s := IdentifierString(id) + t; var n := |id.name|; var m := |IdentifierString(id)| - 1;
      && n < m < |s|
      && (forall k :: 0 <= k < n ==> IsIdentChar(s[k]))
      && s[n] == '<' && s[m] == '>'
      && (forall k :: n < k < m ==> IsIdentChar(s[k]) || s[k] == ',')
      && (m + 1 == |s| || (m + 2 < |s| && s[m + 1] == ':' && s[m + 2] == ':'))
  {
    var n := |id.name|;
    var j := Join(id.templateArgs, ',');
    var s := IdentifierString(id) + t;
    var m := n + 1 + |j|;
    JoinChars(id.templateArgs, ',', c => IsIdentChar(c) || c == ',');
    assert s == id.name + "<" + j + ">" + t;
    assert forall k :: 0 <= k < n ==> s[k] == id.name[k];
    assert forall k :: n < k < m ==> s[k] == j[k - n - 1];
    if |t| > 0 {
      assert s[m + 1] == t[0] && s[m + 2] == t[1];
    }
  }

  /** A printed part followed by nothing or by `::`: the first scope ends
      where the part does. */
  lemma PrintedScopeEnd(id: Identifier, t: string)
    requires CanonicalPart(id)
    requires |t| == 0 || (|t| >= 2 && t[0] == ':' && t[1] == ':')
    ensures ScopeEnd(IdentifierString(id) + t, 0, 0) == |IdentifierString(id)|
  {
    if |id.templateArgs| > 0 {
      TemplateLayout(id, t);
      TemplateScopeEnd(IdentifierString(id) + t, |id.name|, |IdentifierString(id)| - 1);
    } else {
      PlainScopeEnd(id, t);
    }
  }

  /** `PrintedScopeEnd` for a part without template arguments. */
  lemma PlainScopeEnd(id: Identifier, t: string)
    requires CanonicalPart(id) && |id.templateArgs| == 0
    requires |t| == 0 || (|t| >= 2 && t[0] == ':' && t[1] == ':')
    ensures ScopeEnd(IdentifierString(id) + t, 0, 0) == |IdentifierString(id)|
  {
    var n := |id.name|;
    var s := IdentifierString(id) + t;
    assert s == id.name + t;
    assert forall k :: 0 <= k < n ==> s[k] == id.name[k];
    ScopeEndSkip(s, 0, n, 0);
    ScopeEndAtTail(s, n);
  }

  /** A printed part followed by nothing or by `::`: its leading word is its
      name. */
  lemma PrintedWordEnd(id: Identifier, t: string)
    requires CanonicalPart(id)
    requires |t| == 0 || t[0] == ':'
    ensures WordEnd(IdentifierString(id) + t, 0) == |id.name|
  {
    var x := IdentifierString(id);
    var s := x + t;
    var n := |id.name|;
    assert forall k :: 0 <= k < n ==> s[k] == id.name[k];
    if |id.templateArgs| > 0 {
      assert s[n] == '<';
    } else {
      assert x == id.name;
      if |t| > 0 {
        assert s[n] == ':';
      }
    }
    WordEndSkip(s, 0, n);
  }

  /** The first printed part followed by the rest of a join of parts. */
  lemma JoinPartsHead(parts: seq<Identifier>)
    requires |parts| > 0 && CanonicalPart(parts[0])
    ensures ScopeEnd(JoinParts(parts), 0, 0) ==
      if |parts| == 1 then |JoinParts(parts)| else |IdentifierString(parts[0])|
    ensures WordEnd(JoinParts(parts), 0) == |parts[0].name|
  {
    var t := if |parts| == 1 then "" else "::" + JoinParts(parts[1..]);
    assert JoinParts(parts) == IdentifierString(parts[0]) + t;
    PrintedScopeEnd(parts[0], t);
    PrintedWordEnd(parts[0], t);
  }

  /** The printed text of canonical parts has no whitespace at its ends. */
  lemma JoinPartsEnds(parts: seq<Identifier>)
    requires |parts| > 0 && CanonicalPart(parts[0])
    requires forall k :: 0 <= k < |parts| ==> CanonicalPart(parts[k])
    ensures |JoinParts(parts)| > 0
    ensures JoinParts(parts)[0] == parts[0].name[0]
    ensures !IsSpace(JoinParts(parts)[0])
    ensures !IsSpace(JoinParts(parts)[|JoinParts(parts)| - 1])
    decreases |parts|
  {
    PartChars(parts[0]);
    assert IsIdentChar(IdentifierString(parts[0])[0]);
    if |parts| > 1 {
      JoinPartsEnds(parts[1..]);
    }
  }

  /** A join of canonical parts has no surrounding whitespace. */
  lemma JoinPartsTrimmed(parts: seq<Identifier>)
    requires |parts| > 0
    requires forall k :: 0 <= k < |parts| ==> CanonicalPart(parts[k])
    ensures Trim(JoinParts(parts)) == JoinParts(parts)
  {
    var s := JoinParts(parts);
    JoinPartsEnds(parts);
    assert !IsSpace(s[0]) && !IsSpace(s[|s| - 1]);
    TrimNoSpace(s);
  }

  /** A join of canonical parts is not an operator name. */
  lemma JoinPartsNotOperator(parts: seq<Identifier>)
    requires |parts| > 0 && CanonicalPart(parts[0])
    ensures !IsOperator(JoinParts(parts))
  {
    var s := JoinParts(parts);
    var n := |parts[0].name|;
    JoinPartsHead(parts);
    var t := if |parts| == 1 then "" else "::" + JoinParts(parts[1..]);
    assert s == IdentifierString(parts[0]) + t;
    assert s[..n] == parts[0].name;
  }

  /** One step of parsing a text that is not an operator name. */
  lemma ScopedStep(s: string)
    requires Trim(s) == s && !IsOperator(s)
    ensures ScopeEnd(s, 0, 0) == |s| ==> ParseParts(s) == [ParseSegment(s)]
    ensures ScopeEnd(s, 0, 0) < |s| ==>
      ParseParts(s) == [ParseSegment(s[..ScopeEnd(s, 0, 0)])] + ParseParts(s[ScopeEnd(s, 0, 0) + 2..])
  {
  }

  /** Where the second printed part starts in a join of parts. */
  lemma JoinPartsTail(parts: seq<Identifier>)
    requires |parts| > 0
    ensures var x := IdentifierString(parts[0]);
      && (|parts| == 1 ==> JoinParts(parts) == x)
      && (|parts| > 1 ==> JoinParts(parts)[..|x|] == x && JoinParts(parts)[|x| + 2..] == JoinParts(parts[1..]))
  {
    var x := IdentifierString(parts[0]);
    if |parts| > 1 {
      assert JoinParts(parts) == x + "::" + JoinParts(parts[1..]);
    }
  }

  /** Parsing a join of canonical parts takes the first printed part, then
      parses the join of the rest. */
  lemma JoinPartsStep(parts: seq<Identifier>)
    requires |parts| > 0
    requires forall k :: 0 <= k < |parts| ==> CanonicalPart(parts[k])
    ensures |parts| == 1 ==> ParseParts(JoinParts(parts)) == [ParseSegment(IdentifierString(parts[0]))]
    ensures |parts| > 1 ==>
      ParseParts(JoinParts(parts)) == [ParseSegment(IdentifierString(parts[0]))] + ParseParts(JoinParts(parts[1..]))
  {
    JoinPartsTrimmed(parts);
    JoinPartsNotOperator(parts);
    ScopedStep(JoinParts(parts));
    JoinPartsHead(parts);
    JoinPartsTail(parts);
  }

  /** Parsing printed canonical parts gives them back. */
  lemma {:induction false} ParsePartsJoin(parts: seq<Identifier>)
    requires |parts| > 0
    requires forall k :: 0 <= k < |parts| ==> CanonicalPart(parts[k])
    ensures ParseParts(JoinParts(parts)) == parts
    decreases |parts|
  {
    var head := parts[0];
    var rest := parts[1..];
    JoinPartsStep(parts);
    ParseSegmentString(head);
    if |parts| > 1 {
      forall k | 0 <= k < |rest|
        ensures CanonicalPart(rest[k])
      {
        assert rest[k] == parts[k + 1];
      }
      ParsePartsJoin(rest);
      assert ParseParts(JoinParts(parts)) == [head] + rest;
      assert parts == [head] + rest;
    }
  }

  /** Printing then parsing a canonical identifier gives it back, the
      explicitly-global flag included. */
  lemma ParseToString(q: QualifiedIdentifier)
    requires Canonical(q)
    ensures Parse(ToString(q)) == q
  {
    var j := JoinParts(q.parts);
    JoinPartsEnds(q.parts);
    ParsePartsJoin(q.parts);
    var s := ToString(q);
    TrimNoSpace(s);
    assert Parse(s) == ParseTrimmed(s);
    if q.explicitlyGlobal {
      assert s == "::" + j;
      assert s[2..] == j && s[..2] == "::";
      assert ParseTrimmed(s) == QualifiedIdentifier(PartsOf(j), true);
    } else {
      assert s == j;
      assert !(|s| >= 2 && s[..2] == "::") by {
        assert j[0] != ':';
        if |s| >= 2 {
          assert s[..2][0] == s[0];
        }
      }
      assert ParseTrimmed(s) == QualifiedIdentifier(PartsOf(j), false);
    }
    assert PartsOf(j) == ParseParts(j);
  }

  // ---------------------------------------------------------------------------
  // Properties the test relies on
  // ---------------------------------------------------------------------------

  /** Whitespace around the text changes nothing. */
  lemma ParseIgnoresSpace(s: string)
    ensures Parse(s) == Parse(Trim(s))
  {
    TrimIdempotent(s);
  }

  /** A leading `::` only sets the explicitly-global flag: the two
      identifiers compare equal. */
  lemma GlobalPrefix(s: string)
    requires |s| > 0 && Trim(s) == s && s[0] != ':'
    ensures Parse("::" + s).explicitlyGlobal && !Parse(s).explicitlyGlobal
    ensures Same(Parse("::" + s), Parse(s))
  {
    var g := "::" + s;
    assert g[|g| - 1] == s[|s| - 1];
    TrimNoSpace(g);
    assert g[2..] == s;
  }

  /** A text whose leading word is `operator` is one part, printed back
      unchanged. */
  lemma OperatorName(s: string)
    requires Trim(s) == s && IsOperator(s)
    ensures Parse(s) == QualifiedIdentifier([Identifier(s, [])], false)
    ensures ToString(Parse(s)) == s
  {
    assert s[..WordEnd(s, 0)] == "operator";
    assert s[0] == 'o';
    assert !(|s| >= 2 && s[..2] == "::") by {
      if |s| >= 2 {
        assert s[..2][0] == s[0];
      }
    }
    assert Parse(s) == ParseTrimmed(s);
    assert ParseParts(s) == [Identifier(s, [])];
  }

  /** Texts that parse to the same identifier share one index, whenever each
      is made. */
  lemma EqualTextEqualIndex(t: Interning.Table<QualifiedIdentifier>, a: string, b: string, other: QualifiedIdentifier)
    requires Interning.Valid(t) && Parse(a) == Parse(b)
    ensures Index(Index(Index(t, Parse(a)).0, other).0, Parse(b)).1 == Index(t, Parse(a)).1
  {
    var t1 := Index(t, Parse(a)).0;
    Interning.InternKeepsIndices(t1, Parse(a), other);
    Interning.InternStable(t1, Parse(a), Index(t, Parse(a)).1);
  }
  // ---------------------------------------------------------------------------
  // The test's texts
  // ---------------------------------------------------------------------------

  /** A text starting with the word `operator` followed by a symbol. */
  lemma OperatorPrefix(s: string)
    requires |s| > 8 && s[..8] == "operator" && !IsIdentChar(s[8])
    requires !IsSpace(s[|s| - 1])
    ensures |Parse(s).parts| == 1 && ToString(Parse(s)) == s
  {
    assert forall k :: 0 <= k < 8 ==> s[k] == "operator"[k];
    WordEndSkip(s, 0, 8);
    TrimNoSpace(s);
    OperatorName(s);
  }

  /** `op1` to `op6`: each operator name is one part and prints back as
      written. */
  lemma TestOperators(s: string)
    requires s in ["operator<", "operator<=", "operator>", "operator>=", "operator()", "operator( )"]
    ensures |Parse(s).parts| == 1 && ToString(Parse(s)) == s
  {
    OperatorPrefix(s);
  }

  /** `aj` and `aj2`: two parts `Area` and `jump`; only the first is
      explicitly global, and the two compare equal. */
  lemma TestAreaJump(aj: string, aj2: string)
    requires aj == "::Area::jump" && aj2 == "Area::jump"
    ensures Parse(aj) == QualifiedIdentifier([Identifier("Area", []), Identifier("jump", [])], true)
    ensures Parse(aj2) == QualifiedIdentifier([Identifier("Area", []), Identifier("jump", [])], false)
    ensures Same(Parse(aj), Parse(aj2))
  {
    var parts := [Identifier("Area", []), Identifier("jump", [])];
    assert Canonical(QualifiedIdentifier(parts, true)) by {
      assert PlainName("Area") && PlainName("jump");
    }
    assert JoinParts(parts) == aj2 by {
      assert JoinParts(parts[1..]) == "jump";
    }
    var g := QualifiedIdentifier(parts, true);
    var l := QualifiedIdentifier(parts, false);
    assert ToString(g) == aj;
    assert ToString(l) == aj2;
    ParseToString(g);
    ParseToString(l);
  }
  /** A canonical first part followed by `::` and more text: parsing takes
      the part, then parses the rest. */
  lemma CanonicalHead(id: Identifier, t: string, rest: string)
    requires CanonicalPart(id)
    requires t == IdentifierString(id) + "::" + rest
    requires |rest| > 0 && !IsSpace(rest[|rest| - 1])
    ensures ParseParts(t) == [id] + ParseParts(rest)
  {
    var x := IdentifierString(id);
    CanonicalHeadPlain(id, t, rest);
    ScopedSlices(x, rest);
    PrintedScopeEnd(id, "::" + rest);
    ScopedStepAt(t, |x|, x, rest);
    ParseSegmentString(id);
  }

  /** The two sides of a `::` in a concatenation. */
  lemma ScopedSlices(x: string, rest: string)
    ensures var t := x + "::" + rest;
      t == x + ("::" + rest) && |x| < |t| && t[..|x|] == x && t[|x| + 2..] == rest
  {
  }

  /** `ScopedStep` at a known scope end. */
  lemma ScopedStepAt(s: string, e: nat, seg: string, rest: string)
    requires Trim(s) == s && !IsOperator(s)
    requires e < |s| && ScopeEnd(s, 0, 0) == e
    requires s[..e] == seg && s[e + 2..] == rest
    ensures ParseParts(s) == [ParseSegment(seg)] + ParseParts(rest)
  {
    ScopedStep(s);
  }

  /** The text of `CanonicalHead` is trimmed and is not an operator name. */
  lemma CanonicalHeadPlain(id: Identifier, t: string, rest: string)
    requires CanonicalPart(id)
    requires t == IdentifierString(id) + "::" + rest
    requires |rest| > 0 && !IsSpace(rest[|rest| - 1])
    ensures Trim(t) == t && !IsOperator(t)
  {
    var x := IdentifierString(id);
    var tail := "::" + rest;
    ScopedSlices(x, rest);
    PartChars(id);
    assert t[0] == x[0] && IsIdentChar(x[0]);
    assert t[|t| - 1] == rest[|rest| - 1];
    TrimNoSpace(t);
    PrintedWordEnd(id, tail);
    assert t[..|id.name|] == x[..|id.name|] == id.name;
  }

  /** The last part of `t`: `tes<C>`. */
  lemma TestTemplatesTes(r: string)
    requires r == "tes<C>"
    ensures ParseParts(r) == [Identifier("tes", ["C"])]
  {
    var id := Identifier("tes", ["C"]);
    assert CanonicalPart(id) by {
      assert PlainName("tes") && PlainName("C");
    }
    assert JoinParts([id]) == r;
    ParsePartsJoin([id]);
  }

  /** The middle part of `t`, `jump <F> `, spaces around the brackets
      included. */
  lemma TestTemplatesJumpSegment(x: string)
    requires x == "jump <F> "
    ensures ParseSegment(x) == Identifier("jump", ["F"])
  {
    var y := x[..8];
    assert y == "jump <F>";
    TrimNoSpace(y);
    assert Trim(x) == y;
    assert y[5] == '<' && '<' !in y[..5];
    IndexOfFirst(y, '<', 5);
    assert LastIndexOf(y, '>') == 7;
    assert y[6..7] == "F";
    assert y[..5] == "jump ";
    assert Trim("jump ") == "jump" by {
      TrimNoSpace("jump");
      assert "jump "[..4] == "jump";
    }
    TrimNoSpace("F");
    assert ArgEnd("F", 0, 0) == 1;
    assert ArgsOf("F") == ["F"];
  }

  /** The scope of `jump <F> ::tes<C>` ends at the `::` after the space. */
  lemma TestTemplatesJumpScope(r: string)
    requires r == "jump <F> ::tes<C>"
    ensures ScopeEnd(r, 0, 0) == 9
  {
    ScopeEndSkip(r, 0, 5, 0);
    assert ScopeEnd(r, 5, 0) == ScopeEnd(r, 6, 1);
    assert ScopeEnd(r, 6, 1) == ScopeEnd(r, 7, 1);
    assert ScopeEnd(r, 7, 1) == ScopeEnd(r, 8, 0);
    assert ScopeEnd(r, 8, 0) == ScopeEnd(r, 9, 0);
    ScopeEndAtTail(r, 9);
  }

  /** The text after the first `::` of `t`. */
  lemma TestTemplatesJump(r: string)
    requires r == "jump <F> ::tes<C>"
    ensures ParseParts(r) == [Identifier("jump", ["F"]), Identifier("tes", ["C"])]
  {
    var seg := r[..9];
    var u := r[11..];
    assert seg == "jump <F> ";
    assert u == "tes<C>";
    TrimNoSpace(r);
    assert r[..4] == "jump";
    WordEndSkip(r, 0, 4);
    ScopedStep(r);
    TestTemplatesJumpScope(r);
    TestTemplatesJumpSegment(seg);
    TestTemplatesTes(u);
  }

  /** `t` without its leading space. */
  lemma TestTemplatesTrimmed(t: string)
    requires t == "Area<A,B>::jump <F> ::tes<C>"
    ensures ParseParts(t) ==
      [Identifier("Area", ["A", "B"]), Identifier("jump", ["F"]), Identifier("tes", ["C"])]
  {
    var r := t[11..];
    assert r == "jump <F> ::tes<C>";
    var id := TestTemplatesArea();
    assert t == IdentifierString(id) + "::" + r;
    CanonicalHead(id, t, r);
    TestTemplatesJump(r);
  }

  /** `t`: three parts `Area`, `jump` and `tes` with two, one and one
      template arguments. */
  lemma TestTemplates(s: string)
    requires s == " Area<A,B>::jump <F> ::tes<C>"
    ensures Parse(s) == QualifiedIdentifier(
      [Identifier("Area", ["A", "B"]), Identifier("jump", ["F"]), Identifier("tes", ["C"])], false)
    ensures |Parse(s).parts| == 3
    ensures |Parse(s).parts[0].templateArgs| == 2
    ensures |Parse(s).parts[1].templateArgs| == 1
    ensures |Parse(s).parts[2].templateArgs| == 1
  {
    var t := s[1..];
    assert t == "Area<A,B>::jump <F> ::tes<C>";
    TrimNoSpace(t);
    assert Trim(s) == t;
    TestTemplatesTrimmed(t);
    assert !(|t| >= 2 && t[..2] == "::") by {
      assert t[..2][0] == t[0];
    }
    assert Parse(s) == ParseTrimmed(t);
  }

  /** The first part of `t`, `Area<A,B>`, is canonical. */
  lemma TestTemplatesArea() returns (id: Identifier)
    ensures id == Identifier("Area", ["A", "B"])
    ensures CanonicalPart(id) && IdentifierString(id) == "Area<A,B>"
  {
    id := Identifier("Area", ["A", "B"]);
    assert PlainName("Area") && PlainName("A") && PlainName("B");
    assert Join(["A", "B"], ',') == "A,B";
  }
  /** The test's index checks: the text of `t` without its leading space,
      made after `t`, gets `t`'s index, and so does a second `operator>=`. */
  lemma TestIndices(table: Interning.Table<QualifiedIdentifier>, a: string, b: string, other: QualifiedIdentifier)
    requires Interning.Valid(table)
    requires a == " Area<A,B>::jump <F> ::tes<C>" && b == "Area<A,B>::jump <F> ::tes<C>"
    ensures Parse(a) == Parse(b)
    ensures Index(Index(Index(table, Parse(a)).0, other).0, Parse(b)).1 == Index(table, Parse(a)).1
    ensures Index(Index(Index(table, Parse("operator>=")).0, other).0, Parse("operator>=")).1 ==
      Index(table, Parse("operator>=")).1
  {
    assert a[1..] == b;
    TrimNoSpace(b);
    assert Trim(a) == b;
    EqualTextEqualIndex(table, a, b, other);
    EqualTextEqualIndex(table, "operator>=", "operator>=", other);
  }
}

=== FILE: import_structure.dfy ===
/** The naive import structure that the import-structure stress test keeps
    beside the real top contexts (`TestContext` in
    languages/cpp/cppduchain/tests/test_duchain.cpp). Each test context
    records the contexts it imports and the contexts importing it; the real
    context's imported-parent list is changed alongside. `collectImports`
    is a depth-first walk with a visited set, and `verify` compares the real
    context's transitive `imports` relation with what the walk collects.

    Contexts are identities (`Ctx`); a graph maps each context to its list of
    direct imports. The real context's `imports(other)` query is modelled as
    reachability over its imported-parent lists, since its implementation is
    not part of this model. */
module ImportStructure {
  import Sequences

  type Ctx = nat

  /** Each context with its ordered list of direct imports. */
  type Graph = map<Ctx, seq<Ctx>>

  /** Every edge leads to a context of the graph. */
  predicate Closed(g: Graph) {
    forall x, y :: x in g && y in g[x] ==> y in g
  }

  // ---------------------------------------------------------------------------
  // Reachability, the reference for the collected closure
  // ---------------------------------------------------------------------------

  /** A non-empty walk along import edges. */
  ghost predicate IsPath(g: Graph, p: seq<Ctx>) {
    && |p| > 0
    && (forall i :: 0 <= i < |p| ==> p[i] in g)
    && (forall i :: 0 <= i < |p| - 1 ==> p[i + 1] in g[p[i]])
  }

  /** `y` can be reached from `x` by following zero or more import edges. */
  ghost predicate Reachable(g: Graph, x: Ctx, y: Ctx) {
    exists p :: IsPath(g, p) && p[0] == x && p[|p| - 1] == y
  }

  lemma ReachSelf(g: Graph, x: Ctx)
    requires x in g
    ensures Reachable(g, x, x)
  {
    assert IsPath(g, [x]);
  }

  lemma ReachStep(g: Graph, x: Ctx, z: Ctx, y: Ctx)
    requires x in g && z in g[x] && Reachable(g, z, y)
    ensures Reachable(g, x, y)
  {
    var p :| IsPath(g, p) && p[0] == z && p[|p| - 1] == y;
    var q := [x] + p;
    assert q[1..] == p;
    assert IsPath(g, q);
  }

  /** A set that contains the start of a walk and is closed under edges
      contains its end. */
  lemma {:induction false} ClosedSetHoldsPath(g: Graph, r: set<Ctx>, p: seq<Ctx>)
    requires IsPath(g, p) && p[0] in r
    requires forall y, z :: y in r && y in g && z in g[y] ==> z in r
    ensures p[|p| - 1] in r
    decreases |p|
  {
    if |p| > 1 {
      assert IsPath(g, p[1..]);
      ClosedSetHoldsPath(g, r, p[1..]);
    }
  }

  // ---------------------------------------------------------------------------
  // collectImports
  // ---------------------------------------------------------------------------

  /** `collectImports(collected)` started at `x`: nothing happens for an
      already collected context; otherwise it is inserted and each of its
      imports is walked in turn. */
  function Collect(g: Graph, x: Ctx, collected: set<Ctx>): (r: set<Ctx>)
    requires Closed(g) && x in g && collected <= g.Keys
    ensures collected <= r <= g.Keys
    ensures x in r
    decreases g.Keys - collected, 0, 0
  {
    if x in collected then collected
    else CollectAll(g, g[x], collected + {x})
  }

  /** The `foreach` over one context's imports. */
  function CollectAll(g: Graph, xs: seq<Ctx>, collected: set<Ctx>): (r: set<Ctx>)
    requires Closed(g) && collected <= g.Keys
    requires forall i :: 0 <= i < |xs| ==> xs[i] in g
    ensures collected <= r <= g.Keys
    ensures forall i :: 0 <= i < |xs| ==> xs[i] in r
    decreases g.Keys - collected, 1, |xs|
  {
    if |xs| == 0 then collected
    else
      var c1 := Collect(g, xs[0], collected);
      var r := CollectAll(g, xs[1..], c1);
      assert forall i :: 1 <= i < |xs| ==> xs[i] == xs[1..][i - 1];
      r
  }

  /** What one walk adds is reachable from its start, and every context it
      adds has all its imports collected. */
  lemma {:induction false} CollectSound(g: Graph, x: Ctx, collected: set<Ctx>)
    requires Closed(g) && x in g && collected <= g.Keys
    ensures forall y :: y in Collect(g, x, collected) - collected ==> Reachable(g, x, y)
    ensures forall y, z :: y in Collect(g, x, collected) - collected && z in g[y] ==> z in Collect(g, x, collected)
    decreases g.Keys - collected, 0, 0
  {
    if x !in collected {
      var c := collected + {x};
      CollectAllSound(g, g[x], c);
      forall y | y in Collect(g, x, collected) - collected
        ensures Reachable(g, x, y)
      {
        if y == x {
          ReachSelf(g, x);
        } else {
          assert y in CollectAll(g, g[x], c) - c;
          var i :| 0 <= i < |g[x]| && Reachable(g, g[x][i], y);
          ReachStep(g, x, g[x][i], y);
        }
      }
    }
  }

  lemma {:induction false} CollectAllSound(g: Graph, xs: seq<Ctx>, collected: set<Ctx>)
    requires Closed(g) && collected <= g.Keys
    requires forall i :: 0 <= i < |xs| ==> xs[i] in g
    ensures forall y :: y in CollectAll(g, xs, collected) - collected ==>
      exists i :: 0 <= i < |xs| && Reachable(g, xs[i], y)
    ensures forall y, z :: y in CollectAll(g, xs, collected) - collected && z in g[y] ==>
      z in CollectAll(g, xs, collected)
    decreases g.Keys - collected, 1, |xs|
  {
    if |xs| > 0 {
      var c1 := Collect(g, xs[0], collected);
      CollectSound(g, xs[0], collected);
      CollectAllSound(g, xs[1..], c1);
      var r := CollectAll(g, xs, collected);
      forall y | y in r - collected
        ensures exists i :: 0 <= i < |xs| && Reachable(g, xs[i], y)
      {
        if y in c1 {
          assert Reachable(g, xs[0], y);
        } else {
          assert y in CollectAll(g, xs[1..], c1) - c1;
          var i :| 0 <= i < |xs[1..]| && Reachable(g, xs[1..][i], y);
          assert xs[1..][i] == xs[i + 1];
        }
      }
    }
  }

  /** `collectImports` from an empty set collects exactly the contexts
      reachable through import edges, the start included. */
  lemma CollectIsReachability(g: Graph, x: Ctx)
    requires Closed(g) && x in g
    ensures forall y :: y in Collect(g, x, {}) <==> Reachable(g, x, y)
  {
    var r := Collect(g, x, {});
    CollectSound(g, x, {});
    forall y | Reachable(g, x, y)
      ensures y in r
    {
      var p :| IsPath(g, p) && p[0] == x && p[|p| - 1] == y;
      ClosedSetHoldsPath(g, r, p);
    }
  }

  // ---------------------------------------------------------------------------
  // The test contexts and their edits
  // ---------------------------------------------------------------------------

  /** The test's lists per context: `imports`, `importers`, and the real
      context's `importedParentContexts()`. */
  datatype State = State(imports: Graph, importers: Graph, parents: Graph)

  /** All three maps know the same contexts. */
  predicate Shaped(s: State) {
    s.importers.Keys == s.imports.Keys && s.parents.Keys == s.imports.Keys
  }

  /** What `import`/`unImport` maintain: duplicate-free import lists without
      self-imports, importers mirroring imports, and the real context's parent
      list equal to the test's import list. */
  predicate Inv(s: State) {
    && Shaped(s)
    && Closed(s.imports) && Closed(s.importers)
    && (forall x :: x in s.imports ==>
          Sequences.NoDup(s.imports[x]) && x !in s.imports[x] && s.parents[x] == s.imports[x])
    && (forall x, y :: x in s.imports && y in s.imports ==> (y in s.imports[x] <==> x in s.importers[y]))
  }

  /** Freshly created test contexts import nothing. */
  function Init(contexts: set<Ctx>): (s: State)
    ensures Inv(s) && s.imports.Keys == contexts
  {
    var empty := map x | x in contexts :: [];
    State(empty, empty, empty)
  }

  /** `TestContext::import(ctx)`: ignored when `ctx` is already imported or
      is this context; otherwise both lists and the real context gain the
      edge. */
  function Import(s: State, x: Ctx, ctx: Ctx): (s': State)
    requires Shaped(s) && x in s.imports && ctx in s.imports
    ensures Shaped(s')
    ensures ctx in s.imports[x] || ctx == x ==> s' == s
    ensures !(ctx in s.imports[x] || ctx == x) ==>
      && s'.imports == s.imports[x := s.imports[x] + [ctx]]
      && s'.importers == s.importers[ctx := s.importers[ctx] + [x]]
      && s'.parents == s.parents[x := s.parents[x] + [ctx]]
    ensures Inv(s) ==> Inv(s')
  {
    if ctx in s.imports[x] || ctx == x then s
    else
      var s' := State(
        s.imports[x := s.imports[x] + [ctx]],
        s.importers[ctx := s.importers[ctx] + [x]],
        s.parents[x := s.parents[x] + [ctx]]);
      assert Inv(s) ==> Inv(s') by {
        if Inv(s) {
          ImportKeepsInv(s, s', x, ctx);
        }
      }
      s'
  }

  lemma ImportKeepsInv(s: State, s': State, x: Ctx, ctx: Ctx)
    requires Inv(s) && x in s.imports && ctx in s.imports
    requires ctx !in s.imports[x] && ctx != x
    requires s'.imports == s.imports[x := s.imports[x] + [ctx]]
    requires s'.importers == s.importers[ctx := s.importers[ctx] + [x]]
    requires s'.parents == s.parents[x := s.parents[x] + [ctx]]
    ensures Inv(s')
  {
    assert Shaped(s');
    forall a | a in s'.imports
      ensures Sequences.NoDup(s'.imports[a]) && a !in s'.imports[a] && s'.parents[a] == s'.imports[a]
    {
      if a == x {
        assert Sequences.NoDup(s.imports[x]);
      }
    }
    forall a, b | a in s'.imports && b in s'.imports
      ensures b in s'.imports[a] <==> a in s'.importers[b]
    {
      assert b in s.imports[a] <==> a in s.importers[b];
    }
  }

  /** The contexts of `list` that `unImport` actually removes. */
  function Removed(s: State, x: Ctx, list: seq<Ctx>): set<Ctx>
    requires x in s.imports
  {
    Sequences.Elems(list) * Sequences.Elems(s.imports[x])
  }

  /** The importer lists once `x` is dropped from those of the contexts in
      `from`. */
  function DropImporter(importers: Graph, x: Ctx, from: set<Ctx>): (r: Graph)
    ensures r.Keys == importers.Keys
    ensures forall y, z :: y in r && z in r[y] ==> z in importers[y]
  {
    map y | y in importers :: if y in from then Sequences.RemoveAll(importers[y], x) else importers[y]
  }

  lemma DropImporterStep(importers: Graph, x: Ctx, from: set<Ctx>, c: Ctx)
    requires c in importers && c !in from
    ensures DropImporter(importers, x, from + {c}) ==
      DropImporter(importers, x, from)[c := Sequences.RemoveAll(DropImporter(importers, x, from)[c], x)]
  {
  }

  /** `TestContext::unImport(list)`: each listed context that is currently
      imported is dropped from this context's imports and this context from
      its importers; then the real context drops exactly those parents.
      Listed contexts that are not imported are ignored. */
  method UnImport(s: State, x: Ctx, list: seq<Ctx>) returns (s': State)
    requires Shaped(s) && x in s.imports
    requires forall i :: 0 <= i < |list| ==> list[i] in s.imports
    ensures Shaped(s')
    ensures s'.imports == s.imports[x := Sequences.RemoveEvery(s.imports[x], Sequences.Elems(list))]
    ensures s'.importers == DropImporter(s.importers, x, Removed(s, x, list))
    ensures s'.parents == s.parents[x := Sequences.RemoveEvery(s.parents[x], Removed(s, x, list))]
    ensures Inv(s) ==> Inv(s')
  {
    var imported, importers, removed := UnImportEdges(s, x, list);
    s' := State(s.imports[x := imported], importers,
                s.parents[x := Sequences.RemoveEvery(s.parents[x], Sequences.Elems(removed))]);
    if Inv(s) {
      UnImportKeepsInv(s, s', x, list);
    }
  }

  /** The loop of `unImport`: the new import list of `x`, the new importer
      lists, and the contexts actually removed. */
  method UnImportEdges(s: State, x: Ctx, list: seq<Ctx>) returns (imported: seq<Ctx>, importers: Graph, removed: seq<Ctx>)
    requires Shaped(s) && x in s.imports
    requires forall i :: 0 <= i < |list| ==> list[i] in s.imports
    ensures imported == Sequences.RemoveEvery(s.imports[x], Sequences.Elems(list))
    ensures importers == DropImporter(s.importers, x, Removed(s, x, list))
    ensures Sequences.Elems(removed) == Removed(s, x, list)
  {
    Sequences.RemoveEveryEmpty(s.imports[x]);
    assert Sequences.Elems(list[..0]) == {};
    imported := s.imports[x];
    importers := s.importers;
    removed := [];
    assert importers == DropImporter(s.importers, x, {});
    ghost var done: set<Ctx> := {};
    ghost var gone: set<Ctx> := {};
    var i := 0;
    while i < |list|
      invariant 0 <= i <= |list|
      invariant done == Sequences.Elems(list[..i])
      invariant imported == Sequences.RemoveEvery(s.imports[x], done)
      invariant gone == Sequences.Elems(removed)
      invariant gone == done * Sequences.Elems(s.imports[x])
      invariant importers == DropImporter(s.importers, x, gone)
      invariant importers.Keys == s.importers.Keys
    {
      var c := list[i];
      PrefixStep(list, i);
      if c in imported {
        UnImportTaken(s, x, done, gone, removed, importers, c);
        removed := removed + [c];
        gone := gone + {c};
        imported := Sequences.RemoveAll(imported, c);
        importers := importers[c := Sequences.RemoveAll(importers[c], x)];
      } else {
        Sequences.RemoveEveryAbsent(s.imports[x], done, done + {c});
      }
      done := done + {c};
      i := i + 1;
    }
    assert list[..|list|] == list;
  }

  /** One step of `unImport` on a listed context that is imported. */
  lemma UnImportTaken(s: State, x: Ctx, done: set<Ctx>, gone: set<Ctx>, removed: seq<Ctx>, importers: Graph, c: Ctx)
    requires Shaped(s) && x in s.imports
    requires c in s.imports && c in s.imports[x] && c !in done
    requires gone == Sequences.Elems(removed)
    requires gone == done * Sequences.Elems(s.imports[x])
    requires importers == DropImporter(s.importers, x, gone)
    ensures Sequences.RemoveAll(Sequences.RemoveEvery(s.imports[x], done), c) ==
      Sequences.RemoveEvery(s.imports[x], done + {c})
    ensures gone + {c} == Sequences.Elems(removed + [c])
    ensures gone + {c} == (done + {c}) * Sequences.Elems(s.imports[x])
    ensures importers[c := Sequences.RemoveAll(importers[c], x)] ==
      DropImporter(s.importers, x, gone + {c})
  {
    Sequences.RemoveAllAfterEvery(s.imports[x], done, c);
    RemovedStep(s, x, done, gone, c);
    DropImporterStep(s.importers, x, gone, c);
    Sequences.ElemsSnoc(removed, c);
  }

  lemma PrefixStep(list: seq<Ctx>, i: nat)
    requires i < |list|
    ensures Sequences.Elems(list[..i + 1]) == Sequences.Elems(list[..i]) + {list[i]}
  {
    assert list[..i + 1] == list[..i] + [list[i]];
    Sequences.ElemsSnoc(list[..i], list[i]);
  }

  lemma RemovedStep(s: State, x: Ctx, done: set<Ctx>, gone: set<Ctx>, c: Ctx)
    requires x in s.imports && c in s.imports[x] && c !in done
    requires gone == done * Sequences.Elems(s.imports[x])
    ensures c !in gone
    ensures gone + {c} == (done + {c}) * Sequences.Elems(s.imports[x])
  {
  }

  lemma UnImportKeepsInv(s: State, s': State, x: Ctx, list: seq<Ctx>)
    requires Inv(s) && x in s.imports
    requires Shaped(s')
    requires s'.imports == s.imports[x := Sequences.RemoveEvery(s.imports[x], Sequences.Elems(list))]
    requires s'.importers == DropImporter(s.importers, x, Removed(s, x, list))
    requires s'.parents == s.parents[x := Sequences.RemoveEvery(s.parents[x], Removed(s, x, list))]
    ensures Inv(s')
  {
    UnImportKeepsLists(s, s', x, list);
    UnImportKeepsMirror(s, s', x, list);
  }

  lemma UnImportKeepsLists(s: State, s': State, x: Ctx, list: seq<Ctx>)
    requires Inv(s) && x in s.imports
    requires Shaped(s')
    requires s'.imports == s.imports[x := Sequences.RemoveEvery(s.imports[x], Sequences.Elems(list))]
    requires s'.parents == s.parents[x := Sequences.RemoveEvery(s.parents[x], Removed(s, x, list))]
    ensures Closed(s'.imports)
    ensures forall a :: a in s'.imports ==>
      Sequences.NoDup(s'.imports[a]) && a !in s'.imports[a] && s'.parents[a] == s'.imports[a]
  {
    Sequences.RemoveEveryAbsent(s.imports[x], Removed(s, x, list), Sequences.Elems(list));
    Sequences.RemoveEveryNoDup(s.imports[x], Sequences.Elems(list));
  }

  lemma UnImportKeepsMirror(s: State, s': State, x: Ctx, list: seq<Ctx>)
    requires Inv(s) && x in s.imports
    requires Shaped(s')
    requires s'.imports == s.imports[x := Sequences.RemoveEvery(s.imports[x], Sequences.Elems(list))]
    requires s'.importers == DropImporter(s.importers, x, Removed(s, x, list))
    ensures Closed(s'.importers)
    ensures forall a, b :: a in s'.imports && b in s'.imports ==> (b in s'.imports[a] <==> a in s'.importers[b])
  {
    forall a, b | a in s'.imports && b in s'.imports
      ensures b in s'.imports[a] <==> a in s'.importers[b]
    {
      assert b in s.imports[a] <==> a in s.importers[b];
    }
  }

  // ---------------------------------------------------------------------------
  // verify
  // ---------------------------------------------------------------------------

  /** `TestContext::verify` for context `x`: the real context has as many
      imported parents as the test list, and for every other context `y` the
      real `imports(y)` (reachability over parent lists) holds exactly when
      `collectImports` collected `y`. */
  ghost predicate Verified(s: State, x: Ctx)
    requires Inv(s) && x in s.imports
  {
    && |s.parents[x]| == |s.imports[x]|
    && forall y :: y in s.imports && y != x ==>
         (y in Collect(s.imports, x, {}) <==> Reachable(s.parents, x, y))
  }

  /** Whatever sequence of `import`/`unImport` produced a state, every
      context of it passes `verify`. */
  lemma VerifyHolds(s: State, x: Ctx)
    requires Inv(s) && x in s.imports
    ensures Verified(s, x)
  {
    assert s.parents == s.imports;
    CollectIsReachability(s.imports, x);
  }
}

=== FILE: interning.dfy ===
/** Interning as `testIndexedStrings` in
    languages/cpp/cppduchain/tests/test_duchain.cpp relies on it: building an
    `IndexedString` from text yields an index into a global repository,
    `str()` gives the text back, and equal texts share one index. The
    repository is a table of distinct values, the index the position in it;
    the hash the constructor is handed is a function of the text and is not
    modelled. The same table serves the identifier repository behind
    `QualifiedIdentifier::index()`. */
module Interning {
  import Sequences

  /** A global repository: index `i` holds `items[i]`. */
  datatype Table<T> = Table(items: seq<T>)

  /** No value is stored under two indices. */
  predicate Valid<T(==)>(t: Table<T>) {
    Sequences.NoDup(t.items)
  }

  /** Position of `s` in the table, if stored. */
  function Find<T(==)>(items: seq<T>, s: T): (r: int)
    ensures -1 <= r < |items|
    ensures r >= 0 ==> items[r] == s
    ensures r < 0 <==> s !in items
  {
    if |items| == 0 then -1
    else if items[|items| - 1] == s then |items| - 1
    else Find(items[..|items| - 1], s)
  }

  /** `IndexedString(text)`: the index already given to `s`, or a new index
      at the end of the table. */
  function Intern<T(==)>(t: Table<T>, s: T): (r: (Table<T>, nat))
    ensures r.1 < |r.0.items| && r.0.items[r.1] == s
    ensures t.items <= r.0.items
    ensures s in t.items ==> r.0 == t
    ensures s !in t.items ==> r.0.items == t.items + [s] && r.1 == |t.items|
    ensures Valid(t) ==> Valid(r.0)
  {
    var i := Find(t.items, s);
    if i >= 0 then (t, i)
    else
      var t' := Table(t.items + [s]);
      assert Valid(t) ==> Valid(t') by {
        if Valid(t) {
          forall a, b | 0 <= a < b < |t'.items|
            ensures t'.items[a] != t'.items[b]
          {
            if b == |t.items| {
              assert t'.items[a] == t.items[a];
            }
          }
        }
      }
      (t', |t.items|)
  }

  /** `IndexedString::str()`. */
  function Str<T>(t: Table<T>, index: nat): (s: T)
    requires index < |t.items|
    ensures s in t.items
  {
    t.items[index]
  }

  /** In a valid table, a text stored at `i` is interned as `i` again: equal
      texts get equal indices, however long ago the first one was made. */
  lemma InternStable<T>(t: Table<T>, s: T, i: nat)
    requires Valid(t) && i < |t.items| && t.items[i] == s
    ensures Intern(t, s) == (t, i)
  {
    var j := Find(t.items, s);
    assert t.items[j] == t.items[i];
  }

  /** Interning other texts never moves an index already given out. */
  lemma InternKeepsIndices<T>(t: Table<T>, s: T, other: T)
    requires Valid(t) && s in t.items
    ensures Intern(Intern(t, other).0, s).1 == Intern(t, s).1
  {
    InternStable(Intern(t, other).0, s, Intern(t, s).1);
  }

  /** The test's loop: intern each text, keep the first index seen for each
      text, and compare. Every text reads back unchanged and every repeat
      gets the index recorded for its first occurrence. */
  method InternAll(t0: Table<string>, texts: seq<string>) returns (t: Table<string>, known: map<string, nat>)
    requires Valid(t0)
    ensures Valid(t) && t0.items <= t.items
    ensures forall k :: 0 <= k < |texts| ==> texts[k] in known
    ensures forall s :: s in known ==> known[s] < |t.items| && Str(t, known[s]) == s
    ensures forall k :: 0 <= k < |texts| ==> Intern(t, texts[k]).1 == known[texts[k]]
  {
    t := t0;
    known := map[];
    var a := 0;
    while a < |texts|
      invariant 0 <= a <= |texts|
      invariant Valid(t) && t0.items <= t.items
      invariant forall k :: 0 <= k < a ==> texts[k] in known
      invariant forall s :: s in known ==> known[s] < |t.items| && t.items[known[s]] == s
    {
      var r := Intern(t, texts[a]);
      if texts[a] in known {
        InternStable(t, texts[a], known[texts[a]]);
        assert r.1 == known[texts[a]];
      } else {
        known := known[texts[a] := r.1];
      }
      t := r.0;
      a := a + 1;
    }
    forall k | 0 <= k < |texts|
      ensures Intern(t, texts[k]).1 == known[texts[k]]
    {
      InternStable(t, texts[k], known[texts[k]]);
    }
  }
}

=== FILE: sequences.dfy ===
/** `QList` operations shared by the models: `removeAll` and its repetition
    over a set of values. */
module Sequences {

  /** No value occurs twice. */
  predicate NoDup<T(==)>(s: seq<T>) {
    forall i, j :: 0 <= i < j < |s| ==> s[i] != s[j]
  }

  /** The values occurring in `s`. */
  function Elems<T(!new)>(s: seq<T>): (r: set<T>)
    ensures forall y :: y in r <==> y in s
  {
    set i | 0 <= i < |s| :: s[i]
  }

  lemma ElemsSnoc<T(!new)>(s: seq<T>, x: T)
    ensures Elems(s + [x]) == Elems(s) + {x}
  {
  }

  lemma ElemsEmpty<T(!new)>(s: seq<T>)
    ensures |s| == 0 <==> Elems(s) == {}
  {
    if |s| > 0 {
      assert s[0] in Elems(s);
    }
  }

  lemma ElemsCons<T(!new)>(x: T, s: seq<T>)
    ensures Elems([x] + s) == {x} + Elems(s)
  {
  }

  lemma ElemsSplit<T(!new)>(s: seq<T>)
    requires |s| > 0
    ensures Elems(s) == {s[0]} + Elems(s[1..])
  {
    assert s == [s[0]] + s[1..];
    ElemsCons(s[0], s[1..]);
  }

  /** `QList::removeAll(x)`: every occurrence of `x` removed, the rest kept
      in order. */
  function RemoveAll<T(==,!new)>(s: seq<T>, x: T): (r: seq<T>)
    ensures multiset(r) == multiset(s)[x := 0]
    ensures forall y :: y in r <==> y in s && y != x
  {
    if |s| == 0 then []
    else
      assert s == [s[0]] + s[1..];
      (if s[0] == x then [] else [s[0]]) + RemoveAll(s[1..], x)
  }

  /** Every occurrence of every value of `xs` removed, the rest kept in
      order. */
  function RemoveEvery<T(==,!new)>(s: seq<T>, xs: set<T>): (r: seq<T>)
    ensures forall y :: y in r <==> y in s && y !in xs
  {
    if |s| == 0 then []
    else
      assert s == [s[0]] + s[1..];
      (if s[0] in xs then [] else [s[0]]) + RemoveEvery(s[1..], xs)
  }

  /** Removing every occurrence of one value is filtering out that value:
      the values left keep their order. */
  lemma {:induction false} RemoveAllIsFilter<T(!new)>(s: seq<T>, x: T)
    ensures RemoveAll(s, x) == RemoveEvery(s, {x})
  {
    if |s| > 0 {
      RemoveAllIsFilter(s[1..], x);
    }
  }

  lemma {:induction false} RemoveEveryNoDup<T(!new)>(s: seq<T>, xs: set<T>)
    requires NoDup(s)
    ensures NoDup(RemoveEvery(s, xs))
  {
    if |s| > 0 {
      assert NoDup(s[1..]);
      RemoveEveryNoDup(s[1..], xs);
      assert s[0] !in s[1..];
    }
  }

  /** An empty batch removes nothing. */
  lemma {:induction false} RemoveEveryEmpty<T(!new)>(s: seq<T>)
    ensures RemoveEvery(s, {}) == s
  {
    if |s| > 0 {
      RemoveEveryEmpty(s[1..]);
      assert s == [s[0]] + s[1..];
    }
  }

  /** Removing one more value after a batch is the bigger batch. */
  lemma {:induction false} RemoveAllAfterEvery<T(!new)>(s: seq<T>, xs: set<T>, c: T)
    ensures RemoveAll(RemoveEvery(s, xs), c) == RemoveEvery(s, xs + {c})
  {
    if |s| > 0 {
      RemoveAllAfterEvery(s[1..], xs, c);
      var t := RemoveEvery(s[1..], xs);
      if s[0] in xs {
        assert RemoveEvery(s, xs) == t;
      } else {
        var u := [s[0]] + t;
        assert RemoveEvery(s, xs) == u;
        assert u[0] == s[0] && u[1..] == t;
        assert RemoveAll(u, c) == (if s[0] == c then [] else [s[0]]) + RemoveAll(t, c);
      }
    }
  }

  /** Values that are not present do not change what a batch removes. */
  lemma {:induction false} RemoveEveryAbsent<T(!new)>(s: seq<T>, xs: set<T>, ys: set<T>)
    requires forall y :: y in s ==> (y in xs <==> y in ys)
    ensures RemoveEvery(s, xs) == RemoveEvery(s, ys)
  {
    if |s| > 0 {
      RemoveEveryAbsent(s[1..], xs, ys);
    }
  }

  /** Removing a value from a list in which it occurs once, right after it was
      appended, gives the list back. */
  lemma {:induction false} RemoveAllAppended<T(!new)>(s: seq<T>, x: T)
    requires x !in s
    ensures RemoveAll(s + [x], x) == s
  {
    if |s| > 0 {
      assert (s + [x])[1..] == s[1..] + [x];
      RemoveAllAppended(s[1..], x);
      assert s == [s[0]] + s[1..];
    } else {
      assert [x][1..] == [];
    }
  }
}

=== FILE: set_repository.dfy ===
/** The contract that the string-set test pins on the set repository
    (`testStringSets` in languages/cpp/cppduchain/tests/test_duchain.cpp).
    The repository's own tree representation is not part of this model: a
    repository set is its content, a `set<Index>`, and its operators `-`,
    `+` and `&` are set difference, union and intersection. The test's
    reference side is `std::set<Index>`, an ordered container, modelled as a
    strictly increasing sequence, combined with the linear merges
    `std::set_difference`, `std::set_union` and `std::set_intersection`.
    The lemmas show that the two sides always agree, which is what the test
    checks for random sets. */
module SetRepository {
  import Sequences

  type Index = nat

  /** Strictly increasing: the iteration order of a `std::set`. */
  predicate Sorted(s: seq<Index>) {
    forall i, j :: 0 <= i < j < |s| ==> s[i] < s[j]
  }

  lemma SortedTail(s: seq<Index>)
    requires Sorted(s) && |s| > 0
    ensures Sorted(s[1..])
    ensures forall y :: y in s[1..] ==> s[0] < y
  {
  }

  lemma SortedCons(m: Index, rest: seq<Index>)
    requires Sorted(rest)
    requires forall y :: y in rest ==> m < y
    ensures Sorted([m] + rest)
  {
    var r := [m] + rest;
    forall i, j | 0 <= i < j < |r|
      ensures r[i] < r[j]
    {
      assert r[j] == rest[j - 1] && rest[j - 1] in rest;
      if i > 0 {
        assert r[i] == rest[i - 1];
      }
    }
  }

  /** Two ordered containers with the same values are the same sequence. */
  lemma {:induction false} SortedUnique(x: seq<Index>, y: seq<Index>)
    requires Sorted(x) && Sorted(y)
    requires Sequences.Elems(x) == Sequences.Elems(y)
    ensures x == y
    decreases |x|
  {
    if |x| > 0 && |y| > 0 {
      SortedTail(x);
      SortedTail(y);
      assert x[0] == y[0] by {
        assert x == [x[0]] + x[1..] && y == [y[0]] + y[1..];
        assert x[0] in y && y[0] in x;
        assert x[0] <= y[0] && y[0] <= x[0];
      }
      assert Sequences.Elems(x[1..]) == Sequences.Elems(x) - {x[0]} by {
        assert x == [x[0]] + x[1..];
      }
      assert Sequences.Elems(y[1..]) == Sequences.Elems(y) - {y[0]} by {
        assert y == [y[0]] + y[1..];
      }
      SortedUnique(x[1..], y[1..]);
      assert x == [x[0]] + x[1..] && y == [y[0]] + y[1..];
    } else {
      Sequences.ElemsEmpty(x);
      Sequences.ElemsEmpty(y);
    }
  }

  // ---------------------------------------------------------------------------
  // The repository side
  // ---------------------------------------------------------------------------

  /** `createSet(std::set)`: a repository set with the container's values. */
  function CreateSet(std: seq<Index>): (s: set<Index>)
    ensures forall y :: y in s <==> y in std
  {
    Sequences.Elems(std)
  }

  /** A set holding `x` has a least element, found by descending from
      `x`. */
  lemma {:induction false} HasMinimum(s: set<Index>, x: Index)
    requires x in s
    ensures exists m :: m in s && forall y :: y in s ==> m <= y
    decreases x
  {
    if !(forall y :: y in s ==> x <= y) {
      var y :| y in s && y < x;
      HasMinimum(s, y);
    }
  }

  /** The least value of a non-empty set. */
  function Minimum(s: set<Index>): (m: Index)
    requires s != {}
    ensures m in s && forall y :: y in s ==> m <= y
  {
    var x :| x in s;
    HasMinimum(s, x);
    var m :| m in s && forall y :: y in s ==> m <= y;
    m
  }

  /** `Set::stdSet()`: the values of a repository set as an ordered
      container. */
  function StdSet(s: set<Index>): (r: seq<Index>)
    ensures Sorted(r)
    ensures Sequences.Elems(r) == s
    decreases s
  {
    if s == {} then []
    else
      var m := Minimum(s);
      var rest := StdSet(s - {m});
      SortedCons(m, rest);
      [m] + rest
  }

  /** A set created from an ordered container lists back as that same
      container. */
  lemma CreateRoundTrip(std: seq<Index>)
    requires Sorted(std)
    ensures StdSet(CreateSet(std)) == std
  {
    SortedUnique(StdSet(CreateSet(std)), std);
  }

  // ---------------------------------------------------------------------------
  // The reference side: the standard linear merges
  // ---------------------------------------------------------------------------

  /** Putting a value below everything in front of an ordered range. */
  lemma Prepend(h: Index, rest: seq<Index>, bound: set<Index>)
    requires Sorted(rest) && Sequences.Elems(rest) <= bound
    requires forall y :: y in bound ==> h < y
    ensures Sorted([h] + rest)
    ensures Sequences.Elems([h] + rest) == {h} + Sequences.Elems(rest)
  {
    SortedCons(h, rest);
    Sequences.ElemsCons(h, rest);
  }

  /** The head and tail of a non-empty ordered range. */
  lemma Split(a: seq<Index>)
    requires Sorted(a) && |a| > 0
    ensures Sorted(a[1..])
    ensures forall y :: y in Sequences.Elems(a[1..]) ==> a[0] < y
    ensures Sequences.Elems(a) == {a[0]} + Sequences.Elems(a[1..])
  {
    SortedTail(a);
    Sequences.ElemsSplit(a);
  }

  /** `std::set_union` of two ordered ranges. */
  function SetUnion(a: seq<Index>, b: seq<Index>): (r: seq<Index>)
    requires Sorted(a) && Sorted(b)
    ensures Sorted(r)
    ensures Sequences.Elems(r) == Sequences.Elems(a) + Sequences.Elems(b)
    decreases |a| + |b|
  {
    if |a| == 0 then
      Sequences.ElemsEmpty(a);
      b
    else if |b| == 0 then
      Sequences.ElemsEmpty(b);
      a
    else if a[0] < b[0] then
      SortedTail(a);
      var rest := SetUnion(a[1..], b);
      UnionTakesFirst(a, b, rest);
      [a[0]] + rest
    else if b[0] < a[0] then
      SortedTail(b);
      var rest := SetUnion(a, b[1..]);
      UnionTakesFirst(b, a, rest);
      [b[0]] + rest
    else
      SortedTail(a);
      SortedTail(b);
      var rest := SetUnion(a[1..], b[1..]);
      UnionTakesBoth(a, b, rest);
      [a[0]] + rest
  }

  /** The step of the union merge that emits the smaller head, `a[0]`. */
  lemma UnionTakesFirst(a: seq<Index>, b: seq<Index>, rest: seq<Index>)
    requires Sorted(a) && Sorted(b) && |a| > 0 && |b| > 0 && a[0] < b[0]
    requires Sorted(rest)
    requires Sequences.Elems(rest) == Sequences.Elems(a[1..]) + Sequences.Elems(b)
    ensures Sorted([a[0]] + rest)
    ensures Sequences.Elems([a[0]] + rest) == Sequences.Elems(a) + Sequences.Elems(b)
  {
    Split(a);
    Split(b);
    Prepend(a[0], rest, Sequences.Elems(a[1..]) + Sequences.Elems(b));
  }

  /** The step of the union merge on equal heads, emitted once. */
  lemma UnionTakesBoth(a: seq<Index>, b: seq<Index>, rest: seq<Index>)
    requires Sorted(a) && Sorted(b) && |a| > 0 && |b| > 0 && a[0] == b[0]
    requires Sorted(rest)
    requires Sequences.Elems(rest) == Sequences.Elems(a[1..]) + Sequences.Elems(b[1..])
    ensures Sorted([a[0]] + rest)
    ensures Sequences.Elems([a[0]] + rest) == Sequences.Elems(a) + Sequences.Elems(b)
  {
    Split(a);
    Split(b);
    Prepend(a[0], rest, Sequences.Elems(a[1..]) + Sequences.Elems(b[1..]));
  }

  /** `std::set_intersection` of two ordered ranges. */
  function SetIntersection(a: seq<Index>, b: seq<Index>): (r: seq<Index>)
    requires Sorted(a) && Sorted(b)
    ensures Sorted(r)
    ensures Sequences.Elems(r) == Sequences.Elems(a) * Sequences.Elems(b)
    decreases |a| + |b|
  {
    if |a| == 0 || |b| == 0 then
      Sequences.ElemsEmpty(a);
      Sequences.ElemsEmpty(b);
      []
    else
      Split(a);
      Split(b);
      if a[0] < b[0] then
        SetIntersection(a[1..], b)
      else if b[0] < a[0] then
        SetIntersection(a, b[1..])
      else
        var rest := SetIntersection(a[1..], b[1..]);
        Prepend(a[0], rest, Sequences.Elems(a[1..]));
        [a[0]] + rest
  }

  /** `std::set_difference` of two ordered ranges: the values of `a` that
      are not in `b`. */
  function SetDifference(a: seq<Index>, b: seq<Index>): (r: seq<Index>)
    requires Sorted(a) && Sorted(b)
    ensures Sorted(r)
    ensures Sequences.Elems(r) == Sequences.Elems(a) - Sequences.Elems(b)
    decreases |a| + |b|
  {
    if |a| == 0 then
      Sequences.ElemsEmpty(a);
      []
    else if |b| == 0 then
      Sequences.ElemsEmpty(b);
      a
    else
      Split(a);
      Split(b);
      if a[0] < b[0] then
        var rest := SetDifference(a[1..], b);
        Prepend(a[0], rest, Sequences.Elems(a[1..]));
        [a[0]] + rest
      else if b[0] < a[0] then
        SetDifference(a, b[1..])
      else
        SetDifference(a[1..], b[1..])
  }

  // ---------------------------------------------------------------------------
  // The two sides agree
  // ---------------------------------------------------------------------------

  /** `(sets[a] - sets[b]).stdSet() == std::set_difference(...)`. */
  lemma DifferenceAgrees(a: seq<Index>, b: seq<Index>)
    requires Sorted(a) && Sorted(b)
    ensures StdSet(CreateSet(a) - CreateSet(b)) == SetDifference(a, b)
  {
    SortedUnique(StdSet(CreateSet(a) - CreateSet(b)), SetDifference(a, b));
  }

  /** `(sets[a] + sets[b]).stdSet() == std::set_union(...)`. */
  lemma UnionAgrees(a: seq<Index>, b: seq<Index>)
    requires Sorted(a) && Sorted(b)
    ensures StdSet(CreateSet(a) + CreateSet(b)) == SetUnion(a, b)
  {
    SortedUnique(StdSet(CreateSet(a) + CreateSet(b)), SetUnion(a, b));
  }

  /** `(sets[a] & sets[b]).stdSet() == std::set_intersection(...)`. */
  lemma IntersectionAgrees(a: seq<Index>, b: seq<Index>)
    requires Sorted(a) && Sorted(b)
    ensures StdSet(CreateSet(a) * CreateSet(b)) == SetIntersection(a, b)
  {
    SortedUnique(StdSet(CreateSet(a) * CreateSet(b)), SetIntersection(a, b));
  }
}

=== FILE: text.dfy ===
/** String helpers shared by the models: the lexicographic order that ordered
    maps keyed by text use, the `QString` search and slicing operations the
    code relies on (`indexOf`, `lastIndexOf`, `left`, `right`, `mid`,
    `split`, `join`, `trimmed`), and decimal conversion (`QString::number`
    and `QString::toInt`). Strings are sequences of characters; there is no
    Unicode normalisation. */
module Text {
  import opened Wrappers

  // ---------------------------------------------------------------------------
  // Lexicographic order
  // ---------------------------------------------------------------------------

  /** Strict lexicographic order by character code: a proper prefix comes
      first, otherwise the first differing character decides. */
  predicate Less(a: string, b: string)
    decreases |a|
  {
    if |a| == 0 then |b| > 0
    else if |b| == 0 then false
    else a[0] < b[0] || (a[0] == b[0] && Less(a[1..], b[1..]))
  }

  lemma {:induction false} LessIrreflexive(a: string)
    ensures !Less(a, a)
    decreases |a|
  {
    if |a| > 0 {
      LessIrreflexive(a[1..]);
    }
  }

  lemma {:induction false} LessTransitive(a: string, b: string, c: string)
    requires Less(a, b) && Less(b, c)
    ensures Less(a, c)
    decreases |a|
  {
    if |a| > 0 && a[0] == b[0] && b[0] == c[0] {
      LessTransitive(a[1..], b[1..], c[1..]);
    }
  }

  /** Any two distinct strings are ordered one way or the other. */
  lemma {:induction false} LessTotal(a: string, b: string)
    ensures a == b || Less(a, b) || Less(b, a)
    decreases |a|
  {
    if |a| > 0 && |b| > 0 && a[0] == b[0] {
      LessTotal(a[1..], b[1..]);
      if a[1..] == b[1..] {
        assert a == [a[0]] + a[1..] && b == [b[0]] + b[1..];
      }
    }
  }

  lemma {:induction false} LessAsymmetric(a: string, b: string)
    requires Less(a, b)
    ensures !Less(b, a)
  {
    if Less(b, a) {
      LessTransitive(a, b, a);
      LessIrreflexive(a);
    }
  }

  // ---------------------------------------------------------------------------
  // Searching and slicing, with the conventions of QString
  // ---------------------------------------------------------------------------

  /** Position of the first `c` in `s`, or -1. */
  function IndexOf(s: string, c: char): (r: int)
    ensures -1 <= r < |s|
    ensures r >= 0 ==> s[r] == c && c !in s[..r]
    ensures r < 0 ==> c !in s
  {
    if |s| == 0 then -1
    else if s[0] == c then 0
    else
      var k := IndexOf(s[1..], c);
      if k < 0 then -1 else k + 1
  }

  /** Without a `c`, `IndexOf` gives -1. */
  lemma IndexOfAbsent(s: string, c: char)
    requires c !in s
    ensures IndexOf(s, c) == -1
  {
  }

  /** `IndexOf` finds the first occurrence. */
  lemma {:induction false} IndexOfFirst(s: string, c: char, i: nat)
    requires i < |s| && s[i] == c && c !in s[..i]
    ensures IndexOf(s, c) == i
  {
    if i > 0 {
      assert s[0] == s[..i][0];
      assert s[1..][..i - 1] == s[1..i];
      assert forall x :: x in s[1..i] ==> x in s[..i];
      IndexOfFirst(s[1..], c, i - 1);
    }
  }

  /** Position of the last `c` in `s`, or -1. */
  function LastIndexOf(s: string, c: char): (r: int)
    ensures -1 <= r < |s|
    ensures r >= 0 ==> s[r] == c && c !in s[r + 1..]
    ensures r < 0 ==> c !in s
  {
    if |s| == 0 then -1
    else if s[|s| - 1] == c then |s| - 1
    else LastIndexOf(s[..|s| - 1], c)
  }

  /** `QString::left(n)`: the first `n` characters; the whole string when
      `n` is negative or at least the length. */
  function Left(s: string, n: int): (r: string)
    ensures 0 <= n <= |s| ==> r == s[..n]
    ensures (n < 0 || n >= |s|) ==> r == s
  {
    if n < 0 || n >= |s| then s else s[..n]
  }

  /** `QString::right(n)`: the last `n` characters; the whole string when
      `n` is negative or at least the length. */
  function Right(s: string, n: int): (r: string)
    ensures 0 <= n <= |s| ==> r == s[|s| - n..]
    ensures (n < 0 || n >= |s|) ==> r == s
  {
    if n < 0 || n >= |s| then s else s[|s| - n..]
  }

  /** `QString::mid(pos)` for a non-negative position: the suffix from
      `pos`, empty once `pos` passes the end. */
  function Mid(s: string, pos: nat): (r: string)
    ensures pos <= |s| ==> r == s[pos..]
    ensures pos > |s| ==> r == ""
  {
    if pos > |s| then "" else s[pos..]
  }

  predicate EndsWith(s: string, c: char) {
    |s| > 0 && s[|s| - 1] == c
  }

  /** `QString::split(sep)` keeping empty parts: always at least one part. */
  function Split(s: string, sep: char): (r: seq<string>)
    ensures |r| > 0
    decreases |s|
  {
    var i := IndexOf(s, sep);
    if i < 0 then [s] else [s[..i]] + Split(s[i + 1..], sep)
  }

  /** Concatenation of `parts` with `sep` between neighbours. */
  function Join(parts: seq<string>, sep: char): string {
    if |parts| == 0 then ""
    else if |parts| == 1 then parts[0]
    else parts[0] + [sep] + Join(parts[1..], sep)
  }

  /** Splitting undoes joining when no part contains the separator. */
  lemma {:induction false} SplitJoin(parts: seq<string>, sep: char)
    requires |parts| > 0
    requires forall k :: 0 <= k < |parts| ==> sep !in parts[k]
    ensures Split(Join(parts, sep), sep) == parts
  {
    var p := parts[0];
    if |parts| == 1 {
      assert IndexOf(p, sep) < 0;
    } else {
      var s := Join(parts, sep);
      var rest := Join(parts[1..], sep);
      assert s == p + [sep] + rest;
      assert s[..|p|] == p;
      assert s[|p|] == sep;
      assert IndexOf(s, sep) == |p| by {
        assert forall k :: 0 <= k < |p| ==> s[k] == p[k];
        assert sep in s[..|p| + 1];
      }
      assert s[|p| + 1..] == rest;
      SplitJoin(parts[1..], sep);
    }
  }

  /** The separator never occurs in a part produced by splitting. */
  lemma {:induction false} SplitPartsFree(s: string, sep: char)
    ensures forall k :: 0 <= k < |Split(s, sep)| ==> sep !in Split(s, sep)[k]
    decreases |s|
  {
    var i := IndexOf(s, sep);
    if i >= 0 {
      SplitPartsFree(s[i + 1..], sep);
    }
  }

  /** `n` copies of `s`, back to back. */
  function Repeat(s: string, n: nat): (r: string)
    ensures |r| == n * |s|
  {
    if n == 0 then "" else s + Repeat(s, n - 1)
  }

  predicate IsSpace(c: char) {
    c == ' ' || c == '\t' || c == '\n' || c == '\r' || c == '\U{000C}' || c == '\U{000B}'
  }

  /** `QString::trimmed`: whitespace removed from both ends. */
  function Trim(s: string): (r: string)
    ensures |r| > 0 ==> !IsSpace(r[0]) && !IsSpace(r[|r| - 1])
    decreases |s|
  {
    if |s| > 0 && IsSpace(s[0]) then Trim(s[1..])
    else if |s| > 0 && IsSpace(s[|s| - 1]) then Trim(s[..|s| - 1])
    else s
  }

  /** Text without whitespace at either end is already trimmed. */
  lemma TrimNoSpace(s: string)
    requires |s| > 0 ==> !IsSpace(s[0]) && !IsSpace(s[|s| - 1])
    ensures Trim(s) == s
  {
  }

  lemma TrimIdempotent(s: string)
    ensures Trim(Trim(s)) == Trim(s)
  {
    TrimNoSpace(Trim(s));
  }

  /** The first and last characters of a join of non-empty parts. */
  lemma {:induction false} JoinEnds(parts: seq<string>, sep: char)
    requires |parts| > 0
    requires forall k :: 0 <= k < |parts| ==> |parts[k]| > 0
    ensures |Join(parts, sep)| > 0
    ensures Join(parts, sep)[0] == parts[0][0]
    ensures Join(parts, sep)[|Join(parts, sep)| - 1] == parts[|parts| - 1][|parts[|parts| - 1]| - 1]
  {
    if |parts| > 1 {
      JoinEnds(parts[1..], sep);
    }
  }

  /** Every character of a join is the separator or a character of a part. */
  lemma {:induction false} JoinChars(parts: seq<string>, sep: char, p: char -> bool)
    requires p(sep)
    requires forall k, i :: 0 <= k < |parts| && 0 <= i < |parts[k]| ==> p(parts[k][i])
    ensures forall i :: 0 <= i < |Join(parts, sep)| ==> p(Join(parts, sep)[i])
  {
    if |parts| > 1 {
      JoinChars(parts[1..], sep, p);
      var rest := Join(parts[1..], sep);
      var s := Join(parts, sep);
      assert s == parts[0] + [sep] + rest;
      forall i | 0 <= i < |s|
        ensures p(s[i])
      {
        if i < |parts[0]| {
          assert s[i] == parts[0][i];
        } else if i > |parts[0]| {
          assert s[i] == rest[i - |parts[0]| - 1];
        }
      }
    } else if |parts| == 1 {
      assert forall i :: 0 <= i < |parts[0]| ==> p(parts[0][i]);
    }
  }

  // ---------------------------------------------------------------------------
  // Decimal numbers
  // ---------------------------------------------------------------------------

  const Int32Min: int := -0x8000_0000
  const Int32Max: int := 0x7fff_ffff

  predicate IsDigit(c: char) {
    '0' <= c <= '9'
  }

  predicate IsDigits(s: string) {
    forall i :: 0 <= i < |s| ==> IsDigit(s[i])
  }

  function DigitChar(d: nat): (c: char)
    requires d < 10
    ensures IsDigit(c) && c as int - '0' as int == d
  {
    (d + '0' as int) as char
  }

  /** `QString::number` of a natural number: its shortest decimal form. */
  function NatToString(n: nat): (r: string)
    ensures |r| > 0 && IsDigits(r)
  {
    if n < 10 then [DigitChar(n)] else NatToString(n / 10) + [DigitChar(n % 10)]
  }

  function IntToString(i: int): (r: string)
    ensures |r| > 0 && ':' !in r && ' ' !in r
  {
    var r := if i < 0 then "-" + NatToString(-i) else NatToString(i);
    assert forall k :: 0 <= k < |r| ==> r[k] == '-' || IsDigit(r[k]);
    r
  }

  /** The value of a string of decimal digits. */
  function DigitsValue(s: string): nat
    requires IsDigits(s)
  {
    if |s| == 0 then 0 else DigitsValue(s[..|s| - 1]) * 10 + (s[|s| - 1] as int - '0' as int)
  }

  /** A sign (optional) followed by at least one digit, or nothing. */
  function ParseInt(s: string): Option<int> {
    if |s| > 0 && (s[0] == '-' || s[0] == '+') then
      var d := s[1..];
      if |d| > 0 && IsDigits(d) then
        var v: int := DigitsValue(d);
        Some(if s[0] == '-' then -v else v)
      else None
    else if |s| > 0 && IsDigits(s) then Some(DigitsValue(s))
    else None
  }

  /** `QString::toInt`: the number, or 0 when the text is not a number or
      does not fit a 32-bit `int`. Surrounding whitespace is not accepted
      here (see README). */
  function ToInt(s: string): (r: int)
    ensures Int32Min <= r <= Int32Max
    ensures ParseInt(s).None? ==> r == 0
    ensures ParseInt(s).Some? && Int32Min <= ParseInt(s).value <= Int32Max ==> r == ParseInt(s).value
  {
    match ParseInt(s)
    case Some(v) => if Int32Min <= v <= Int32Max then v else 0
    case None => 0
  }

  lemma {:induction false} DigitsValueOfNat(n: nat)
    ensures DigitsValue(NatToString(n)) == n
    decreases n
  {
    if n >= 10 {
      var s := NatToString(n);
      assert s[..|s| - 1] == NatToString(n / 10);
      DigitsValueOfNat(n / 10);
    }
  }

  /** Decimal formatting and parsing are inverse. */
  lemma {:induction false} ParseIntToString(i: int)
    ensures ParseInt(IntToString(i)) == Some(i)
  {
    var s := IntToString(i);
    if i < 0 {
      var d := NatToString(-i);
      assert s == "-" + d;
      assert s[0] == '-' && s[1..] == d;
      DigitsValueOfNat(-i);
      assert DigitsValue(d) == -i;
    } else {
      assert s == NatToString(i);
      assert IsDigit(s[0]);
      DigitsValueOfNat(i);
      assert DigitsValue(s) == i;
    }
  }

  /** Hence `toInt(number(i)) == i` for every 32-bit `i`. */
  lemma ToIntOfString(i: int)
    requires Int32Min <= i <= Int32Max
    ensures ToInt(IntToString(i)) == i
  {
    ParseIntToString(i);
  }
}

=== FILE: token_scanner.dfy ===
/** The token-cursor helpers of the C++ parser (parts/cppsupport/parser.cpp):
    skipping to a token or to a declaration start, skipping a bracketed
    group, the expression skippers that stand in for a real expression
    grammar, the cv-qualifier, operator and pointer-operator parsers, the
    one-token specifier classifiers and the capped error reporter.

    The lexer is a token sequence and a cursor index: `lookAhead(0)` is the
    token at the cursor, `nextToken()` moves the cursor by one, and reading
    at or past the end gives the null token that ends every loop. A helper
    that moves the cursor returns its new position. */
module TokenScanner {

  /** The token kinds the helpers look at; `Punct(c)` is a one-character
      token such as `;` or `(`, `Other` any kind none of them names. */
  datatype Token =
    | Null
    | Punct(c: char)
    | Scope | Identifier | OperatorKw
    | Char | WChar | Bool | Short | Int | Long | Signed | Unsigned | Float | Double | Void
    | Extern | Namespace | Using | Typedef | Asm | Template | Export
    | Const | Volatile
    | Public | Protected | Private | Signals | Slots
    | Friend | Auto | Register | Static | Mutable
    | Inline | Virtual | Explicit
    | New | Delete
    // `Assign` is the lexer's compound-assignment token (`+=`, `-=`, ...);
    // a plain `=` is `Punct('=')`.
    | Assign | Shift | Eq | NotEq | Leq | Geq | And | Or | Incr | Decr | Ptrmem | Arrow
    | Other(kind: nat)

  /** `lex->lookAhead(0)` with the cursor at `i`. */
  function Peek(toks: seq<Token>, i: nat): Token {
    if i < |toks| then toks[i] else Null
  }

  /** No token from `i` up to `j` is null, none equals `t`. */
  predicate Skipped(toks: seq<Token>, i: nat, j: nat, t: Token) {
    forall k :: i <= k < j ==> Peek(toks, k) != Null && Peek(toks, k) != t
  }

  // ---------------------------------------------------------------------------
  // Error reporting
  // ---------------------------------------------------------------------------

  /** `m_maxErrors`: the reporter hears about the first five errors only. */
  const MaxErrors: nat := 5

  /** The error counter and the messages forwarded to the problem reporter. */
  datatype Errors = Errors(count: nat, reported: seq<string>)

  /** `reportError`: the counter always goes up; the message is forwarded
      while the counter is below the cap. */
  function ReportError(e: Errors, msg: string): (r: Errors)
    ensures r.count == e.count + 1
    ensures e.count < MaxErrors ==> r.reported == e.reported + [msg]
    ensures e.count >= MaxErrors ==> r.reported == e.reported
  {
    Errors(e.count + 1, if e.count < MaxErrors then e.reported + [msg] else e.reported)
  }

  /** As many messages reach the reporter as the smaller of the error count
      and the cap. */
  predicate Capped(e: Errors) {
    |e.reported| == if e.count < MaxErrors then e.count else MaxErrors
  }

  /** `resetErrors()`. */
  function ResetErrors(): (e: Errors)
    ensures Capped(e) && e.count == 0
  {
    Errors(0, [])
  }

  /** Reporting a sequence of messages in turn. */
  function ReportAll(e: Errors, msgs: seq<string>): Errors
    decreases |msgs|
  {
    if |msgs| == 0 then e else ReportAll(ReportError(e, msgs[0]), msgs[1..])
  }

  lemma ReportKeepsCap(e: Errors, msg: string)
    requires Capped(e)
    ensures Capped(ReportError(e, msg))
  {
  }

  /** How many of `n` further errors still reach the reporter. */
  function Room(e: Errors, n: nat): nat {
    if e.count >= MaxErrors then 0
    else if n < MaxErrors - e.count then n
    else MaxErrors - e.count
  }

  /** Reporting a run of messages: the counter grows by their number, and
      exactly the first of them reach the reporter, as many as there is room
      for below the cap. */
  lemma {:induction false} ReportAllCapped(e: Errors, msgs: seq<string>)
    requires Capped(e)
    ensures ReportAll(e, msgs).count == e.count + |msgs|
    ensures Capped(ReportAll(e, msgs))
    ensures ReportAll(e, msgs).reported == e.reported + msgs[..Room(e, |msgs|)]
    decreases |msgs|
  {
    if |msgs| > 0 {
      var e1 := ReportError(e, msgs[0]);
      ReportKeepsCap(e, msgs[0]);
      ReportAllCapped(e1, msgs[1..]);
      if e.count < MaxErrors {
        var n := Room(e, |msgs|);
        assert Room(e1, |msgs| - 1) == n - 1;
        assert msgs[..n] == [msgs[0]] + msgs[1..][..n - 1];
      } else {
        assert msgs[..0] == [];
      }
    } else {
      assert msgs[..0] == [];
    }
  }

  // ---------------------------------------------------------------------------
  // Skipping
  // ---------------------------------------------------------------------------

  /** `skipUntil(t)`: stops on the first `t`, without taking it, or at the
      end of the stream. */
  method SkipUntil(toks: seq<Token>, i: nat, t: Token) returns (found: bool, j: nat)
    ensures i <= j
    ensures Skipped(toks, i, j, t)
    ensures found ==> Peek(toks, j) == t && t != Null
    ensures !found ==> Peek(toks, j) == Null
  {
    j := i;
    while Peek(toks, j) != Null
      invariant i <= j
      invariant Skipped(toks, i, j, t)
      decreases |toks| - j
    {
      if Peek(toks, j) == t {
        return true, j;
      }
      j := j + 1;
    }
    return false, j;
  }

  /** The tokens `skipUntilDeclaration` stops at. */
  predicate DeclarationStart(t: Token) {
    t == Punct(';') || t == Punct('~') || t == Scope || t == Identifier || t == OperatorKw
    || t == Char || t == WChar || t == Bool || t == Short || t == Int || t == Long
    || t == Signed || t == Unsigned || t == Float || t == Double || t == Void
    || t == Extern || t == Namespace || t == Using || t == Typedef || t == Asm
    || t == Template || t == Export
    || t == Const || t == Volatile
    || t == Public || t == Protected || t == Private || t == Signals || t == Slots
  }

  /** `skipUntilDeclaration()`: stops, without taking it, on the first token
      that can start a declaration, or at the end of the stream. */
  method SkipUntilDeclaration(toks: seq<Token>, i: nat) returns (found: bool, j: nat)
    ensures i <= j
    ensures forall k :: i <= k < j ==> Peek(toks, k) != Null && !DeclarationStart(Peek(toks, k))
    ensures found <==> DeclarationStart(Peek(toks, j))
    ensures !found ==> Peek(toks, j) == Null
  {
    j := i;
    while Peek(toks, j) != Null
      invariant i <= j
      invariant forall k :: i <= k < j ==> Peek(toks, k) != Null && !DeclarationStart(Peek(toks, k))
      decreases |toks| - j
    {
      if DeclarationStart(Peek(toks, j)) {
        return true, j;
      }
      j := j + 1;
    }
    return false, j;
  }

  /** How `skip(l, r)` moves its counter on one token. */
  function Step(t: Token, l: Token, r: Token): int {
    if t == l then 1 else if t == r then -1 else 0
  }

  /** The counter of `skip(l, r)` after the tokens from `i` up to `k`. */
  function Depth(toks: seq<Token>, i: nat, k: nat, l: Token, r: Token): int
    requires i <= k
    decreases k - i
  {
    if k == i then 0 else Depth(toks, i, k - 1, l, r) + Step(Peek(toks, k - 1), l, r)
  }

  lemma DepthNext(toks: seq<Token>, i: nat, k: nat, l: Token, r: Token)
    requires i <= k
    ensures Depth(toks, i, k + 1, l, r) == Depth(toks, i, k, l, r) + Step(Peek(toks, k), l, r)
  {
  }

  /** `skip(l, r)`: walks from `i`, counting `l` up and `r` down, and stops
      on the token that brings the counter to zero; false when the stream
      ends first. */
  method Skip(toks: seq<Token>, i: nat, l: Token, r: Token) returns (ok: bool, j: nat)
    ensures i <= j
    ensures forall k :: i <= k < j ==> Peek(toks, k) != Null
    ensures forall k :: i < k <= j ==> Depth(toks, i, k, l, r) != 0
    ensures ok ==> Peek(toks, j) != Null && Depth(toks, i, j + 1, l, r) == 0
    ensures !ok ==> Peek(toks, j) == Null
  {
    var count := 0;
    j := i;
    while Peek(toks, j) != Null
      invariant i <= j
      invariant count == Depth(toks, i, j, l, r)
      invariant forall k :: i <= k < j ==> Peek(toks, k) != Null
      invariant forall k :: i < k <= j ==> Depth(toks, i, k, l, r) != 0
      decreases |toks| - j
    {
      var tk := Peek(toks, j);
      DepthNext(toks, i, j, l, r);
      count := count + Step(tk, l, r);
      if count == 0 {
        return true, j;
      }
      j := j + 1;
    }
    return false, j;
  }

  /** From any position `m` up to where `skip` stopped, with the counter as
      the tokens since `i` leave it, `SkipFrom` arrives at the same place. */
  lemma {:induction false} SkipFromDepth(toks: seq<Token>, i: nat, m: nat, j: nat, l: Token, r: Token)
    requires i <= m <= j
    requires forall k :: i <= k < j ==> Peek(toks, k) != Null
    requires forall k :: i < k <= j ==> Depth(toks, i, k, l, r) != 0
    requires Peek(toks, j) == Null || Depth(toks, i, j + 1, l, r) == 0
    ensures SkipFrom(toks, m, Depth(toks, i, m, l, r), l, r) == j
    decreases j - m
  {
    if m == j {
      SkipFromStop(toks, i, j, l, r);
      return;
    }
    SkipFromDepth(toks, i, m + 1, j, l, r);
    SkipFromMove(toks, i, m, l, r);
  }

  /** `SkipFrom` moves on past a token that leaves the counter non-zero. */
  lemma SkipFromMove(toks: seq<Token>, i: nat, m: nat, l: Token, r: Token)
    requires i <= m && Peek(toks, m) != Null && Depth(toks, i, m + 1, l, r) != 0
    ensures SkipFrom(toks, m, Depth(toks, i, m, l, r), l, r)
      == SkipFrom(toks, m + 1, Depth(toks, i, m + 1, l, r), l, r)
  {
    DepthNext(toks, i, m, l, r);
  }

  /** `SkipFrom` stops at once on the end or on a token that brings the
      counter to zero. */
  lemma SkipFromStop(toks: seq<Token>, i: nat, j: nat, l: Token, r: Token)
    requires i <= j
    requires Peek(toks, j) == Null || Depth(toks, i, j + 1, l, r) == 0
    ensures SkipFrom(toks, j, Depth(toks, i, j, l, r), l, r) == j
  {
    DepthNext(toks, i, j, l, r);
  }

  /** Where `skip(l, r)` stops when it reaches `k` with its counter at `d`:
      on the first token that brings the counter to zero, or at the end of
      the stream. */
  function SkipFrom(toks: seq<Token>, k: nat, d: int, l: Token, r: Token): (j: nat)
    ensures k <= j
    decreases |toks| - k
  {
    if Peek(toks, k) == Null then k
    else if d + Step(Peek(toks, k), l, r) == 0 then k
    else SkipFrom(toks, k + 1, d + Step(Peek(toks, k), l, r), l, r)
  }

  /** Started on an `l`, the counter stays positive until it reaches zero. */
  lemma {:induction false} DepthPositive(toks: seq<Token>, i: nat, k: nat, l: Token, r: Token)
    requires Peek(toks, i) == l && l != r && i < k
    requires forall m :: i < m <= k ==> Depth(toks, i, m, l, r) != 0
    ensures Depth(toks, i, k, l, r) > 0
    decreases k - i
  {
    if k > i + 1 {
      DepthPositive(toks, i, k - 1, l, r);
    }
  }

  /** `skip(l, r)` started on an `l` stops on the matching `r`, with the
      brackets in between balanced: every earlier prefix is open. */
  lemma SkipFromOpen(toks: seq<Token>, i: nat, j: nat, l: Token, r: Token)
    requires Peek(toks, i) == l && l != r && i <= j
    requires forall k :: i < k <= j ==> Depth(toks, i, k, l, r) != 0
    requires Depth(toks, i, j + 1, l, r) == 0
    ensures i < j && Peek(toks, j) == r
    ensures forall k :: i < k <= j ==> Depth(toks, i, k, l, r) > 0
  {
    assert Depth(toks, i, i + 1, l, r) == 1;
    forall k | i < k <= j
      ensures Depth(toks, i, k, l, r) > 0
    {
      DepthPositive(toks, i, k, l, r);
    }
  }

  // ---------------------------------------------------------------------------
  // Qualifiers, operators and pointer operators
  // ---------------------------------------------------------------------------

  predicate IsCv(t: Token) {
    t == Const || t == Volatile
  }

  /** `parseCvQualify(l)`: takes the longest run of `const` and `volatile`,
      adding each to the list; true when the run is not empty. */
  method ParseCvQualify(toks: seq<Token>, i: nat, l0: seq<Token>) returns (ok: bool, j: nat, l: seq<Token>)
    ensures i <= j <= |toks| || j == i
    ensures forall k :: i <= k < j ==> IsCv(Peek(toks, k))
    ensures !IsCv(Peek(toks, j))
    ensures j > i ==> j <= |toks| && l == l0 + toks[i..j]
    ensures j == i ==> l == l0
    ensures ok <==> j > i
  {
    j := i;
    l := l0;
    var n := 0;
    while Peek(toks, j) != Null
      invariant i <= j && n == j - i
      invariant forall k :: i <= k < j ==> IsCv(Peek(toks, k))
      invariant j > i ==> j <= |toks| && l == l0 + toks[i..j]
      invariant j == i ==> l == l0
      decreases |toks| - j
    {
      var tk := Peek(toks, j);
      if IsCv(tk) {
        n := n + 1;
        assert j < |toks| && toks[j] == tk;
        if j == i {
          assert toks[i..j + 1] == [tk];
        } else {
          assert toks[i..j + 1] == toks[i..j] + [tk];
        }
        l := l + [tk];
        j := j + 1;
      } else {
        break;
      }
    }
    ok := n != 0;
  }

  /** The one-token operators of `parseOperator`. */
  predicate SingleOperator(t: Token) {
    t == Punct('+') || t == Punct('-') || t == Punct('*') || t == Punct('/') || t == Punct('%')
    || t == Punct('^') || t == Punct('&') || t == Punct('|') || t == Punct('~') || t == Punct('!')
    || t == Punct('=') || t == Punct('<') || t == Punct('>') || t == Punct(',')
    || t == Assign || t == Shift || t == Eq || t == NotEq || t == Leq || t == Geq
    || t == And || t == Or || t == Incr || t == Decr || t == Ptrmem || t == Arrow
  }

  /** The token sequences `parseOperator` accepts as an operator name. */
  predicate OperatorSpelling(s: seq<Token>) {
    || (|s| == 1 && (s[0] == New || s[0] == Delete || SingleOperator(s[0])))
    || (|s| == 3 && (s[0] == New || s[0] == Delete) && s[1] == Punct('[') && s[2] == Punct(']'))
    || (|s| == 2 && s[0] == Punct('(') && s[1] == Punct(')'))
    || (|s| == 2 && s[0] == Punct('[') && s[1] == Punct(']'))
  }

  /** `parseOperator()`: the operator after the `operator` keyword; on
      failure the cursor does not move. */
  function ParseOperator(toks: seq<Token>, i: nat): (r: (bool, nat))
    ensures !r.0 ==> r.1 == i
    ensures r.0 ==> i < r.1 <= |toks| && OperatorSpelling(toks[i..r.1])
  {
    var t := Peek(toks, i);
    if t == New || t == Delete then
      if Peek(toks, i + 1) == Punct('[') && Peek(toks, i + 2) == Punct(']') then (true, i + 3)
      else (true, i + 1)
    else if SingleOperator(t) then (true, i + 1)
    else if t == Punct('(') && Peek(toks, i + 1) == Punct(')') then (true, i + 2)
    else if t == Punct('[') && Peek(toks, i + 1) == Punct(']') then (true, i + 2)
    else (false, i)
  }

  /** `parseOperator` takes an operator name exactly when one starts at the
      cursor, and then the longest one: `new[]` and `delete[]` are never cut
      short. */
  lemma ParseOperatorComplete(toks: seq<Token>, i: nat, n: nat)
    requires i + n <= |toks| && OperatorSpelling(toks[i..i + n])
    ensures ParseOperator(toks, i).0
    ensures ParseOperator(toks, i).1 >= i + n
  {
    assert toks[i..i + n][0] == toks[i];
    if n > 1 {
      assert toks[i..i + n][1] == toks[i + 1];
    }
    if n > 2 {
      assert toks[i..i + n][2] == toks[i + 2];
    }
  }

  /** A pointer-to-member prefix `name :: *` or `:: name :: *` starts at
      `i`. */
  predicate PtrToMemberAt(toks: seq<Token>, i: nat) {
    || (Peek(toks, i) == Identifier && Peek(toks, i + 1) == Scope && Peek(toks, i + 2) == Punct('*'))
    || (Peek(toks, i) == Scope && Peek(toks, i + 1) == Identifier && Peek(toks, i + 2) == Scope
        && Peek(toks, i + 3) == Punct('*'))
  }

  /** `parsePtrToMember()`: an optional `::`, a name, `::` and `*`. On
      failure the cursor is left where the scan gave up: after the leading
      `::` and the name, as far as they are there. */
  function ParsePtrToMember(toks: seq<Token>, i: nat): (r: (bool, nat))
    ensures i <= r.1
    ensures r.0 <==> PtrToMemberAt(toks, i)
    ensures r.0 ==> r.1 <= |toks|
    ensures r.0 ==> toks[i..r.1] == [Identifier, Scope, Punct('*')] || toks[i..r.1] == [Scope, Identifier, Scope, Punct('*')]
    ensures !r.0 ==> var k := if Peek(toks, i) == Scope then i + 1 else i;
      r.1 == if Peek(toks, k) == Identifier then k + 1 else k
  {
    var k := if Peek(toks, i) == Scope then i + 1 else i;
    if Peek(toks, k) == Identifier then
      if Peek(toks, k + 1) == Scope && Peek(toks, k + 2) == Punct('*') then (true, k + 3)
      else (false, k + 1)
    else (false, k)
  }

  /** The cv-qualifiers after a pointer operator, without the list. */
  function CvRun(toks: seq<Token>, i: nat): (j: nat)
    ensures i <= j
    ensures forall k :: i <= k < j ==> IsCv(Peek(toks, k))
    ensures !IsCv(Peek(toks, j))
    decreases |toks| - i
  {
    if i < |toks| && IsCv(toks[i]) then CvRun(toks, i + 1) else i
  }

  /** `parsePtrOperator()`: `&`, `*` or a pointer to member, then any
      cv-qualifiers. When the pointer to member fails the cursor is put back
      where it was. */
  function ParsePtrOperator(toks: seq<Token>, i: nat): (r: (bool, nat))
    ensures !r.0 <==> r.1 == i
    ensures r.0 <==> Peek(toks, i) == Punct('&') || Peek(toks, i) == Punct('*') || PtrToMemberAt(toks, i)
    ensures Peek(toks, i) == Punct('&') || Peek(toks, i) == Punct('*') ==> r.1 == CvRun(toks, i + 1)
    ensures PtrToMemberAt(toks, i) ==> r.1 == CvRun(toks, ParsePtrToMember(toks, i).1)
    ensures r.0 ==> !IsCv(Peek(toks, r.1))
  {
    var t := Peek(toks, i);
    if t == Punct('&') || t == Punct('*') then (true, CvRun(toks, i + 1))
    else
      var m := ParsePtrToMember(toks, i);
      if !m.0 then (false, i) else (true, CvRun(toks, m.1))
  }

  /** Whatever the pointer-to-member scan consumed, a failed pointer operator
      leaves the cursor where it started. */
  lemma PtrOperatorRestores(toks: seq<Token>, i: nat)
    requires Peek(toks, i) != Punct('&') && Peek(toks, i) != Punct('*')
    ensures !ParsePtrToMember(toks, i).0 ==> ParsePtrOperator(toks, i) == (false, i)
    ensures ParsePtrToMember(toks, i).0 ==> ParsePtrOperator(toks, i).1 >= ParsePtrToMember(toks, i).1
  {
  }

  // ---------------------------------------------------------------------------
  // Specifier classifiers
  // ---------------------------------------------------------------------------

  /** A classifier: takes the current token when it is in the set `kinds`,
      and leaves the cursor alone otherwise. */
  function Classify(toks: seq<Token>, i: nat, kinds: set<Token>): (r: (bool, nat))
    ensures r.0 <==> Peek(toks, i) in kinds
    ensures r.1 == if r.0 then i + 1 else i
  {
    if Peek(toks, i) in kinds then (true, i + 1) else (false, i)
  }

  const StorageClasses: set<Token> := {Friend, Auto, Register, Static, Extern, Mutable}
  const FunctionSpecifiers: set<Token> := {Inline, Virtual, Explicit}
  const AccessSpecifiers: set<Token> := {Public, Protected, Private}

  /** `parseStorageClassSpecifier()`. */
  function ParseStorageClassSpecifier(toks: seq<Token>, i: nat): (r: (bool, nat))
    ensures r.0 <==> Peek(toks, i) in {Friend, Auto, Register, Static, Extern, Mutable}
    ensures r.1 == if r.0 then i + 1 else i
  {
    Classify(toks, i, StorageClasses)
  }

  /** `parseFunctionSpecifier()`. */
  function ParseFunctionSpecifier(toks: seq<Token>, i: nat): (r: (bool, nat))
    ensures r.0 <==> Peek(toks, i) in {Inline, Virtual, Explicit}
    ensures r.1 == if r.0 then i + 1 else i
  {
    Classify(toks, i, FunctionSpecifiers)
  }

  /** `parseAccessSpecifier()`. */
  function ParseAccessSpecifier(toks: seq<Token>, i: nat): (r: (bool, nat))
    ensures r.0 <==> Peek(toks, i) in {Public, Protected, Private}
    ensures r.1 == if r.0 then i + 1 else i
  {
    Classify(toks, i, AccessSpecifiers)
  }

  // ---------------------------------------------------------------------------
  // Expression skippers
  // ---------------------------------------------------------------------------

  /** The three expression skippers: each walks the tokens, jumping over
      bracketed groups with `skip`, until a stop token of its own. */
  datatype Skipper = ConstantExpression | CommaExpression | AssignmentExpression

  /** The tokens a skipper stops at when it stands on them. */
  predicate Stops(sk: Skipper, t: Token) {
    match sk
    case ConstantExpression => ConstantStop(t)
    case CommaExpression => CommaStop(t)
    case AssignmentExpression => AssignmentStop(t)
  }

  /** The tokens that open a group the skipper jumps over. */
  predicate Opens(sk: Skipper, t: Token) {
    if sk == AssignmentExpression then Opener(t) else t == Punct('(')
  }

  /** Where the skipper stands next after standing on an opener at `p`:
      past the token that closes the group. */
  function AfterGroup(toks: seq<Token>, p: nat): nat {
    SkipFrom(toks, p, 0, Peek(toks, p), Closer(Peek(toks, p))) + 1
  }

  /** The skipper's loop gets from `p` to `j`: every position it stands on
      before `j` holds a token that is neither the end nor one of its stop
      tokens, and from each it moves on by one token, or past a group that
      closes. */
  predicate Walk(sk: Skipper, toks: seq<Token>, p: nat, j: nat)
    decreases j - p
  {
    if p >= j then p == j
    else
      var t := Peek(toks, p);
      && t != Null && !Stops(sk, t)
      && if Opens(sk, t) then
           Peek(toks, AfterGroup(toks, p) - 1) != Null && Walk(sk, toks, AfterGroup(toks, p), j)
         else Walk(sk, toks, p + 1, j)
  }

  /** One more move at the end of a walk. */
  lemma {:induction false} WalkSnoc(sk: Skipper, toks: seq<Token>, i: nat, p: nat, q: nat)
    requires Walk(sk, toks, i, p)
    requires Peek(toks, p) != Null && !Stops(sk, Peek(toks, p))
    requires Opens(sk, Peek(toks, p)) ==> q == AfterGroup(toks, p) && Peek(toks, q - 1) != Null
    requires !Opens(sk, Peek(toks, p)) ==> q == p + 1
    ensures Walk(sk, toks, i, q)
    decreases p - i
  {
    if i < p {
      var t := Peek(toks, i);
      var next := if Opens(sk, t) then AfterGroup(toks, i) else i + 1;
      WalkSnoc(sk, toks, next, p, q);
    }
  }

  /** The skipper on an opener at `j` has had `skip` run to `k`: a closed
      group extends the walk past `k`, and an open one leaves `k` at the
      end with the group unclosed. */
  lemma GroupStep(sk: Skipper, toks: seq<Token>, i: nat, j: nat, k: nat, closed: bool)
    requires Walk(sk, toks, i, j) && Opens(sk, Peek(toks, j)) && j <= k
    requires forall m :: j <= m < k ==> Peek(toks, m) != Null
    requires forall m :: j < m <= k ==> Depth(toks, j, m, Peek(toks, j), Closer(Peek(toks, j))) != 0
    requires closed ==> Peek(toks, k) != Null && Depth(toks, j, k + 1, Peek(toks, j), Closer(Peek(toks, j))) == 0
    requires !closed ==> Peek(toks, k) == Null
    ensures k == AfterGroup(toks, j) - 1
    ensures closed ==> Walk(sk, toks, i, k + 1)
    ensures !closed ==> j < k && StuckInGroup(sk, toks, i, k)
  {
    var t := Peek(toks, j);
    SkipFromDepth(toks, j, j, k, t, Closer(t));
    assert Depth(toks, j, j, t, Closer(t)) == 0;
    OpensNotStops(sk, t);
    if closed {
      WalkSnoc(sk, toks, i, j, k + 1);
    } else {
      GroupOpen(sk, toks, i, j, k);
    }
  }

  /** A skipper on an opener at `j` calls `skip` with that opener and its
      closer: a closed group extends the walk past the closer at `k`, and
      an open one leaves the skipper stuck in it at the end of the stream. */
  method SkipGroup(sk: Skipper, toks: seq<Token>, i: nat, j: nat) returns (closed: bool, k: nat)
    requires Walk(sk, toks, i, j) && Opens(sk, Peek(toks, j))
    ensures j <= k && k == AfterGroup(toks, j) - 1
    ensures closed ==> Walk(sk, toks, i, k + 1)
    ensures !closed ==> j < k && Peek(toks, k) == Null && StuckInGroup(sk, toks, i, k)
  {
    var t := Peek(toks, j);
    closed, k := Skip(toks, j, t, Closer(t));
    GroupStep(sk, toks, i, j, k, closed);
  }

  /** No skipper stops on a token that opens a group for it. */
  lemma OpensNotStops(sk: Skipper, t: Token)
    requires Opens(sk, t)
    ensures t != Null && !Stops(sk, t)
  {
  }

  /** An opener on the walk whose `skip` ran to the end leaves the skipper
      stuck in that group. */
  lemma GroupOpen(sk: Skipper, toks: seq<Token>, i: nat, j: nat, k: nat)
    requires Walk(sk, toks, i, j) && Opens(sk, Peek(toks, j)) && j <= k
    requires k == AfterGroup(toks, j) - 1 && Peek(toks, k) == Null
    requires forall m :: j < m <= k ==> Depth(toks, j, m, Peek(toks, j), Closer(Peek(toks, j))) != 0
    ensures j < k && StuckInGroup(sk, toks, i, k)
  {
    assert Unclosed(toks, j, k, Peek(toks, j), Closer(Peek(toks, j)));
    assert i <= j by {
      WalkBounds(sk, toks, i, j);
    }
  }

  /** A walk only moves forward. */
  lemma WalkBounds(sk: Skipper, toks: seq<Token>, i: nat, j: nat)
    requires Walk(sk, toks, i, j)
    ensures i <= j
  {
  }

  /** The skipper's walk from `i` came to an opener at `g` whose group never
      closes: `skip` ran from `g` to the end, at `j`. */
  predicate StuckInGroup(sk: Skipper, toks: seq<Token>, i: nat, j: nat) {
    exists g ::
      i <= g < j && Walk(sk, toks, i, g) && Opens(sk, Peek(toks, g)) && j == AfterGroup(toks, g) - 1
      && Unclosed(toks, g, j, Peek(toks, g), Closer(Peek(toks, g)))
  }

  /** A walk ends on the first stop token it meets: two walks from the same
      place that both end on a stop token or the end are the same walk. */
  lemma {:induction false} WalkUnique(sk: Skipper, toks: seq<Token>, i: nat, j1: nat, j2: nat)
    requires Walk(sk, toks, i, j1) && Walk(sk, toks, i, j2)
    requires Peek(toks, j1) == Null || Stops(sk, Peek(toks, j1))
    requires Peek(toks, j2) == Null || Stops(sk, Peek(toks, j2))
    ensures j1 == j2
    decreases j1 - i
  {
    if i < j1 && i < j2 {
      var t := Peek(toks, i);
      var next := if Opens(sk, t) then AfterGroup(toks, i) else i + 1;
      WalkUnique(sk, toks, next, j1, j2);
    }
  }

  /** `a , b`: an assignment expression stops on the comma, not later. */
  lemma AssignmentStopsAtComma(toks: seq<Token>, j: nat)
    requires toks == [Identifier, Punct(','), Identifier]
    requires Walk(AssignmentExpression, toks, 0, j)
    requires Peek(toks, j) == Null || AssignmentStop(Peek(toks, j))
    ensures j == 1
  {
  }

  /** A skipper on a plain token followed by one of its stop tokens stops
      on that next token. */
  lemma StopsAfterPlainToken(sk: Skipper, toks: seq<Token>, i: nat, j: nat)
    requires Peek(toks, i) != Null && !Stops(sk, Peek(toks, i)) && !Opens(sk, Peek(toks, i))
    requires Stops(sk, Peek(toks, i + 1))
    requires Walk(sk, toks, i, j) && (Peek(toks, j) == Null || Stops(sk, Peek(toks, j)))
    ensures j == i + 1
  {
  }

  /** The group that `l` opens at `g` is still open after each token up to
      `j`: `skip(l, r)` started at `g` would run past `j`. */
  predicate Unclosed(toks: seq<Token>, g: nat, j: nat, l: Token, r: Token) {
    g <= j && Peek(toks, g) == l && forall m :: g < m <= j ==> Depth(toks, g, m, l, r) != 0
  }

  /** Where `parseConstantExpression` stops. */
  predicate ConstantStop(t: Token) {
    t == Punct(',') || t == Punct(';') || t == Punct('<') || t == Assign
    || t == Punct(']') || t == Punct(')') || t == Punct('}')
  }

  /** `parseConstantExpression()`: takes tokens, a parenthesised group at a
      time, up to a stop token or the end; true when it took any. An
      unclosed group ends it with false. */
  method ParseConstantExpression(toks: seq<Token>, i: nat) returns (ok: bool, j: nat)
    ensures i <= j
    ensures ok ==> i < j && (Peek(toks, j) == Null || ConstantStop(Peek(toks, j)))
    ensures j == i ==> !ok && (Peek(toks, i) == Null || ConstantStop(Peek(toks, i)))
    ensures !ok && j > i ==> Peek(toks, j) == Null
    ensures ok || j == i ==> Walk(ConstantExpression, toks, i, j)
    ensures !ok && j > i ==> StuckInGroup(ConstantExpression, toks, i, j)
  {
    j := i;
    var taken := false;
    while Peek(toks, j) != Null
      invariant i <= j
      invariant taken <==> j > i
      invariant Walk(ConstantExpression, toks, i, j)
      decreases |toks| - j
    {
      var tk := Peek(toks, j);
      if tk == Punct('(') {
        taken := true;
        var closed, k := SkipGroup(ConstantExpression, toks, i, j);
        if !closed {
          return false, k;
        }
        j := k + 1;
      } else if ConstantStop(tk) {
        break;
      } else {
        taken := true;
        WalkSnoc(ConstantExpression, toks, i, j, j + 1);
        j := j + 1;
      }
    }
    ok := taken;
  }

  /** Where `parseCommaExpression` stops. */
  predicate CommaStop(t: Token) {
    t == Punct(']') || t == Punct(';')
  }

  /** `parseCommaExpression()`: takes tokens, a parenthesised group at a
      time, up to `]`, `;` or the end. An unclosed group ends it with
      false. */
  method ParseCommaExpression(toks: seq<Token>, i: nat) returns (ok: bool, j: nat)
    ensures i <= j
    ensures ok ==> Peek(toks, j) == Null || CommaStop(Peek(toks, j))
    ensures !ok ==> Peek(toks, j) == Null && j > i
    ensures CommaStop(Peek(toks, i)) ==> ok && j == i
    ensures ok ==> Walk(CommaExpression, toks, i, j)
    ensures !ok ==> StuckInGroup(CommaExpression, toks, i, j)
  {
    j := i;
    while Peek(toks, j) != Null
      invariant i <= j
      invariant Walk(CommaExpression, toks, i, j)
      decreases |toks| - j
    {
      var tk := Peek(toks, j);
      if tk == Punct('(') {
        var closed, k := SkipGroup(CommaExpression, toks, i, j);
        if !closed {
          return false, k;
        }
        j := k;
      } else if CommaStop(tk) {
        break;
      } else {
        WalkSnoc(CommaExpression, toks, i, j, j + 1);
      }
      j := j + 1;
    }
    ok := true;
  }

  /** Where `parseAssignmentExpression` stops at depth 0. */
  predicate AssignmentStop(t: Token) {
    t == Punct(',') || t == Punct(';') || t == Punct('>') || t == Punct(']') || t == Punct(')')
    || t == Assign
  }

  /** The bracket a group opened by `t` closes with, for the groups
      `parseAssignmentExpression` skips. */
  function Closer(t: Token): Token {
    if t == Punct('(') then Punct(')') else if t == Punct('<') then Punct('>') else Punct(']')
  }

  predicate Opener(t: Token) {
    t == Punct('(') || t == Punct('<') || t == Punct('[')
  }

  /** `parseAssignmentExpression()`: takes tokens, a `()`, `<>` or `[]` group
      at a time, up to a stop token or the end, and fails only on a group
      that is not closed. */
  method ParseAssignmentExpression(toks: seq<Token>, i: nat) returns (ok: bool, j: nat)
    ensures i <= j
    ensures ok ==> Peek(toks, j) == Null || AssignmentStop(Peek(toks, j))
    ensures !ok ==> Peek(toks, j) == Null && j > i
    ensures AssignmentStop(Peek(toks, i)) ==> ok && j == i
    ensures ok ==> Walk(AssignmentExpression, toks, i, j)
    ensures !ok ==> StuckInGroup(AssignmentExpression, toks, i, j)
  {
    j := i;
    while Peek(toks, j) != Null
      invariant i <= j
      invariant Walk(AssignmentExpression, toks, i, j)
      decreases |toks| - j
    {
      var tk := Peek(toks, j);
      if Opener(tk) {
        var closed, k := SkipGroup(AssignmentExpression, toks, i, j);
        if !closed {
          return false, k;
        }
        j := k + 1;
      } else if AssignmentStop(tk) {
        break;
      } else {
        WalkSnoc(AssignmentExpression, toks, i, j, j + 1);
        j := j + 1;
      }
    }
    ok := true;
  }

  /** The counter is additive over adjacent stretches of tokens. */
  lemma {:induction false} DepthSplit(toks: seq<Token>, i: nat, j: nat, k: nat, l: Token, r: Token)
    requires i <= j <= k
    ensures Depth(toks, i, k, l, r) == Depth(toks, i, j, l, r) + Depth(toks, j, k, l, r)
    decreases k - j
  {
    if k > j {
      DepthSplit(toks, i, j, k - 1, l, r);
    }
  }

  /** A parenthesised group that `skip` walks from a `(` at depth 0 holds no
      `)` at depth 0, up to and including where the walk stopped. */
  lemma GroupInside(toks: seq<Token>, i: nat, j: nat, k: nat)
    requires i <= j < k && Peek(toks, j) == Punct('(')
    requires Depth(toks, i, j, Punct('('), Punct(')')) == 0
    requires forall m :: j < m <= k ==> Depth(toks, j, m, Punct('('), Punct(')')) != 0
    ensures forall m :: j < m <= k ==> Depth(toks, i, m, Punct('('), Punct(')')) > 0
  {
    forall m | j < m <= k
      ensures Depth(toks, i, m, Punct('('), Punct(')')) > 0
    {
      DepthPositive(toks, j, m, Punct('('), Punct(')'));
      DepthSplit(toks, i, j, m, Punct('('), Punct(')'));
    }
  }

  /** No `)` in `[i, j)` sits at depth 0 counted from `i`. */
  predicate NoOuterClose(toks: seq<Token>, i: nat, j: nat) {
    forall k :: i <= k < j && Peek(toks, k) == Punct(')') ==> Depth(toks, i, k, Punct('('), Punct(')')) > 0
  }

  /** A token other than `)` extends a stretch with no `)` at depth 0. */
  lemma NoOuterCloseStep(toks: seq<Token>, i: nat, j: nat)
    requires NoOuterClose(toks, i, j) && Peek(toks, j) != Punct(')')
    ensures NoOuterClose(toks, i, j + 1)
  {
  }

  /** The stretch with no `)` at depth 0 grows over a group whose inside
      stays at positive depth. */
  lemma NoOuterCloseGroup(toks: seq<Token>, i: nat, j: nat, k: nat)
    requires i <= j <= k && Peek(toks, j) == Punct('(')
    requires NoOuterClose(toks, i, j)
    requires forall m :: j < m <= k ==> Depth(toks, i, m, Punct('('), Punct(')')) > 0
    ensures NoOuterClose(toks, i, k + 1)
  {
    forall m | i <= m <= k && Peek(toks, m) == Punct(')')
      ensures Depth(toks, i, m, Punct('('), Punct(')')) > 0
    {
      if m < j {
        assert i <= m < j;
      }
    }
  }

  /** After `parseExpressionList` jumps over a closed group from `j` to its
      `)` at `k`, no `)` up to `k` sits at depth 0, and the depth is back
      at zero. */
  lemma ListGroupClosed(toks: seq<Token>, i: nat, j: nat, k: nat)
    requires i <= j <= k && Peek(toks, j) == Punct('(')
    requires Depth(toks, i, j, Punct('('), Punct(')')) == 0
    requires NoOuterClose(toks, i, j)
    requires forall m :: j < m <= k ==> Depth(toks, j, m, Punct('('), Punct(')')) != 0
    requires Depth(toks, j, k + 1, Punct('('), Punct(')')) == 0
    ensures NoOuterClose(toks, i, k + 1)
    ensures Depth(toks, i, k + 1, Punct('('), Punct(')')) == 0
  {
    DepthSplit(toks, i, j, k + 1, Punct('('), Punct(')'));
    assert NoOuterClose(toks, i, k + 1) by {
      DepthNext(toks, j, j, Punct('('), Punct(')'));
      assert j < k;
      GroupInside(toks, i, j, k);
      NoOuterCloseGroup(toks, i, j, k);
    }
  }

  /** After `parseExpressionList` jumps over a group that the end of the
      stream at `k` leaves open, no `)` before `k` sits at depth 0, and the
      depth there is positive. */
  lemma ListGroupOpen(toks: seq<Token>, i: nat, j: nat, k: nat)
    requires i <= j <= k && Peek(toks, j) == Punct('(') && Peek(toks, k) == Null
    requires Depth(toks, i, j, Punct('('), Punct(')')) == 0
    requires NoOuterClose(toks, i, j)
    requires forall m :: j < m <= k ==> Depth(toks, j, m, Punct('('), Punct(')')) != 0
    ensures NoOuterClose(toks, i, k)
    ensures Depth(toks, i, k, Punct('('), Punct(')')) > 0
  {
    GroupInside(toks, i, j, k);
    NoOuterCloseGroup(toks, i, j, k - 1);
    DepthPositive(toks, j, k, Punct('('), Punct(')'));
    DepthSplit(toks, i, j, k, Punct('('), Punct(')'));
  }

  /** `parseExpressionList` on a `(` at depth 0 calls `skip('(', ')')`: a
      closed group brings the depth back to zero past its `)` at `k`, an
      open one runs to the end of the stream at positive depth, and no `)`
      on the way sits at depth 0. */
  method SkipListGroup(toks: seq<Token>, i: nat, j: nat) returns (closed: bool, k: nat)
    requires i <= j && Peek(toks, j) == Punct('(')
    requires Depth(toks, i, j, Punct('('), Punct(')')) == 0
    requires NoOuterClose(toks, i, j)
    ensures j <= k
    ensures closed ==> NoOuterClose(toks, i, k + 1) && Depth(toks, i, k + 1, Punct('('), Punct(')')) == 0
    ensures !closed ==> j < k && Peek(toks, k) == Null && NoOuterClose(toks, i, k)
    ensures !closed ==> Depth(toks, i, k, Punct('('), Punct(')')) > 0
  {
    closed, k := Skip(toks, j, Punct('('), Punct(')'));
    if closed {
      ListGroupClosed(toks, i, j, k);
    } else {
      ListGroupOpen(toks, i, j, k);
    }
  }

  /** `parseExpressionList()`: takes tokens, a parenthesised group at a
      time, up to the first `)` at depth 0 or the end. An unclosed group is
      reported as an error; the result is always true. */
  method ParseExpressionList(toks: seq<Token>, i: nat, e: Errors) returns (ok: bool, j: nat, e': Errors)
    ensures ok
    ensures i <= j
    ensures Peek(toks, j) == Null || Peek(toks, j) == Punct(')')
    ensures Peek(toks, j) == Punct(')') ==> Depth(toks, i, j, Punct('('), Punct(')')) == 0
    ensures forall k :: i <= k < j && Peek(toks, k) == Punct(')') ==>
      Depth(toks, i, k, Punct('('), Punct(')')) > 0
    ensures Peek(toks, i) == Punct(')') ==> j == i && e' == e
    ensures e' == e || (e' == ReportError(e, MissingParen) && Peek(toks, j) == Null)
    ensures e' != e <==> Peek(toks, j) == Null && Depth(toks, i, j, Punct('('), Punct(')')) > 0
  {
    j := i;
    e' := e;
    while Peek(toks, j) != Null
      invariant i <= j
      invariant e' == e || (e' == ReportError(e, MissingParen) && Peek(toks, j) == Null)
      invariant e' == e ==> Depth(toks, i, j, Punct('('), Punct(')')) == 0
      invariant e' != e ==> Depth(toks, i, j, Punct('('), Punct(')')) > 0
      invariant NoOuterClose(toks, i, j)
      invariant Peek(toks, i) == Punct(')') ==> j == i && e' == e
      decreases |toks| - j
    {
      var tk := Peek(toks, j);
      if tk == Punct('(') {
        var closed, k := SkipListGroup(toks, i, j);
        if !closed {
          e' := ReportError(e', MissingParen);
          j := k;
        } else {
          j := k + 1;
        }
      } else if tk == Punct(')') {
        break;
      } else {
        DepthNext(toks, i, j, Punct('('), Punct(')'));
        NoOuterCloseStep(toks, i, j);
        j := j + 1;
      }
    }
    ok := true;
  }

  /** The message `parseExpressionList` reports for an unclosed group. */
  const MissingParen: string := ") missing"
}

=== FILE: wrappers.dfy ===
/** Optional values, used wherever the original code returns a null pointer
    or an "invalid" value to say that nothing was found. */
module Wrappers {

  datatype Option<+T> = None | Some(value: T) {

    /** Returns the wrapped value, or `default` when there is none. */
    function GetOr(default: T): T {
      match this
      case Some(v) => v
      case None => default
    }
  }
}
